=== FILE: README.md ===
# Maestro, modelled in Dafny

Maestro shares music across streaming services. A user pastes a link to an
artist, album or track on Spotify, Apple Music or Deezer. The backend
recognises the service from the link and looks the entity up there. It then
searches every other service for the same entity, stores what it found in
MongoDB and answers with one result per service. A Remix web frontend sends
the link to the API, redirects to the page of the entity's kind and renders
one link per service.

This project models the core of that system as pure Dafny functions and
methods over immutable data, and proves properties of them:

- **Link recognition.**
  - The Spotify share-link pattern in its three copies: an optional scheme, https only, and the current one (`SpotifyLink`, `SpotifyAdapter`).
  - The Apple Music link with its song rewrite (`AppleMusic`).
  - The two Deezer patterns, share and actual, and the redirect chain that leads from one to the other (`DeezerLink`, `Deezer`).
  - The Spotify and Deezer patterns are written out as deterministic recognisers with the leftmost-first, greedy semantics of Go's `regexp`. Round trips are proved for them: a link built from a scheme, a type and an id is read back with exactly those captures.
- **Adapters.**
  - Each adapter's searches, its link lookup (`GetFromLink` / `SearchFromLink` of the older copies), `CleanLink`, and the conversions from remote entities to Maestro's `Artist`, `Album` and `Track`.
  - The remote API is a parameter: a datatype of functions.
- **Dispatch and provider.**
  - `SearchThing` of the current and legacy packages, and `ForEachStreamingService` (`ServiceDispatch`).
  - The default service provider (`Provider`).
- **Storage.**
  - A document store with an equality filter (`Documents`).
  - The migrator and migrations 0001 (split `things` by type) and 0002 (add artist and album ids) (`Migrations`).
  - `model.UnmarshalThing` and its cursor loop (`ThingDecoding`).
  - Both MongoDB repositories (`MongoRepository`).
- **API.**
  - The `Result` map of the handlers, and the track-by-ISRC handler with `getNewTrackByIsrc` (`Handlers`).
  - The response-writer decorator of the logging and metrics middleware (`ResponseWriter`).
- **Frontend.**
  - The API client (`ApiClient`).
  - The index route's form action (`IndexRoute`).
  - `findBestThing` and `formatArtistNames` (`ThingModel`).
  - The catalogue components (`Catalogue`).
- **Name normalisation** (`Normalize`), with its patterns as parameters.

Conventions used throughout:

- **Go failures.**
  - A Go panic or a JavaScript TypeError is the `Panic` case of `Wrappers.Exec`.
  - An `error` is `Result.Err` carrying the error text.
  - A `(value, found, err)` triple is `Catalog.Search`.
  - A value returned through `interface{}` is `Catalog.Value`. This keeps Go's difference between a nil interface and a nil pointer.
- **Map iteration order.** Where the source loops over a Go map, the order is a parameter of the method.
- **I/O.** The clock, the network, configuration and metrics counters are not modelled. Remote clients, database drivers and BSON decoders are parameters.

## Model

| member | source | states |
|---|---|---|
| SearchLoop.LastHit | pkg/streamingservice/spotify/spotify_streaming_service.go:132-160 | The per-artist search loop fails at the first failing query, with that query's error. Otherwise it is found exactly when some name had hits, and then holds the first hit of the last name with hits. It is not found when no name has hits. |
| SpotifyLink.FindMatch | pkg/streamingservice/spotify/spotify_streaming_service.go:21 | The leftmost match of the share pattern: a match is well formed, and no earlier position admits one. No match means no position admits one. |
| SpotifyLink.MatchAt | pkg/streamingservice/spotify/spotify_streaming_service.go:21 | A match at a fixed position starts there and is well formed: its span spells the share link of its captures, with a valid scheme, a letter type and an alphanumeric id that no alphanumeric character follows. |
| SpotifyLink.MatchAtStartCases | pkg/streamingservice/spotify/spotify_streaming_service.go:21 | At the start of a string the scheme is "https://", "http://" or nothing, depending on which of them the string starts with and whether the host follows it. |
| SpotifyLink.ShareLinkRoundTrip | pkg/streamingservice/spotify/spotify_streaming_service.go:21 | A share link built from a valid scheme, a letter type and an alphanumeric id, followed by anything that does not extend the id, matches at 0 with exactly those captures. |
| SpotifyAdapter.ImageUrl | pkg/streamingservice/spotify/spotify_streaming_service.go:416-422 | The first image's URL, or "" when there are no images. |
| SpotifyAdapter.ArtistName | pkg/streamingservice/spotify/spotify_streaming_service.go:404-414 | One name per artist, in order. |
| SpotifyAdapter.AccessToken | pkg/streamingservice/spotify/spotify_streaming_service.go:55-65 | A non-empty "error" string fails with that message. A missing or non-string "access_token" fails. Otherwise the result is the token. |
| SpotifyAdapter.AccessTokenLegacy | pkg/streamingService/spotify/spotifyStreamingService.go:40-48 | The legacy copy panics on a missing or non-string token and never reads "error". |
| SpotifyAdapter.AccessTokenCopies | pkg/streamingService/spotify/spotifyStreamingService.go:40-48 | Where the current copy returns a token, the legacy copy returns the same one. The legacy copy also accepts a response that carries an error text. |
| SpotifyAdapter.TrackQuery | pkg/streamingservice/spotify/spotify_streaming_service.go:209-213 | The query is by ISRC when the track has one, and otherwise by artist, album and track name. |
| SpotifyAdapter.TrackQueryIgnoresArtist | pkg/streamingservice/spotify/spotify_streaming_service.go:209-213 | With an ISRC, every iteration asks the same query, whatever the artist. |
| SpotifyAdapter.SearchArtist | pkg/streamingservice/spotify/spotify_streaming_service.go:94-121 | An error fails the search with that error. No results means not found. Otherwise the first result, converted. |
| SpotifyAdapter.SearchAlbum | pkg/streamingservice/spotify/spotify_streaming_service.go:123-161 | One query per artist name. The first failing query aborts the search with its error, and the last name with hits gives the album. |
| SpotifyAdapter.SearchTrack | pkg/streamingservice/spotify/spotify_streaming_service.go:196-243 | An empty artist list finds nothing, even with an ISRC. With an ISRC and some artist, the ISRC query decides: it fails with that query's error, finds or misses exactly when that query does. Without an ISRC, one query per artist name is sent: the first failing query fails the search with its error, nothing is found exactly when no query has hits, and the found track is the converted first hit of the last name with hits. |
| SpotifyAdapter.GetTrackByIsrc | pkg/streamingservice/spotify/spotify_streaming_service.go:163-194 | The first result of the ISRC query without a market, or not found, or a failure carrying the query's error. A found track carries the Spotify key as its source and the default market. |
| SpotifyAdapter.PlaylistTracks | pkg/streamingservice/spotify/spotify_streaming_service.go:268-285 | Each page request's offset is the number of tracks gathered before it. A failed page gives its error. A complete playlist is all gathered tracks, as many as the total. The walk runs out of fuel only after `fuel` successful requests. |
| SpotifyAdapter.GetPlaylistTracks | pkg/streamingservice/spotify/spotify_streaming_service.go:263-302 | Every collected track is converted, in order. |
| SpotifyAdapter.SubmatchMap | pkg/streamingservice/spotify/spotify_streaming_service.go:424-437 | The named captures of the leftmost match. With no match, indexing the nil capture slice panics. |
| SpotifyAdapter.CleanLink | pkg/streamingservice/spotify/spotify_streaming_service.go:394-402 | The leftmost match's span, or the link unchanged when nothing matches. |
| SpotifyAdapter.CleanLinkMatch | pkg/streamingservice/spotify/spotify_streaming_service.go:394-402 | A cleaned link is matched whole, from 0 to its end, with the captures of the original. |
| SpotifyAdapter.CleanLinkIdempotent | pkg/streamingservice/spotify/spotify_streaming_service.go:394-402 | Cleaning twice is cleaning once. |
| SpotifyAdapter.CleanLinkKeepsCaptures | pkg/streamingservice/spotify/spotify_streaming_service.go:394-402 | Cleaning keeps a link claimed and keeps its type and id. |
| SpotifyAdapter.LegacyNeedsHttps | pkg/streamingService/spotify/spotifyStreamingService.go:52 | Every match of the legacy pattern starts with "https://open.spotify.com/". |
| SpotifyAdapter.SchemelessLinkClaimed | pkg/streamingservice/spotify/spotify_streaming_service.go:21 | "open.spotify.com/track/4cOd?si=1" matches from 0 to 27 with type "track" and id "4cOd". |
| SpotifyAdapter.Dispatch | pkg/streamingservice/spotify/spotify_streaming_service.go:316-391 | Artist, album, track and playlist each go to their own lookup and come back tagged. An artist lookup error returns the value `false`, and the other errors return nil. Any other type is "unknown type". |
| SpotifyAdapter.GetFromLink | pkg/streamingservice/spotify/spotify_streaming_service.go:304-392 | The captures of the leftmost match go to the dispatch. A link without a match panics. |
| SpotifyAdapter.DispatchShape | pkg/streamingservice/spotify/spotify_streaming_service.go:316-391 | A result is either an error tagged UnknownType without an entity, or a tag that names the entity's variant. |
| SpotifyAdapter.GetFromLinkClean | pkg/streamingservice/spotify/spotify_streaming_service.go:304-402 | Looking up a cleaned link gives the same result as looking up the original. |
| SpotifyAdapter.DispatchOlder | pkg/streamingservice/spotify/spotifyStreamingService.go:205-276 | The older switch handles artist, album and track. Everything else is "unknown type", playlists included. |
| SpotifyAdapter.SearchFromLink | pkg/streamingservice/spotify/spotifyStreamingService.go:205-276 | The middle copy uses the optional-scheme pattern and the legacy copy the https-only one. Both panic without a match. |
| SpotifyAdapter.DispatchOlderAgrees | pkg/streamingservice/spotify/spotifyStreamingService.go:217-275 | The older switch agrees with the current one on artists, albums and tracks, and reports playlists as an unknown type. |
| SpotifyAdapter.MiddleAgreesWithCurrent | pkg/streamingservice/spotify/spotifyStreamingService.go:205-276 | On the same link, the middle copy returns what the current one returns, except for playlists. |
| SpotifyAdapter.LinkBelongsToService | pkg/streamingservice/spotify/spotify_streaming_service.go:90-92 | True exactly when the share pattern of the scheme mode matches at some position of the link, as `MatchString` does. |
| SpotifyAdapter.LegacyClaimsFewer | pkg/streamingService/spotify/spotifyStreamingService.go:52-70 | The legacy copy claims a link only if the current one does. |
| SpotifyAdapter.LegacyMatchAlsoOptional | pkg/streamingService/spotify/spotifyStreamingService.go:52 | Wherever the https-only pattern matches, the optional-scheme pattern matches too. |
| AppleMusic.SongRewrite | pkg/streamingservice/applemusic/apple_music_streaming_service.go:164-169 | An album link with a song id becomes a song lookup with that id. Anything else is unchanged, and an album result never carries a song id. |
| AppleMusic.CleanLink | pkg/streamingservice/applemusic/apple_music_streaming_service.go:210-218 | The leftmost match's span, or the link unchanged. It is never longer than the link. |
| AppleMusic.ArtworkUrlFilled | pkg/streamingservice/applemusic/apple_music_streaming_service.go:289-295 | No "{w}" or "{h}" placeholder is left in the artwork URL, whatever the template. |
| AppleMusic.ArtworkUrlNoPlaceholders | pkg/streamingservice/applemusic/apple_music_streaming_service.go:289-295 | A URL without placeholders is returned unchanged. |
| AppleMusic.StripSingle | pkg/streamingservice/applemusic/apple_music_streaming_service.go:236-243 | For a single, one trailing " - Single" is cut. Every other name is unchanged. |
| AppleMusic.StripSingleRoundTrip | pkg/streamingservice/applemusic/apple_music_streaming_service.go:236-243 | A single's name with the suffix appended comes back as it was. An album that is not a single keeps its suffix. |
| AppleMusic.StripSingleOnce | pkg/streamingservice/applemusic/apple_music_streaming_service.go:236-243 | Only one suffix is cut: " - Single - Single" keeps one. |
| AppleMusic.CollectNames | pkg/streamingservice/applemusic/apple_music_streaming_service.go:297-331 | The names of the looked-up artists, in order, stopping without an error at the first failed lookup. |
| AppleMusic.ArtistNames | pkg/streamingservice/applemusic/apple_music_streaming_service.go:297-331 | The loop computes the reference `CollectNames`. When it stops short, the next lookup failed. |
| AppleMusic.SongArtwork | pkg/streamingservice/applemusic/apple_music_streaming_service.go:333-351 | The artwork of the first album relationship, or "" without one. A failed album lookup is an error. |
| AppleMusic.NewArtist | pkg/streamingservice/applemusic/apple_music_streaming_service.go:220-230 | The artist keeps the Apple Music name and URL. It has no artwork and carries the service key and the market. |
| AppleMusic.NewAlbum | pkg/streamingservice/applemusic/apple_music_streaming_service.go:232-260 | The album never fails. Its name is the stripped name and its artists are the collected names. |
| AppleMusic.NewTrack | pkg/streamingservice/applemusic/apple_music_streaming_service.go:262-287 | The track fails exactly when its artwork lookup fails. |
| AppleMusic.SearchArtist | pkg/streamingservice/applemusic/apple_music_streaming_service.go:38-56 | Only the first result of the search is used. No result means not found, and an error fails the search. |
| AppleMusic.SearchAlbum | pkg/streamingservice/applemusic/apple_music_streaming_service.go:58-83 | The first result of the term search is loaded again by id for its relationships. |
| AppleMusic.SongCandidates | pkg/streamingservice/applemusic/apple_music_streaming_service.go:113-124 | The candidates come from the ISRC lookup in the track's market when there is an ISRC, and otherwise from the search for the joined artist names and the track name. |
| AppleMusic.SearchTrack | pkg/streamingservice/applemusic/apple_music_streaming_service.go:107-141 | The first candidate, loaded again by id. A failed conversion is reported as found with an error. |
| AppleMusic.GetTrackByIsrc | pkg/streamingservice/applemusic/apple_music_streaming_service.go:85-105 | A failed lookup fails with its error, and no songs is not found. Otherwise the first song is converted without a second lookup: a successful conversion is found, and a failed one fails with the conversion's error. A found track carries the Apple Music key and the song's ISRC. |
| AppleMusic.Dispatch | pkg/streamingservice/applemusic/apple_music_streaming_service.go:171-207 | Artist, album and song each go to their own lookup and come back tagged. A converted song is a track value with no error. A song whose conversion fails comes back tagged TrackType with a nil track and the conversion's error. A playlist panics, and any other type is "unknown type". |
| AppleMusic.GetFromLink | pkg/streamingservice/applemusic/apple_music_streaming_service.go:151-208 | The captures of the leftmost match, rewritten for songs, go to the dispatch. Without a match the capture lookup panics. |
| AppleMusic.AlbumLinkWithSongIsTrack | pkg/streamingservice/applemusic/apple_music_streaming_service.go:164-169 | An album link carrying a song id is looked up as a song, with the song id. |
| AppleMusic.DispatchOlder | pkg/streamingservice/applemusic/appleMusicStreamingService.go:121-174 | The older switch handles artist, album and song, with no playlist case. |
| AppleMusic.SearchFromLink | pkg/streamingservice/applemusic/appleMusicStreamingService.go:121-174 | The older link lookup. |
| AppleMusic.DispatchCopiesAgree | pkg/streamingservice/applemusic/appleMusicStreamingService.go:121-174 | Outside playlists the two copies return the same value and error. The older copy's found flag is exactly "the current copy's tag is known". |
| DeezerLink.FindShare | pkg/streamingservice/deezer/deezer_streaming_service.go:44 | The leftmost match of the share pattern. No match means no position admits one. |
| DeezerLink.ShareRoundTrip | pkg/streamingservice/deezer/deezer_streaming_service.go:44 | A share link built from a valid scheme and an alphanumeric id is read back with that id. |
| DeezerLink.FindActual | pkg/streamingservice/deezer/deezer_streaming_service.go:45 | The leftmost match of the actual-link pattern, with the optional lang group, type and id. |
| DeezerLink.LangPathWithLang | pkg/streamingservice/deezer/deezer_streaming_service.go:45 | A lang group that is present is taken. |
| DeezerLink.LangPathNoLang | pkg/streamingservice/deezer/deezer_streaming_service.go:45 | Without a lang group, the group's attempt fails and the path is read from the host on. |
| DeezerLink.WwwChoice | pkg/streamingservice/deezer/deezer_streaming_service.go:45 | The "www." group is taken when it is present and the rest matches after it. |
| DeezerLink.ActualRoundTrip | pkg/streamingservice/deezer/deezer_streaming_service.go:45 | An actual link built from a scheme, an optional "www.", an optional lang, a type and a digit id is read back with exactly those parts. |
| DeezerLink.ShareNeedsG | pkg/streamingservice/deezer/deezer_streaming_service.go:44 | A share match spells the share host, so a link without a 'g' has none. |
| DeezerLink.WebLinkOnlyActual | pkg/streamingservice/deezer/deezer_streaming_service.go:44-45 | "https://www.deezer.com/en/track/606334862" matches the actual pattern with its parts as captures, and does not match the share pattern. |
| Deezer.LinkBelongsToService | pkg/streamingservice/deezer/deezer_streaming_service.go:54-56 | True exactly when the share pattern or the actual-link pattern matches at some position of the link. |
| Deezer.LinkBelongsToServiceOlder | pkg/streamingservice/deezer/deezerStreamingService.go:50-52 | True exactly when the share pattern matches at some position of the link. |
| Deezer.OlderClaimsFewer | pkg/streamingservice/deezer/deezerStreamingService.go:50-52 | The older copy claims a subset of the links the current one claims, and the canonical web link is in the difference. |
| Deezer.WrittenLinksClaimed | pkg/streamingservice/deezer/deezer_streaming_service.go:54-56 | Every share link, and every actual link not followed by a digit, is claimed by the current copy. The older copy claims the share links. |
| Deezer.CleanLink | pkg/streamingservice/deezer/deezer_streaming_service.go:297-305 | The leftmost share match, or the link unchanged, also when it matches only the actual pattern. |
| Deezer.CleanLinkMatch | pkg/streamingservice/deezer/deezer_streaming_service.go:297-305 | A cleaned share link is matched whole, with the captures of the original. |
| Deezer.CleanLinkIdempotent | pkg/streamingservice/deezer/deezer_streaming_service.go:297-305 | Cleaning twice is cleaning once. A cleaned link is claimed by both copies exactly when the older copy claimed the original. |
| Deezer.FirstActual | pkg/streamingservice/deezer/deezer_streaming_service.go:28-36 | A picked index names a redirect URL that matches the actual pattern. |
| Deezer.FirstActualLeftmost | pkg/streamingservice/deezer/deezer_streaming_service.go:28-36 | No URL before the picked one matches, and when none is picked no URL matches. |
| Deezer.Follow | pkg/streamingservice/deezer/deezer_streaming_service.go:27-40 | The first redirect to an actual link is refused and its URL kept, without an error. Otherwise the request ends with "" and the request's own outcome. |
| Deezer.GetActualLink | pkg/streamingservice/deezer/deezer_streaming_service.go:20-41 | An actual link is returned as it is, without a request. Anything else is followed. |
| Deezer.GetActualLinkOlder | pkg/streamingservice/deezer/deezerStreamingService.go:20-37 | The older copy always requests the link. |
| Deezer.ActualLinkMatches | pkg/streamingservice/deezer/deezer_streaming_service.go:20-41 | In both copies the link handed on is "" or a link the actual pattern matches. An error comes only with "". |
| Deezer.ActualLinkNeedsNoRequest | pkg/streamingservice/deezer/deezer_streaming_service.go:23-25 | The current copy's answer for an actual link does not depend on the server. |
| Deezer.SubmatchMap | pkg/streamingservice/deezer/deezer_streaming_service.go:215-219 | The named captures of the leftmost actual match. Without a match, indexing the capture slice panics. |
| Deezer.Fetch | pkg/streamingservice/deezer/deezer_streaming_service.go:225-242 | `strconv.Atoi` of the id, then the lookup. A parse error or a lookup error is returned, and a nil result is dereferenced, which panics. |
| Deezer.Tagged | pkg/streamingservice/deezer/deezer_streaming_service.go:226-242 | The current copy returns the entity with its tag, or the error with UnknownType and a nil value. |
| Deezer.Flagged | pkg/streamingservice/deezer/deezerStreamingService.go:198-219 | The older copy returns `(entity, true, nil)` or `(nil, false, err)`. |
| Deezer.Dispatch | pkg/streamingservice/deezer/deezer_streaming_service.go:221-294 | A type other than artist, album and track answers "unknown type" and the type. A non-numeric id answers the conversion error. Only a known type with a numeric id can panic. |
| Deezer.DispatchOlder | pkg/streamingservice/deezer/deezerStreamingService.go:197-270 | The older switch has the same three cases. |
| Deezer.DispatchCopiesAgree | pkg/streamingservice/deezer/deezerStreamingService.go:197-270 | The two switches panic together and otherwise return the same value and error. The older found flag is "the current tag is known". |
| Deezer.DispatchShape | pkg/streamingservice/deezer/deezer_streaming_service.go:221-294 | A lookup either fails with UnknownType and no entity, or carries a known tag that names the entity's variant. |
| Deezer.GetFromLink | pkg/streamingservice/deezer/deezer_streaming_service.go:202-295 | A link that is already an actual link goes to the dispatch with its captures. Otherwise the first redirect that is an actual link goes to the dispatch with that redirect's type and id. When neither the link nor any redirect is one, a redirect error is returned with UnknownType, and without an error it panics. |
| Deezer.SearchFromLink | pkg/streamingservice/deezer/deezerStreamingService.go:178-271 | The older link lookup: the first redirect that is an actual link goes to the older dispatch with its type and id. When no redirect is one, a redirect error is returned with a nil thing, and without an error it panics. |
| Deezer.LinkCopiesAgree | pkg/streamingservice/deezer/deezerStreamingService.go:178-271 | For a link that is not already an actual link, both copies follow the same redirects and agree as their switches do. |
| Deezer.MatchedIdParses | pkg/streamingservice/deezer/deezer_streaming_service.go:225-228 | A matched id is a non-empty run of digits, so parsing it fails only beyond the 64-bit range. |
| Deezer.ActualLinkReachesLookup | pkg/streamingservice/deezer/deezer_streaming_service.go:210-294 | An actual link whose id is in range reaches the lookup of its type. An error from the current copy is then the type's or the client's, never the parser's. |
| Deezer.SearchArtist | pkg/streamingservice/deezer/deezer_streaming_service.go:62-86 | The first result of the name search, not found without one, or a failure carrying the search's error. |
| Deezer.SearchAlbum | pkg/streamingservice/deezer/deezer_streaming_service.go:88-123 | One query per artist name. The first failing query aborts the search with its error, and the last name with hits wins. |
| Deezer.SearchTrack | pkg/streamingservice/deezer/deezer_streaming_service.go:145-200 | The loop agrees with the reference reading `Outcome` of its per-artist steps: the first failure or panic decides, and otherwise the last track taken. |
| Deezer.NoArtistsNotFound | pkg/streamingservice/deezer/deezer_streaming_service.go:145-200 | With no artist names nothing is searched, even with an ISRC. |
| Deezer.IsrcSearchIsLookup | pkg/streamingservice/deezer/deezer_streaming_service.go:145-200 | With an ISRC and at least one artist, the search is the ISRC lookup alone, with a nil result reported as not found. |
| Deezer.TermSearchLastHitWins | pkg/streamingservice/deezer/deezer_streaming_service.go:145-200 | Without an ISRC, a found track is the refetch of the first hit for an artist name after which no name had hits. |
| Deezer.GetTrackByIsrc | pkg/streamingservice/deezer/deezer_streaming_service.go:125-143 | As written, it panics exactly when the lookup returns no error and a nil track (a 404 or a track without a link). It never answers not found, and a lookup error is a failure. A found track carries the Deezer key and the looked-up ISRC. |
| Deezer.GetTrackByIsrcFixed | pkg/streamingservice/deezer/deezer_streaming_service.go:125-143 | A nil lookup result is reported as not found, as in the ISRC branch of the track search. A lookup error fails with that error, and tracks are converted with the Deezer key as their source. |
| Deezer.GetTrackByIsrcAgrees | pkg/streamingservice/deezer/deezer_streaming_service.go:125-143 | The two versions agree exactly when the lookup does not come back nil. |
| Deezer.GetTrackByIsrcUnknownPanics | pkg/streamingservice/deezer/deezer_streaming_service.go:127-133 | For a client that answers 404, the code as written panics and the fixed version reports not found. |
| Text.ReplaceAllContains | pkg/streamingservice/applemusic/apple_music_streaming_service.go:291-292 | Replacing with text that shares no character with `u` creates no occurrence of `u`, and leaves none when `u` is the pattern. |
| Text.DecimalRoundTrip | pkg/streamingservice/applemusic/apple_music_streaming_service.go:291-292 | The decimal text of a natural number is all digits and reads back as the number. |
| Text.Atoi | pkg/streamingservice/deezer/deezer_streaming_service.go:225 | `strconv.Atoi` never yields a value outside the 64-bit range. A non-empty digit string within the range yields its value, and one beyond the range is an error. |
| Text.TrimSpacesSpec | pkg/model/normalize.go:41 | Trimming keeps a contiguous middle part of the string, drops only spaces around it, and leaves no space at either end. |
| ServiceDispatch.AsThing | pkg/streamingservice/streamingService.go:35-44 | Returning a `(*T, bool, error)` as a `Thing`: a nil `*T` becomes a non-nil interface holding a nil pointer of that kind. |
| ServiceDispatch.SearchThing | pkg/streamingservice/streamingService.go:18-48 | Each entity goes, unchanged, to its own search. Anything else is an error without a call. |
| ServiceDispatch.SearchThingKeepsKind | pkg/streamingservice/streamingService.go:18-48 | The result is a nil interface only for an unsupported type, and a found result has the query's kind. |
| ServiceDispatch.SearchThingOnlyAsksOne | pkg/streamingservice/streamingService.go:35-47 | Two services that agree on the searched entity give the same result. |
| ServiceDispatch.LegacySearchThing | pkg/streamingService/streamingService.go:85-99 | The legacy switch over artist, album and song, with `(Thing, error)` results. |
| ServiceDispatch.LegacySearchThingShape | pkg/streamingService/streamingService.go:85-99 | Only an unsupported type gives a nil interface. |
| ServiceDispatch.ForEachStreamingService | pkg/streamingService/streamingService.go:101-110 | The function is called on the services in order until the first error, which is returned. |
| Provider.NewDefaultProvider | pkg/streamingservice/provider/default_service_provider.go:18-66 | A factory is registered for every enabled key with a known factory. The configuration is kept as given. |
| Provider.Factory | pkg/streamingservice/provider/default_service_provider.go:27-60 | The Apple Music and Deezer factories never fail. Every other key gets Spotify's, which fails exactly when the Spotify client cannot be made, with "failed to initialize spotify streaming service: " and its error. |
| Provider.GetConfig | pkg/streamingservice/provider/default_service_provider.go:109-116 | The configuration of a configured key. Any other key is the error "couldn't find service config with key " and the key. |
| Provider.GetService | pkg/streamingservice/provider/default_service_provider.go:68-84 | The configuration must exist and be enabled, and the key must have a factory. |
| Provider.GetServiceFound | pkg/streamingservice/provider/default_service_provider.go:18-84 | On a provider built by `NewDefaultProvider`, a key's service is found exactly when the key is configured, enabled and known. |
| Provider.ListConfigsUnchanged | pkg/streamingservice/provider/default_service_provider.go:118-120 | The provider hands back the configuration it was built from. |
| Provider.ListServices | pkg/streamingservice/provider/default_service_provider.go:86-107 | Each factory's service under its key, or the first error. |
| Provider.FactoryKeysConfigured | pkg/streamingservice/provider/default_service_provider.go:86-107 | A factory key always has an enabled configuration, so the missing and disabled error branches of `ListServices` cannot be taken. |
| ThingDecoding.UnmarshalThing | pkg/model/thing.go:47-84 | The "thingtype" tag picks the decoder. An unknown tag is "unknown thing type: …", and a missing or non-string tag panics. |
| ThingDecoding.UnmarshalThingUsesTag | pkg/model/thing.go:56-79 | Each known tag decodes with its own decoder, whatever the other two do. |
| ThingDecoding.DecodedThingIsSearchable | pkg/model/thing.go:47-84 | A decoded thing is never answered with a nil interface by `SearchThing`. |
| ThingDecoding.UnmarshalThingsFromCursor | pkg/model/thing.go:30-45 | Succeeds exactly when every document decodes, with the things in cursor order. Otherwise the first failing document's error or panic is returned alone. |
| Documents.Select | pkg/api/db/mongo_repository.go:170-185 | `Find` with an equality filter: exactly the matching documents, in collection order. |
| Documents.SelectAppend | pkg/api/db/mongo_repository.go:170-185 | Selecting from two runs of documents selects from each in turn. |
| Documents.FindOne | pkg/api/db/mongo_repository.go:187-216 | The first matching document, or none exactly when no document matches. |
| Documents.FindOneIsFirstSelected | pkg/api/db/mongo_repository.go:187-216 | `FindOne` is the head of what `Find` returns. |
| Documents.Count | pkg/api/db/migrations/migrator.go:56-64 | The count is positive exactly when some document matches. |
| Documents.Insert | pkg/api/db/migrations/migrator.go:66-74 | Inserted documents go to the end of their collection, and every other collection is unchanged. |
| Migrations.HasExecuted | pkg/api/db/migrations/migrator.go:56-64 | True exactly when a record of the migration's version exists. A failing count is an error. |
| Migrations.RecordExecution | pkg/api/db/migrations/migrator.go:66-74 | One more record, of the migration's version, and nothing else changes. |
| Migrations.Execute | pkg/api/db/migrations/migrator.go:15-54 | The run happens in a transaction: an error leaves the database as it was, and a panic propagates. |
| Migrations.Run | pkg/api/db/migrations/migrator.go:25-51 | A failing count of the records fails a non-empty run with that error, before anything is executed. A panic comes only after a successful count. When every migration of the list is already recorded, the run executes nothing and changes nothing. A completed run executes at most one migration per list entry. |
| Migrations.RunStep | pkg/api/db/migrations/migrator.go:28-48 | In a completed run, the first migration was either recorded and skipped, or executed and recorded before the rest ran. |
| Migrations.RunAppendsRecords | pkg/api/db/migrations/migrator.go:28-48 | A completed run appends one record per executed migration, in order. |
| Migrations.RunExecutesFresh | pkg/api/db/migrations/migrator.go:28-48 | A completed run executes only versions not recorded before it, each at most once. |
| Migrations.RunKeepsRecords | pkg/api/db/migrations/migrator.go:28-48 | A completed run keeps every record it started with. |
| Migrations.RunRecordsAll | pkg/api/db/migrations/migrator.go:28-48 | After a completed run, every migration of the list is recorded. |
| Migrations.RunRecordsEach | pkg/api/db/migrations/migrator.go:15-54 | All of the run's guarantees together, for a successful `Execute`. |
| Migrations.ExecutedMigrationsAreSkipped | pkg/api/db/migrations/migrator_test.go:80-117 | With version 1 recorded, a run of versions 1 and 2 executes only 2 and leaves one record of each. |
| Migrations.BadMigrationsAbortAllChanges | pkg/api/db/migrations/migrator_test.go:119-139 | A failing third migration after two that succeed leaves no record at all. |
| Migrations.CopyKind | pkg/api/db/migrations/migration0001_split_things.go:16-33 | The things of one type are found and, when there are any, inserted into their own collection. Find and insert errors are returned. |
| Migrations.SplitThings | pkg/api/db/migrations/migration0001_split_things.go:12-80 | A failing find on `things` is the error. The split completes exactly when the find succeeds and every type that has things gets its insert accepted. Otherwise the error is that of a refused insert. A completed split keeps `things`. |
| Migrations.SplitThingsCopies | pkg/api/db/migrations/migration0001_split_things.go:12-80 | A completed split appends each type's things to its collection, keeps `things`, and touches nothing else. |
| Migrations.SplitThingsSkipsOtherTypes | pkg/api/db/migrations/migration0001_split_things.go:12-80 | A thing whose type is none of the three is copied nowhere. |
| Migrations.SplitThingsNoInsertWhenEmpty | pkg/api/db/migrations/migration0001_split_things.go:27-33 | A type without things asks for no insert, so a failing insert for its collection cannot matter. |
| Migrations.SplitThingsFirstError | pkg/api/db/migrations/migration0001_split_things.go:17-33 | A failing find fails the migration at once. A failing artist insert, with artists to insert, fails it whatever follows. |
| Migrations.SplitThingsExample | pkg/api/db/migrations/migration0001_split_things_test.go:12-73 | One thing of each type ends up in its own collection, and `things` keeps all three. |
| Migrations.SetFirst | pkg/api/db/migrations/migration0002_add_thing_ids.go:44 | `UpdateOne` keeps the number of documents. |
| Migrations.SetFirstUpdatesFirst | pkg/api/db/migrations/migration0002_add_thing_ids.go:44 | `UpdateOne` sets the field on the first document with that group id, and on no other document. |
| Migrations.AddIds | pkg/api/db/migrations/migration0002_add_thing_ids.go:27-77 | A failing `Find` on the collection is returned as the error. A completed run changes no other collection. |
| Migrations.AddThingIds | pkg/api/db/migrations/migration0002_add_thing_ids.go:12-25 | Artists first: unless their step completes without error, its failure or panic is the migration's result. |
| Migrations.AddIdsSetsEveryId | pkg/api/db/migrations/migration0002_add_thing_ids.go:27-51 | With unique string group ids and no failure, every document gets the field set to its group id and keeps its other fields. |
| Migrations.UpdateAll | pkg/api/db/migrations/migration0002_add_thing_ids.go:36-48 | With updates that succeed, the loop panics exactly when some document has no string group id, and otherwise completes without error. With a failing update, the first document decides: no string group id panics, and otherwise the update's error is returned. The panic is the failed `.(string)` conversion. A completed loop keeps the number of documents. |
| Migrations.UpdateAllPanics | pkg/api/db/migrations/migration0002_add_thing_ids.go:42 | A document without a string group id makes the migration panic once the loop reaches it. |
| Migrations.SharedGroupIdLeavesSecond | pkg/api/db/migrations/migration0002_add_thing_ids.go:42-44 | When two artists share a group id, the first gets the id twice and the second never gets it. |
| Migrations.AddThingIdsExample | pkg/db/migrations/migration0002_add_thing_ids_test.go:12-60 | One artist and one album, each with a group id, get it as their artist and album id. |
| MongoRepository.EncodeAll | pkg/db/mongo_repository.go:255-280 | One document per item, in order. |
| MongoRepository.AddArtist | pkg/db/mongo_repository.go:23-34 | The driver refuses an empty list. Otherwise the insert fails with the server's error exactly when the server refuses it, or appends one document per artist, in order, to `artists` alone and answers their number. |
| MongoRepository.AddAlbum | pkg/db/mongo_repository.go:84-95 | The same for albums and `albums`. |
| MongoRepository.AddTracks | pkg/db/mongo_repository.go:145-156 | The same for tracks and `tracks`. |
| MongoRepository.AddMany | pkg/db/mongo_repository.go:145-156 | `InsertMany` into the entity's collection answers the number of documents inserted. The driver refuses an empty list, and a failing insert changes nothing. |
| MongoRepository.UpdateMany | pkg/api/db/mongo_repository.go:84-88 | The older repository's updates panic, whatever they are given. |
| MongoRepository.DecodeAll | pkg/db/mongo_repository.go:293-316 | Every document is decoded in order. The first decoding error is returned alone. |
| MongoRepository.FindAllAsWritten | pkg/db/mongo_repository.go:175-190 | The error of `Find` is overwritten before anyone reads it, so a failed `Find` hands a nil cursor on, which panics. |
| MongoRepository.FindAll | pkg/db/mongo_repository.go:175-190 | With the error of `Find` returned: the collection's documents whose key field has the value, decoded in collection order. |
| MongoRepository.FindErrorPanics | pkg/db/mongo_repository.go:177-180 | A lookup by ISRC while the server is unreachable crashes the code as written, where the corrected lookup returns the error. |
| MongoRepository.GetArtistsById | pkg/db/mongo_repository.go:36-51 | As written, a failed `Find` panics on the nil cursor. Otherwise every artist whose id field matches is decoded, in collection order, and a decode error is returned. Each result decodes a matching document, and each matching document has a result. The current repository filters on "artistid" and the older one on "id". |
| MongoRepository.GetAlbumsById | pkg/db/mongo_repository.go:97-112 | As written, a failed `Find` panics on the nil cursor. Otherwise every album whose id field matches is decoded, in collection order, and a decode error is returned. Each result decodes a matching document, and each matching document has a result. The current repository filters on "albumid" and the older one on "id". |
| MongoRepository.GetTracksByIsrc | pkg/db/mongo_repository.go:175-190 | As written, a failed `Find` panics on the nil cursor. Otherwise every track whose "isrc" is the code is decoded, in collection order, and a decode error is returned. Each result decodes a matching document, and each matching document has a result. |
| MongoRepository.GetTracksByLegacyId | pkg/db/mongo_repository.go:158-173 | As written, a failed `Find` panics on the nil cursor. Otherwise every track whose "groupid" is the id is decoded, in collection order, and a decode error is returned. Each result decodes a matching document, and each matching document has a result. |
| MongoRepository.SelectEncoded | pkg/db/mongo_repository.go:175-190 | Selecting encoded tracks by ISRC selects the tracks with that ISRC. |
| MongoRepository.DecodeEncoded | pkg/db/mongo_repository.go:293-316 | Encoded tracks decode back to themselves. |
| MongoRepository.AddThenGetByIsrc | pkg/db/mongo_repository.go:145-190 | After `AddTracks`, `GetTracksByIsrc` finds what it found before, then the added tracks with that ISRC in the order they were added. |
| MongoRepository.ArtistByLink | pkg/db/mongo_repository.go:53-82 | A failing find is the error. No artist with that link is no artist and no error. Otherwise the first stored artist with that link is decoded. |
| MongoRepository.AlbumByLink | pkg/db/mongo_repository.go:114-143 | The same for albums. |
| MongoRepository.TrackByLink | pkg/db/mongo_repository.go:192-221 | The same for tracks. |
| MongoRepository.FindByLink | pkg/db/mongo_repository.go:53-82 | The first document of the collection with that link, decoded. No such document is no entity and no error. |
| MongoRepository.GetByLink | pkg/db/mongo_repository.go:223-253 | Artists first, then albums, then tracks. The first lookup that fails or finds something decides, and an error carries no type or value. |
| MongoRepository.GetByLinkFindsStoredTrack | pkg/db/mongo_repository.go:223-253 | A link stored only as a track is reported as a track, once the artist and album collections can be read. |
| Handlers.NewResult | pkg/api/handlers/result.go:12-15 | The given type and an empty, allocated map. |
| Handlers.Add | pkg/api/handlers/result.go:17-19 | Stores the value under its source. A nil value or a nil map panics. |
| Handlers.AddAll | pkg/api/handlers/result.go:21-25 | `Add` on each value in order, stopping at the first panic. |
| Handlers.AddAllPanics | pkg/api/handlers/result.go:17-25 | `AddAll` panics exactly when there is something to add and either the map is nil or a value has no source. |
| Handlers.AddAllLastWins | pkg/api/handlers/result.go:17-25 | On an allocated map, every source gets the last value with that source, other entries are kept, and nothing else is added. |
| Handlers.IsMissingResults | pkg/api/handlers/result.go:27-35 | True exactly when some entry is nil, in any iteration order. |
| Handlers.HasResultFor | pkg/api/handlers/result.go:37-45 | True exactly when the key has an entry, whatever its value. |
| Handlers.HasResults | pkg/api/handlers/result.go:47-55 | True exactly when some entry is not nil, in any iteration order. |
| Handlers.FilledResultComplete | pkg/api/handlers/result.go:12-55 | A result filled from `NewResult` misses nothing, has results once a value was added, and has one for every added source. |
| Handlers.ArtistResponseOneArtistPanics | pkg/api/handlers/artist.go:47-48 | One stored artist is enough to make the handler as written panic. |
| Handlers.ArtistResponseAsWritten | pkg/api/handlers/artist.go:41-50 | With no artist found, the answer is not found with "could not find any artists with ID " and the id. |
| Handlers.ArtistResponsePanics | pkg/api/handlers/artist.go:42-50 | Every non-empty list of artists makes the handler as written panic. |
| Handlers.ArtistResponse | pkg/api/handlers/artist.go:41-50 | Not found exactly when no artist was found. Otherwise an artist result with no nil entry and an entry for every artist's source. |
| Handlers.TrackIsKnown | pkg/api/handlers/track.go:89-94 | True exactly when some known track has the service's key as its source. |
| Handlers.NewTracks | pkg/api/handlers/track.go:82-113 | At most one new track per service. |
| Handlers.NewTracksMeaning | pkg/api/handlers/track.go:82-113 | The walk stops exactly when some unknown service fails or panics. It stops at the first such service: a panic propagates, and a failure is returned with the tracks of the services before it. Otherwise it gathers every found track. |
| Handlers.NewTracksStops | pkg/api/handlers/track.go:100-103 | Once the walk has failed or panicked, the services after it change nothing. |
| Handlers.GetNewTrackByIsrc | pkg/api/handlers/track.go:82-113 | The loop computes `NewTracks`, including a service's panic, and only unknown services are asked. |
| Handlers.GatheredSkipsKnown | pkg/api/handlers/track.go:86-110 | When service keys are distinct and each service stamps its key on what it finds, no gathered track comes from a service a known track comes from. |
| Handlers.AdapterServices | pkg/api/handlers/track.go:29 | The services the handler is given: Apple Music, Spotify and, when enabled, Deezer, each answering with its adapter's ISRC lookup as written. Their keys are distinct, and only Deezer's lookup can panic. |
| Handlers.AdaptersGatherOnlyUnknown | pkg/api/handlers/track.go:86-110 | Over the Apple Music and Spotify adapters and the Deezer adapter as written, when enabled, no track the handler gathers comes from a service a stored track already comes from: each adapter's ISRC lookup stamps its own key. |
| Handlers.Stored | pkg/api/handlers/track.go:30-42 | The stored tracks with the ISRC, then those stored under it as a legacy id. The first panic or error of a lookup ends it and is returned. |
| Handlers.FindTracks | pkg/api/handlers/track.go:29-63 | As written: a repository panic or error is returned. When there are as many stored tracks as services, the stored tracks are returned. Otherwise the first unknown service that panics or fails decides: its panic propagates, or its error is returned. If none stops the walk, the gathered tracks are inserted and appended to the stored ones, and a refused insert is an error. |
| Handlers.FindTracksFixed | pkg/api/handlers/track.go:29-63 | The same, except that when nothing new was gathered the stored tracks are returned without an insert. |
| Handlers.FindTracksFixedDiffers | pkg/api/handlers/track.go:44-60 | The two versions differ only where there is nothing new to store and the store refuses an empty insert. The corrected one then answers the stored tracks. |
| Handlers.StoreRepo | pkg/db/mongo_repository.go:145-190 | The handler's repository over the document store: the ISRC and legacy-id lookups keep the whole lookup contract (a panic on an unreadable collection, every matching track in order, the first decoding error). An empty insert is refused, and a non-empty one answers its count or the driver's error. |
| Handlers.UnreachableStorePanics | pkg/db/mongo_repository.go:175-190 | With the track collection unreadable, the track handler over the real repository panics, in the code as written and in the corrected handler alike. |
| Handlers.NothingNewIsAnError | pkg/api/handlers/track.go:44-53 | As written, a store that refuses an empty insert turns every lookup with nothing new into an error. |
| Handlers.UnknownIsrcAnswersError | pkg/api/handlers/track.go:44-74 | With Deezer disabled and an empty store, an ISRC that neither the Apple Music nor the Spotify adapter knows is answered with an error as written, and with "could not find any tracks with ISRC code …" when corrected. |
| Handlers.UnknownIsrcPanicsWithDeezer | pkg/streamingservice/deezer/deezer_streaming_service.go:125-143 | With Deezer enabled, an empty store, Apple Music knowing no song and the Deezer API answering 404, the track handler panics with Deezer's nil dereference, as written and corrected alike. |
| Handlers.TrackResponse | pkg/api/handlers/track.go:65-79 | An error answer exactly for an error. Not found with "could not find any tracks with ISRC code " and the ISRC exactly for no tracks. Otherwise a track result with no nil entry and an entry for every track's source. |
| Handlers.TrackResponseLastWins | pkg/api/handlers/track.go:40-79 | A track with no later track of the same source is the one its source shows. So a new track wins over a legacy-id one, and that over an ISRC one. |
| ResponseWriter.Step | pkg/api/middleware/response_writer_decorator.go:11-18 | `WriteHeader` is forwarded and then recorded. `Write` is forwarded and records nothing. |
| ResponseWriter.DecorateForwards | pkg/api/middleware/response_writer_decorator.go:6-18 | The decorator is transparent: the client receives what it would without it. |
| ResponseWriter.DecorateCapturesLast | pkg/api/middleware/response_writer_decorator.go:11-18 | What the middleware reads back is the last `WriteHeader`, or 0. |
| ResponseWriter.IsServerErrorCode | pkg/api/middleware/response_writer_decorator.go:20-22 | True exactly for the 5xx class. |
| ResponseWriter.RequestLevel | pkg/api/middleware/request_logging.go:45-48 | The log level is error exactly when the last `WriteHeader` is 5xx. |
| ResponseWriter.CountsServerError | pkg/api/middleware/metrics.go:36-38 | Counted as a server error exactly when the last `WriteHeader` is 5xx. |
| ResponseWriter.CapturedStatusIsNotSent | pkg/api/middleware/response_writer_decorator.go:11-18 | A handler that sends 500 and then calls `WriteHeader(200)` is logged at debug level and not counted. A handler that only writes is recorded as 0. |
| ResponseWriter.FixedCapturesSent | pkg/api/middleware/response_writer_decorator.go:11-18 | The corrected decorator stays transparent and reports the status the client receives. |
| ResponseWriter.FixedServerError | pkg/api/middleware/response_writer_decorator.go:20-22 | The corrected decision is a server error exactly when the sent status is 5xx. |
| ApiClient.SearchFromLink | web/frontend-remix/app/maestroApiClient.ts:21-34 | A non-200 status throws with the body's `Error` text. Anything else returns the body. |
| ApiClient.LinkSearchUrlInjective | web/frontend-remix/app/maestroApiClient.ts:22-23 | With an injective encoder, the requested URL identifies the link. |
| ApiClient.ResourceUrlInjective | web/frontend-remix/app/maestroApiClient.ts:47-112 | The URL of a resource request determines both the resource and the id. |
| ApiClient.TryGet | web/frontend-remix/app/maestroApiClient.ts:47-60 | A non-200 reply gives the error body, and a 200 reply gives its items. |
| ApiClient.GetChecked | web/frontend-remix/app/maestroApiClient.ts:36-45 | Throws when the try-result has a truthy `Error` field, and otherwise hands it back unchanged. |
| ApiClient.GetSucceedsOn200 | web/frontend-remix/app/maestroApiClient.ts:36-60 | A 200 reply reaches the caller as its items, whatever its `Error` field says. |
| ApiClient.GetServices | web/frontend-remix/app/maestroApiClient.ts:114-134 | Throws on a non-200 status. Otherwise every service's `LogoURL` becomes its public logo address. |
| ApiClient.LogoRewriteIdempotent | web/frontend-remix/app/maestroApiClient.ts:128-131 | The rewrite depends only on the key: doing it twice changes nothing. |
| IndexRoute.FormLink | web/frontend-remix/app/routes/index.tsx:24 | The form's `link` field. A missing field is `null`, which is sent as the text "null". |
| IndexRoute.RedirectFor | web/frontend-remix/app/routes/index.tsx:27-42 | Each kind redirects to its page with the first item's identifier. An empty item list throws, and an unknown kind goes to "/nothing". |
| IndexRoute.Action | web/frontend-remix/app/routes/index.tsx:20-43 | The form's link goes to the client unchanged, a thrown error propagates, and a response is dispatched on its `Type`. |
| IndexRoute.RedirectRoundTrip | web/frontend-remix/app/routes/index.tsx:27-42 | Every redirect leads to the page of the response's kind, carrying the first item's identifier. |
| ThingModel.FirstWithArtwork | web/frontend-remix/app/model/thing.ts:10-12 | The index of the first item with non-empty artwork. No earlier item has artwork. |
| ThingModel.FindBestThing | web/frontend-remix/app/model/thing.ts:10-12 | The first item with artwork, or undefined when there is none. |
| ThingModel.FormatArtistNames | web/frontend-remix/app/model/thing.ts:14-32 | The loop agrees with the reference reading `ArtistList`: no names give "", one name is itself, and more are joined by ", " with " and " before the last. |
| ThingModel.ArtistListExamples | web/frontend-remix/app/model/thing.ts:14-32 | ["A","B","C"] gives "A, B and C", and ["A","B"] gives "A and B". |
| Catalogue.FindService | web/frontend-remix/app/components/catalogueItem.tsx:57 | The first service with the key, or undefined exactly when none has it. |
| Catalogue.RenderLink | web/frontend-remix/app/components/catalogueItemLink.tsx:11-34 | The icon and name come from the service when there is one, or the question mark and "Unknown" otherwise. The anchor is always the item's link. |
| Catalogue.RenderLinkIgnoresLogo | web/frontend-remix/app/components/catalogueItemLink.tsx:11-34 | The rendered link never depends on the service's `LogoURL`. |
| Catalogue.RenderLinks | web/frontend-remix/app/components/catalogueItem.tsx:56-58 | One link per item, in order, each with its own service. |
| Catalogue.PreviewOf | web/frontend-remix/app/components/catalogueItem.tsx:27-44 | Artist, album and track get their own preview, and any other type "Unknown". |
| Catalogue.RenderCatalogue | web/frontend-remix/app/components/catalogueItem.tsx:17-62 | An empty list renders the apology. When no item has artwork, reading `bestThing!.ThingType` throws a TypeError. |
| Catalogue.RenderCatalogueFixed | web/frontend-remix/app/components/catalogueItem.tsx:17-62 | With a fallback to the first item, the apology is shown exactly for a missing or empty list, and a listing has one link per item. |
| Catalogue.RenderCatalogueCrashes | web/frontend-remix/app/components/catalogueItem.tsx:24-27 | A one-item list without artwork crashes the page as written. |
| Catalogue.RenderCatalogueFixedAgrees | web/frontend-remix/app/components/catalogueItem.tsx:17-62 | Whenever the page as written renders, the corrected page renders the same. |
| Catalogue.LinksFollowItems | web/frontend-remix/app/components/catalogueItem.tsx:56-58 | Each link points at its item's link, and shows the question mark exactly when no service has the item's source. |
| Normalize.Splice | pkg/model/normalize.go:32-38 | Cutting a match's span leaves the text before and after it, and no match leaves the name unchanged. |
| Normalize.RemoveMatches | pkg/model/normalize.go:31-41 | The loop computes `Normalized`, in which each pattern in turn cuts its match from the previous output. The result is never longer than the name, has no space at either end, and is the trimmed name when no pattern matches. |
| Normalize.NormalizeAlbumName | pkg/model/normalize.go:23-44 | Album type, then variation, then featured artist are cut, then spaces are trimmed. The result never grows, has no space at either end, and is the trimmed name when nothing matches. |
| Normalize.NormalizeTrackName | pkg/model/normalize.go:46-66 | Variation, then featured artist are cut, then spaces are trimmed. The result never grows, has no space at either end, and is the trimmed name when nothing matches. |
| Normalize.TrimKeepsOtherWhitespace | pkg/model/normalize.go:41 | Trimming " " leaves tabs and newlines in place. |
| Normalize.TrackNameFeatExample | pkg/model/normalize_test.go:1-45 | The variation is cut first, then the "(feat. …)" group, and the space left between them is trimmed. |
| Normalize.AlbumNameSuffixExample | pkg/model/normalize_test.go:1-45 | The album-type suffix is cut first, leaving a track-style name. |

## Left out

- **Network and configuration.** HTTP clients, request signing, configuration loading and metrics counters are not modelled. Each remote API is a parameter of the functions that call it.
- **Go map order.** Where the source ranges over a Go map, the order is a parameter, and the contracts hold for every order.
- **Regular expressions.**
  - The Apple Music link pattern and the three name-normaliser patterns are parameters. Only the properties the code relies on are assumed of them: a match lies within the string.
  - The Spotify and Deezer patterns are written out in full.
- **`FindStringSubmatchMap`.** `streamingservice.FindStringSubmatchMap`, used by the Apple Music and Deezer adapters, is not part of this model. It is modelled like the Spotify file's own `findStringSubmatchMap`, which panics when nothing matches.
- **Unimplemented adapter operations.** Apple Music's `GetPlaylistById` and `GetPlaylistTracksById` only panic with "not implemented". They are left out, except as the playlist case of its link dispatch. `Key` and `Name` are the key constants.
- **SpotifyAdapter.PlaylistTracks:** the paging loop takes a request bound (fuel). A server that keeps answering non-empty pages below the total would make the source loop forever, and the model reports `None` instead.
- **MongoDB.**
  - Driver failures are modelled per operation and collection, not per call.
  - Partial `InsertMany` failures, cursor iteration errors, sessions other than the migrator's transaction, and snapshot isolation are left out.
  - `bson.Unmarshal` into a map in `UnmarshalThing` and in the migrations' cursor loops is taken to succeed, since the model's documents are already decoded. Decoding into an entity type is a parameter.
  - `ensureMigrationsHaveExecuted` logs with `Fatalf` and is left out.
- **Collection names.** The `model.*CollectionName` constants are not part of this model. They are taken to be "artists", "albums" and "tracks", the names the migration writes to.
- **Repository differences.**
  - The older repository (pkg/api/db) has no `GetTracksByLegacyId`. The track handler's call to it is modelled with the newer repository's behaviour.
  - `model.UnmarshalArtistFromCursor` and the other typed cursor helpers are not part of this model. `DecodeAll` stands for them.
- **Handlers.**
  - Only the track handler and the artist handler's result are modelled. The album, link, search, playlist and services handlers, the dependency container and the JSON encoding of responses are left out.
  - The zero `model.Type` is stood for by `UnknownType`.
- **net/http.** The writer model covers the status line and the body only. `Header()`, `Flush`, informational 1xx statuses and the promoted methods other than `Write` are left out.
- **Frontend.**
  - React rendering is reduced to the data each component shows.
  - The `serviceContext` cache, `fetch` and `encodeURIComponent` are parameters.
  - The page components other than the catalogue are left out.
- ApiClient.TryGet: `fetch` is a total function, so a rejected `fetch` (a network failure) and a `res.json()` that throws on a body that is not JSON are not modelled. In the source both reject the returned promise.
- ApiClient.GetServices: as for `TryGet`, a rejected `fetch` and a throwing `res.json()` are not modelled.
- ApiClient.SearchFromLink: as for `TryGet`, a rejected `fetch` and a throwing `res.json()` are not modelled.
- Handlers.AdapterServices: fixes the order Apple Music, Deezer, Spotify. The container's service order is not part of this model. The handler's contracts hold for every order of distinct keys, and only the concrete lemmas use this one.
- Migrations.SetFirst: its own contract states only that the number of documents is kept. Which document changes, and how, is stated by `Migrations.SetFirstUpdatesFirst`.
- ResponseWriter.WireStep: accepts any `WriteHeader` code. net/http panics on a code outside 100 to 999, and that check is not modelled.
- **Numbers.**
  - Go's `int` is 64-bit. Only `strconv.Atoi`'s range check depends on that, and it is modelled.
  - Widths and heights in artwork URLs are unbounded integers.

## Findings

| source | as written | input that shows it | evidently intended | confidence | as-written member | corrected member |
|---|---|---|---|---|---|---|
| web/frontend-remix/app/components/catalogueItem.tsx:24-27 | `bestThing!.ThingType` with `findBestThing` returning undefined when no item has artwork | one track whose `ArtworkLink` is "" | preview the first item, as the non-null assertion assumes something is always found | not executed | Catalogue.RenderCatalogueCrashes | Catalogue.RenderCatalogueFixedAgrees |
| pkg/api/handlers/artist.go:47-48 | `res := &Result{}` has a nil `Services` map, and `AddAll` assigns into it | any artist id with one stored artist | `NewResult(model.ArtistType)`, as the album and track handlers do | not executed | Handlers.ArtistResponseOneArtistPanics | Handlers.ArtistResponse |
| pkg/streamingservice/deezer/deezer_streaming_service.go:127-133 | the client's nil track is dereferenced after a nil error | an ISRC the Deezer API answers with 404 | report not found, as `SearchTrack`'s ISRC branch does | not executed | Deezer.GetTrackByIsrcUnknownPanics | Deezer.GetTrackByIsrcFixed |
| pkg/db/mongo_repository.go:177-180 | the error of `Find` is overwritten by the next assignment before it is checked, so a nil cursor is decoded | `GetTracksByIsrc` while the database is unreachable | return the error of `Find` | not executed | MongoRepository.FindErrorPanics | MongoRepository.FindAll |
| pkg/api/handlers/track.go:44-53 | `AddTracks` is called even when `getNewTrackByIsrc` found nothing new, and the driver refuses an empty `InsertMany` | an ISRC no service knows, with Deezer disabled and an empty store (such as "USUM71703861") | skip the insert and answer "could not find any tracks" | not executed | Handlers.UnknownIsrcAnswersError | Handlers.FindTracksFixedDiffers |
| pkg/api/middleware/response_writer_decorator.go:11-18 | the decorator records the last `WriteHeader` (or 0 after a bare `Write`), which may differ from the status net/http sends | `WriteHeader(500)` followed by `WriteHeader(200)` | record the status actually sent | not executed | ResponseWriter.CapturedStatusIsNotSent | ResponseWriter.FixedCapturesSent |

=== FILE: api_client.dfy ===
/** The frontend's API client: which URL each call requests, and how the reply's
    status decides between returning a value and throwing. `fetch` and
    `encodeURIComponent` (section 2.1 of RFC 3986) are parameters. */
module ApiClient {
  import opened Wrappers
  import opened Text

  /** A decoded JSON body as the client reads it: the `Error` field of an error
      object, and the `Type` and `Items` fields of a result envelope. */
  datatype Payload<T> = Payload(error: Option<string>, kind: string, items: seq<T>)

  datatype Reply<T> = Reply(status: int, body: Payload<T>)

  /** A call either returns a value or throws an `Error` with a message. */
  datatype Outcome<T> = Return(value: T) | Throw(message: string)

  /** JavaScript truthiness of an optional string field. */
  predicate Truthy(s: Option<string>) {
    s.Some? && |s.value| > 0
  }

  /** `new Error(x).message`: an undefined message becomes "". */
  function ErrorMessage(s: Option<string>): string {
    s.GetOr("")
  }

  function LinkSearchUrl(baseUrl: string, link: string, encode: string -> string): string {
    baseUrl + "/link?link=" + encode(link)
  }

  /** `searchFromLink`: a non-200 status throws with the body's `Error` text,
      anything else returns the body as the result envelope. */
  function SearchFromLink<T>(baseUrl: string, link: string, encode: string -> string,
                             fetch: string -> Reply<T>): (r: Outcome<Payload<T>>)
    ensures var reply := fetch(baseUrl + "/link?link=" + encode(link));
      && (r.Throw? <==> reply.status != 200)
      && (r.Throw? ==> r.message == ErrorMessage(reply.body.error))
      && (r.Return? ==> r.value == reply.body)
  {
    var reply := fetch(LinkSearchUrl(baseUrl, link, encode));
    if reply.status != 200 then Throw(ErrorMessage(reply.body.error)) else Return(reply.body)
  }

  /** With an injective encoder, the requested URL identifies the link. */
  lemma LinkSearchUrlInjective(baseUrl: string, a: string, b: string, encode: string -> string)
    requires forall x, y :: encode(x) == encode(y) ==> x == y
    requires LinkSearchUrl(baseUrl, a, encode) == LinkSearchUrl(baseUrl, b, encode)
    ensures a == b
  {
    var p := baseUrl + "/link?link=";
    assert LinkSearchUrl(baseUrl, a, encode)[|p|..] == encode(a);
    assert LinkSearchUrl(baseUrl, b, encode)[|p|..] == encode(b);
  }

  /** The three catalogue resources and their path segments. */
  datatype Resource = Artists | Albums | Tracks

  function ResourcePath(r: Resource): string {
    match r
    case Artists => "/artist/"
    case Albums => "/album/"
    case Tracks => "/track/"
  }

  function ResourceUrl(baseUrl: string, r: Resource, id: string): string {
    baseUrl + ResourcePath(r) + id
  }

  /** The URL of a resource request determines both the resource and the id. */
  lemma ResourceUrlInjective(baseUrl: string, r1: Resource, id1: string, r2: Resource, id2: string)
    requires ResourceUrl(baseUrl, r1, id1) == ResourceUrl(baseUrl, r2, id2)
    ensures r1 == r2 && id1 == id2
  {
    var u := ResourceUrl(baseUrl, r1, id1);
    assert u[|baseUrl|..] == ResourcePath(r1) + id1 == ResourcePath(r2) + id2;
    var tail := u[|baseUrl|..];
    assert tail[1] == ResourcePath(r1)[1] == ResourcePath(r2)[1];
    assert tail[2] == ResourcePath(r1)[2] == ResourcePath(r2)[2];
    assert tail[|ResourcePath(r1)|..] == id1;
    assert tail[|ResourcePath(r2)|..] == id2;
  }

  /** What `tryGetArtists` and its siblings resolve to: the envelope's `Items`, or
      the error object itself. */
  datatype TryOutcome<T> = ItemsOf(items: seq<T>) | ErrorOf(payload: Payload<T>)

  /** `tryGetArtists` / `tryGetAlbums` / `tryGetTracks`. */
  function TryGet<T>(baseUrl: string, res: Resource, id: string,
                     fetch: string -> Reply<T>): (r: TryOutcome<T>)
    ensures var reply := fetch(baseUrl + ResourcePath(res) + id);
      && (r.ErrorOf? <==> reply.status != 200)
      && (r.ErrorOf? ==> r.payload == reply.body)
      && (r.ItemsOf? ==> r.items == reply.body.items)
  {
    var reply := fetch(ResourceUrl(baseUrl, res, id));
    if reply.status != 200 then ErrorOf(reply.body) else ItemsOf(reply.body.items)
  }

  /** `getArtists` / `getAlbums` / `getTracks`: throw when the try-result has a
      truthy `Error` field; otherwise hand the try-result back unchanged. An
      array has no `Error` field, and an error object whose `Error` is empty or
      missing passes through as if it were the items. */
  function GetChecked<T>(t: TryOutcome<T>): (r: Outcome<TryOutcome<T>>)
    ensures r.Throw? <==> t.ErrorOf? && Truthy(t.payload.error)
    ensures r.Throw? ==> r.message == t.payload.error.value
    ensures r.Return? ==> r.value == t
  {
    match t
    case ItemsOf(_) => Return(t)
    case ErrorOf(p) => if Truthy(p.error) then Throw(p.error.value) else Return(t)
  }

  /** A 200 reply reaches the caller as its items, whatever its `Error` field says. */
  lemma GetSucceedsOn200<T>(baseUrl: string, res: Resource, id: string, fetch: string -> Reply<T>)
    requires fetch(ResourceUrl(baseUrl, res, id)).status == 200
    ensures GetChecked(TryGet(baseUrl, res, id, fetch))
            == Return(ItemsOf(fetch(ResourceUrl(baseUrl, res, id)).body.items))
  {
  }

  /** A service descriptor as `/services` returns it. */
  datatype Service = Service(key: string, name: Option<string>, artworkLink: string, logoUrl: string)

  /** The public logo address of a service. */
  function LogoUrl(publicBaseUrl: string, key: string): string {
    publicBaseUrl + "/services/" + key + "/logo"
  }

  /** The body of `/services`, read as an error object or as the service array. */
  datatype ServicesReply = ServicesReply(status: int, error: Option<string>, services: seq<Service>)

  /** `getServices`: throw on a non-200 status, otherwise overwrite every service's
      `LogoURL` with its public logo address. */
  method GetServices(baseUrl: string, publicBaseUrl: string, fetch: string -> ServicesReply)
    returns (r: Outcome<seq<Service>>)
    ensures var reply := fetch(baseUrl + "/services");
      && (r.Throw? <==> reply.status != 200)
      && (r.Throw? ==> r.message == ErrorMessage(reply.error))
      && (r.Return? ==> |r.value| == |reply.services|)
      && (r.Return? ==> forall i :: 0 <= i < |r.value| ==>
            r.value[i] == reply.services[i].(logoUrl := LogoUrl(publicBaseUrl, reply.services[i].key)))
  {
    var reply := fetch(baseUrl + "/services");
    if reply.status != 200 {
      return Throw(ErrorMessage(reply.error));
    }
    var services := reply.services;
    var i := 0;
    while i < |services|
      invariant 0 <= i <= |services| == |reply.services|
      invariant forall j :: 0 <= j < i ==>
        services[j] == reply.services[j].(logoUrl := LogoUrl(publicBaseUrl, reply.services[j].key))
      invariant forall j :: i <= j < |services| ==> services[j] == reply.services[j]
    {
      services := services[i := services[i].(logoUrl := LogoUrl(publicBaseUrl, services[i].key))];
      i := i + 1;
    }
    return Return(services);
  }

  /** The rewrite depends only on the key: doing it twice changes nothing, and the
      incoming `LogoURL` is irrelevant. */
  lemma LogoRewriteIdempotent(publicBaseUrl: string, s: Service, other: string)
    ensures var once := s.(logoUrl := LogoUrl(publicBaseUrl, s.key));
      && once.(logoUrl := LogoUrl(publicBaseUrl, once.key)) == once
      && s.(logoUrl := other).(logoUrl := LogoUrl(publicBaseUrl, s.key)) == once
  {
  }
}

=== FILE: apple_music.dfy ===
/** The Apple Music adapter, current copy (`GetFromLink`, with a panicking playlist
    case) and older copy (`SearchFromLink`, with a found flag and no playlist case).
    The share-link pattern, whose `.+\/` part backtracks, is an oracle reporting the
    leftmost match and its captures; the catalogue API is a set of functions. */
module AppleMusic {
  import opened Wrappers
  import opened Text
  import opened Catalog

  const Key: string := "apple_music"

  /** A match of the share pattern: its span and the `storefront`, `type`, `id` and
      `song_id` captures (an unmatched optional group captures ""). */
  datatype ShareMatch = ShareMatch(start: nat, end: nat, storefront: string, kind: string, id: string,
                                   songId: string)

  type Pattern = string -> Option<ShareMatch>

  ghost predicate ValidPattern(pattern: Pattern) {
    forall s :: pattern(s).Some? ==> pattern(s).value.start <= pattern(s).value.end <= |s|
  }

  datatype Artwork = Artwork(url: string, width: int, height: int)
  datatype AmArtist = AmArtist(id: string, name: string, url: string)
  /** An album with the ids of its artist relationships. */
  datatype AmAlbum = AmAlbum(id: string, name: string, isSingle: bool, artwork: Artwork, url: string,
                             artistIds: seq<string>)
  /** A song with the ids of its artist and album relationships. */
  datatype AmSong = AmSong(id: string, name: string, isrc: string, albumName: string, url: string,
                           artistIds: seq<string>, albumIds: seq<string>)

  /** The catalogue API; each call takes the storefront (market) last. */
  datatype Client = Client(
    searchArtist: (string, string) -> Result<seq<AmArtist>>,
    searchAlbum: (string, string) -> Result<seq<AmAlbum>>,
    searchSong: (string, string) -> Result<seq<AmSong>>,
    songsByIsrc: (string, string) -> Result<seq<AmSong>>,
    getArtist: (string, string) -> Result<AmArtist>,
    getAlbum: (string, string) -> Result<AmAlbum>,
    getSong: (string, string) -> Result<AmSong>)

  // ---- link handling ---------------------------------------------------------

  /** Songs have no links of their own: an album link with a song id is a song. */
  function SongRewrite(kind: string, id: string, songId: string): (r: (string, string))
    ensures kind == "album" && |songId| > 0 ==> r == ("song", songId)
    ensures !(kind == "album" && |songId| > 0) ==> r == (kind, id)
    ensures r.0 == "album" ==> kind == "album" && songId == "" && r.1 == id
  {
    if kind == "album" && |songId| > 0 then ("song", songId) else (kind, id)
  }

  function CleanLink(link: string, pattern: Pattern): (r: string)
    requires ValidPattern(pattern)
    ensures pattern(link).None? ==> r == link
    ensures pattern(link).Some? ==> r == link[pattern(link).value.start..pattern(link).value.end]
    ensures |r| <= |link|
  {
    match pattern(link)
    case None => link
    case Some(m) => link[m.start..m.end]
  }

  // ---- artwork and names -------------------------------------------------------

  /** `getArtworkURL`: every "{w}" becomes the width and then every "{h}" the height,
      both in decimal. */
  function ArtworkUrl(art: Artwork): string {
    ReplaceAll(ReplaceAll(art.url, "{w}", IntToDecimal(art.width)), "{h}", IntToDecimal(art.height))
  }

  lemma DecimalHasNoBrace(n: int, u: string)
    requires u == "{w}" || u == "{h}"
    ensures NoCommonChar(IntToDecimal(n), u)
  {
  }

  /** A URL without placeholders is returned unchanged. */
  lemma ArtworkUrlNoPlaceholders(art: Artwork)
    requires !Contains(art.url, "{w}") && !Contains(art.url, "{h}")
    ensures ArtworkUrl(art) == art.url
  {
    ReplaceAllAbsent(art.url, "{w}", IntToDecimal(art.width));
    ReplaceAllAbsent(art.url, "{h}", IntToDecimal(art.height));
  }

  /** The resulting URL has no placeholder left, whatever the template. */
  lemma ArtworkUrlFilled(art: Artwork)
    ensures !Contains(ArtworkUrl(art), "{w}") && !Contains(ArtworkUrl(art), "{h}")
  {
    var w := IntToDecimal(art.width);
    var h := IntToDecimal(art.height);
    var once := ReplaceAll(art.url, "{w}", w);
    DecimalHasNoBrace(art.width, "{w}");
    DecimalHasNoBrace(art.height, "{w}");
    DecimalHasNoBrace(art.height, "{h}");
    ReplaceAllContains(art.url, "{w}", w, "{w}");
    ReplaceAllContains(once, "{h}", h, "{w}");
    ReplaceAllContains(once, "{h}", h, "{h}");
  }

  const SingleSuffixLength: nat := 9

  /** The text ends in whitespace, "-", whitespace, "Single" (RE2's `\s-\sSingle$`). */
  predicate HasSingleSuffix(name: string) {
    && |name| >= SingleSuffixLength
    && IsSpaceClass(name[|name| - 9])
    && name[|name| - 8] == '-'
    && IsSpaceClass(name[|name| - 7])
    && name[|name| - 6..] == "Single"
  }

  /** The album-name clean-up of `newAlbum`: only for singles, cut one trailing
      " - Single" (the pattern is anchored at the end and has a fixed length, so its
      only possible match is the last nine characters). */
  function StripSingle(name: string, isSingle: bool): (r: string)
    ensures StartsWith(name, r)
    ensures isSingle && HasSingleSuffix(name) ==> |r| == |name| - SingleSuffixLength
    ensures !(isSingle && HasSingleSuffix(name)) ==> r == name
  {
    if isSingle && HasSingleSuffix(name) then name[..|name| - SingleSuffixLength] else name
  }

  /** Round trip: a single's name with the suffix appended comes back as it was; an
      album that is not a single keeps its suffix. */
  lemma StripSingleRoundTrip(base: string, sep1: char, sep2: char)
    requires IsSpaceClass(sep1) && IsSpaceClass(sep2)
    ensures StripSingle(base + [sep1] + "-" + [sep2] + "Single", true) == base
    ensures StripSingle(base + " - Single", false) == base + " - Single"
  {
    var name := base + [sep1] + "-" + [sep2] + "Single";
    assert name[|name| - 6..] == "Single";
    assert name[..|name| - 9] == base;
  }

  /** Only one suffix is cut. */
  lemma StripSingleOnce(base: string)
    ensures StripSingle(base + " - Single - Single", true) == base + " - Single"
  {
    var name := base + " - Single - Single";
    assert name[|name| - 6..] == "Single";
    assert name[..|name| - 9] == base + " - Single";
  }

  /** `getAlbumArtistNames` / `getSongArtistNames` as a reference: look each artist
      up in order and stop, without an error, at the first failed lookup. */
  function CollectNames(ids: seq<string>, market: string, getArtist: (string, string) -> Result<AmArtist>)
    : (names: seq<string>)
    ensures |names| <= |ids|
    ensures forall i :: 0 <= i < |names| ==> getArtist(ids[i], market).Ok? && names[i] == getArtist(ids[i], market).value.name
    ensures |names| < |ids| ==> getArtist(ids[|names|], market).Err?
    decreases |ids|
  {
    if |ids| == 0 then []
    else match getArtist(ids[0], market)
      case Err(_) => []
      case Ok(a) =>
        var rest := CollectNames(ids[1..], market, getArtist);
        assert forall i :: 1 <= i < |rest| + 1 ==> ids[i] == ids[1..][i - 1];
        [a.name] + rest
  }

  lemma CollectNamesStep(ids: seq<string>, i: nat, market: string, getArtist: (string, string) -> Result<AmArtist>)
    requires i < |ids|
    ensures CollectNames(ids[i..], market, getArtist)
         == (match getArtist(ids[i], market)
             case Err(_) => []
             case Ok(a) => [a.name] + CollectNames(ids[i + 1..], market, getArtist))
  {
    assert ids[i..][0] == ids[i] && ids[i..][1..] == ids[i + 1..];
  }

  /** The loop itself. */
  method ArtistNames(ids: seq<string>, market: string, getArtist: (string, string) -> Result<AmArtist>)
    returns (names: seq<string>)
    ensures names == CollectNames(ids, market, getArtist)
    ensures |names| <= |ids|
    ensures |names| < |ids| ==> getArtist(ids[|names|], market).Err?
  {
    names := [];
    var i := 0;
    assert ids[0..] == ids;
    while i < |ids|
      invariant 0 <= i <= |ids|
      invariant names + CollectNames(ids[i..], market, getArtist) == CollectNames(ids, market, getArtist)
    {
      CollectNamesStep(ids, i, market, getArtist);
      var r := getArtist(ids[i], market);
      if r.Err? {
        assert names == CollectNames(ids, market, getArtist);
        return;
      }
      names := names + [r.value.name];
      i := i + 1;
    }
  }

  /** `getSongArtwork`: the artwork of the first album relationship, "" without one;
      a failed album lookup is an error. */
  function SongArtwork(song: AmSong, market: string, client: Client): (r: Result<string>)
    ensures |song.albumIds| == 0 ==> r == Ok("")
    ensures |song.albumIds| > 0 ==> (r.Err? <==> client.getAlbum(song.albumIds[0], market).Err?)
    ensures |song.albumIds| > 0 && r.Ok? ==> r.value == ArtworkUrl(client.getAlbum(song.albumIds[0], market).value.artwork)
  {
    if |song.albumIds| == 0 then Ok("")
    else match client.getAlbum(song.albumIds[0], market)
      case Err(e) => Err(e)
      case Ok(album) => Ok(ArtworkUrl(album.artwork))
  }

  /** `newArtist`: Apple Music artists have no artwork. */
  function NewArtist(a: AmArtist, market: string): (r: Artist)
    ensures r.name == a.name && r.link == a.url
    ensures r.artworkLink == "" && r.source == Key && r.market == market
  {
    Artist(a.name, "", Key, market, a.url)
  }

  /** `newAlbum` never fails: a failed artist lookup only shortens the name list. */
  function NewAlbum(a: AmAlbum, market: string, client: Client): (r: Album)
    ensures r.name == StripSingle(a.name, a.isSingle) && StartsWith(a.name, r.name)
    ensures r.artistNames == CollectNames(a.artistIds, market, client.getArtist)
    ensures r.artworkLink == ArtworkUrl(a.artwork) && r.source == Key && r.market == market
  {
    Album(StripSingle(a.name, a.isSingle), CollectNames(a.artistIds, market, client.getArtist),
          ArtworkUrl(a.artwork), Key, market, a.url)
  }

  /** `newTrack`: fails exactly when the artwork lookup fails. */
  function NewTrack(s: AmSong, market: string, client: Client): (r: Result<Track>)
    ensures r.Err? <==> SongArtwork(s, market, client).Err?
    ensures r.Ok? ==> r.value.isrc == s.isrc && r.value.artworkLink == SongArtwork(s, market, client).value
                      && r.value.artistNames == CollectNames(s.artistIds, market, client.getArtist)
  {
    match SongArtwork(s, market, client)
    case Err(e) => Err(e)
    case Ok(art) =>
      Ok(Track(s.isrc, s.name, CollectNames(s.artistIds, market, client.getArtist), s.albumName, art,
               Key, market, s.url))
  }

  // ---- searches ----------------------------------------------------------------

  /** The free-text term: the artist names joined by spaces, a space, the name. */
  function SearchTerm(artistNames: seq<string>, name: string): string {
    Join(artistNames, " ") + " " + name
  }

  /** `SearchArtist`: only the first result is used. `searchMarket` is what
      `GetMarket()` returns, which is not part of this model. */
  function SearchArtist(artist: Artist, searchMarket: string, client: Client): (r: Search<Artist>)
    ensures client.searchArtist(artist.name, searchMarket).Err? <==> r.Failed?
    ensures r.NotFound? <==> client.searchArtist(artist.name, searchMarket) == Ok([])
    ensures r.Found? ==> r.value == NewArtist(client.searchArtist(artist.name, searchMarket).value[0], artist.market)
    ensures !r.FoundFailed?
  {
    match client.searchArtist(artist.name, searchMarket)
    case Err(e) => Failed(e)
    case Ok(hits) => if |hits| == 0 then NotFound else Found(NewArtist(hits[0], artist.market))
  }

  /** `SearchAlbum`: the first result of the term search, loaded again by id for its
      relationships. */
  function SearchAlbum(album: Album, searchMarket: string, client: Client): (r: Search<Album>)
    ensures var hits := client.searchAlbum(SearchTerm(album.artistNames, album.name), searchMarket);
      && (r.NotFound? <==> hits == Ok([]))
      && (r.Found? <==> hits.Ok? && |hits.value| > 0 && client.getAlbum(hits.value[0].id, album.market).Ok?)
      && (r.Found? ==> r.value == NewAlbum(client.getAlbum(hits.value[0].id, album.market).value, album.market, client))
      && !r.FoundFailed?
  {
    match client.searchAlbum(SearchTerm(album.artistNames, album.name), searchMarket)
    case Err(e) => Failed(e)
    case Ok(hits) =>
      if |hits| == 0 then NotFound
      else match client.getAlbum(hits[0].id, album.market)
        case Err(e) => Failed(e)
        case Ok(full) => Found(NewAlbum(full, album.market, client))
  }

  /** The song candidates of `SearchTrack` / `SearchSong`: by ISRC when there is one,
      otherwise by term. */
  function SongCandidates(track: Track, searchMarket: string, client: Client): (r: Result<seq<AmSong>>)
    ensures |track.isrc| > 0 ==> r == client.songsByIsrc(track.isrc, track.market)
    ensures |track.isrc| == 0 ==> r == client.searchSong(SearchTerm(track.artistNames, track.name), searchMarket)
  {
    if |track.isrc| > 0 then client.songsByIsrc(track.isrc, track.market)
    else client.searchSong(SearchTerm(track.artistNames, track.name), searchMarket)
  }

  /** `SearchTrack` (current) and `SearchSong` (older): the first candidate, loaded
      again by id; a failed conversion is reported as found with an error. */
  function SearchTrack(track: Track, searchMarket: string, client: Client): (r: Search<Track>)
    ensures var hits := SongCandidates(track, searchMarket, client);
      && (r.NotFound? <==> hits == Ok([]))
      && (r.Failed? <==> hits.Err? || (|hits.value| > 0 && client.getSong(hits.value[0].id, track.market).Err?))
      && (r.FoundFailed? ==> && hits.Ok? && |hits.value| > 0 && client.getSong(hits.value[0].id, track.market).Ok?
                             && NewTrack(client.getSong(hits.value[0].id, track.market).value, track.market, client).Err?)
      && (r.Found? ==> && hits.Ok? && |hits.value| > 0 && client.getSong(hits.value[0].id, track.market).Ok?
                       && var full := client.getSong(hits.value[0].id, track.market).value;
                          NewTrack(full, track.market, client) == Ok(r.value))
  {
    match SongCandidates(track, searchMarket, client)
    case Err(e) => Failed(e)
    case Ok(hits) =>
      if |hits| == 0 then NotFound
      else match client.getSong(hits[0].id, track.market)
        case Err(e) => Failed(e)
        case Ok(full) =>
          match NewTrack(full, track.market, client)
          case Err(e) => FoundFailed(e)
          case Ok(t) => Found(t)
  }

  /** `GetTrackByIsrc` of the current copy: the first song of the ISRC lookup in the
      default market, converted without a second lookup. */
  function GetTrackByIsrc(isrc: string, client: Client): (r: Search<Track>)
    ensures var hits := client.songsByIsrc(isrc, DefaultMarket);
      && (r.NotFound? <==> hits == Ok([]))
      && (hits.Err? ==> r == Failed(hits.error))
      && (hits.Ok? && |hits.value| > 0 ==>
            var conv := NewTrack(hits.value[0], DefaultMarket, client);
            && (conv.Ok? ==> r == Found(conv.value))
            && (conv.Err? ==> r == Failed(conv.error)))
      && (r.Found? ==> hits.Ok? && |hits.value| > 0 && NewTrack(hits.value[0], DefaultMarket, client) == Ok(r.value))
      && (r.Found? ==> r.value.source == Key && r.value.isrc == hits.value[0].isrc)
      && !r.FoundFailed?
  {
    match client.songsByIsrc(isrc, DefaultMarket)
    case Err(e) => Failed(e)
    case Ok(hits) =>
      if |hits| == 0 then NotFound
      else match NewTrack(hits[0], DefaultMarket, client)
        case Err(e) => Failed(e)
        case Ok(t) => Found(t)
  }

  // ---- dispatch on a link --------------------------------------------------------

  /** The `switch typStr` of the current `GetFromLink`. A song whose conversion fails
      comes back tagged TrackType with a nil `*Track`. */
  function Dispatch(typ: string, id: string, storefront: string, client: Client): (r: Exec<LinkResult>)
    ensures r.Panic? <==> typ == "playlist"
    ensures typ == "artist" ==> r == Done(match client.getArtist(id, storefront)
              case Err(e) => LinkResult(UnknownType, NilValue, Some(e))
              case Ok(a) => LinkResult(ArtistType, ArtistValue(NewArtist(a, storefront)), None))
    ensures typ == "album" ==> r == Done(match client.getAlbum(id, storefront)
              case Err(e) => LinkResult(UnknownType, NilValue, Some(e))
              case Ok(a) => LinkResult(AlbumType, AlbumValue(NewAlbum(a, storefront, client)), None))
    ensures typ == "song" && client.getSong(id, storefront).Err? ==>
              r == Done(LinkResult(UnknownType, NilValue, Some(client.getSong(id, storefront).error)))
    ensures typ == "song" && client.getSong(id, storefront).Ok? ==> r.Done? && r.value.kind == TrackType
    ensures typ == "song" && client.getSong(id, storefront).Ok? ==>
              var conv := NewTrack(client.getSong(id, storefront).value, storefront, client);
              && (conv.Ok? ==> r == Done(LinkResult(TrackType, TrackValue(conv.value), None)))
              && (conv.Err? ==> r == Done(LinkResult(TrackType, NilPointer(TrackType), Some(conv.error))))
    ensures typ !in {"artist", "album", "song", "playlist"} ==>
              r == Done(LinkResult(UnknownType, NilValue, Some("unknown type " + typ)))
  {
    if typ == "artist" then
      Done(match client.getArtist(id, storefront)
           case Err(e) => LinkResult(UnknownType, NilValue, Some(e))
           case Ok(a) => LinkResult(ArtistType, ArtistValue(NewArtist(a, storefront)), None))
    else if typ == "album" then
      Done(match client.getAlbum(id, storefront)
           case Err(e) => LinkResult(UnknownType, NilValue, Some(e))
           case Ok(a) => LinkResult(AlbumType, AlbumValue(NewAlbum(a, storefront, client)), None))
    else if typ == "song" then
      Done(match client.getSong(id, storefront)
           case Err(e) => LinkResult(UnknownType, NilValue, Some(e))
           case Ok(s) =>
             match NewTrack(s, storefront, client)
             case Err(e) => LinkResult(TrackType, NilPointer(TrackType), Some(e))
             case Ok(t) => LinkResult(TrackType, TrackValue(t), None))
    else if typ == "playlist" then Panic("not implemented")
    else Done(LinkResult(UnknownType, NilValue, Some("unknown type " + typ)))
  }

  /** `GetFromLink`: the captures of the leftmost match, rewritten for songs, go to
      the dispatch. Without a match the capture lookup panics. */
  function GetFromLink(link: string, pattern: Pattern, client: Client): (r: Exec<LinkResult>)
    ensures pattern(link).None? ==> r.Panic?
    ensures pattern(link).Some? ==>
      var m := pattern(link).value;
      var rewritten := SongRewrite(m.kind, m.id, m.songId);
      r == Dispatch(rewritten.0, rewritten.1, m.storefront, client)
  {
    match pattern(link)
    case None => Panic("index out of range")
    case Some(m) =>
      var rewritten := SongRewrite(m.kind, m.id, m.songId);
      Dispatch(rewritten.0, rewritten.1, m.storefront, client)
  }

  /** An album link that carries a song id is looked up as a song, with the song id. */
  lemma AlbumLinkWithSongIsTrack(link: string, pattern: Pattern, client: Client)
    requires pattern(link).Some? && pattern(link).value.kind == "album" && |pattern(link).value.songId| > 0
    requires client.getSong(pattern(link).value.songId, pattern(link).value.storefront).Ok?
    ensures GetFromLink(link, pattern, client).Done?
    ensures GetFromLink(link, pattern, client).value.kind == TrackType
  {
  }

  /** The `switch typ` of the older `SearchFromLink`: no playlist case. */
  function DispatchOlder(typ: string, id: string, storefront: string, client: Client): (r: ThingResult)
    ensures typ !in {"artist", "album", "song"} ==> r == ThingResult(NilValue, false, Some("unknown type " + typ))
    ensures r.found <==> r.value != NilValue
  {
    if typ == "artist" then
      match client.getArtist(id, storefront)
      case Err(e) => ThingResult(NilValue, false, Some(e))
      case Ok(a) => ThingResult(ArtistValue(NewArtist(a, storefront)), true, None)
    else if typ == "album" then
      match client.getAlbum(id, storefront)
      case Err(e) => ThingResult(NilValue, false, Some(e))
      case Ok(a) => ThingResult(AlbumValue(NewAlbum(a, storefront, client)), true, None)
    else if typ == "song" then
      match client.getSong(id, storefront)
      case Err(e) => ThingResult(NilValue, false, Some(e))
      case Ok(s) =>
        match NewTrack(s, storefront, client)
        case Err(e) => ThingResult(NilPointer(TrackType), true, Some(e))
        case Ok(t) => ThingResult(TrackValue(t), true, None)
    else ThingResult(NilValue, false, Some("unknown type " + typ))
  }

  /** `SearchFromLink` of the older copy. */
  function SearchFromLink(link: string, pattern: Pattern, client: Client): (r: Exec<ThingResult>)
    ensures pattern(link).None? <==> r.Panic?
    ensures pattern(link).Some? ==>
      var m := pattern(link).value;
      var rewritten := SongRewrite(m.kind, m.id, m.songId);
      r == Done(DispatchOlder(rewritten.0, rewritten.1, m.storefront, client))
  {
    match pattern(link)
    case None => Panic("index out of range")
    case Some(m) =>
      var rewritten := SongRewrite(m.kind, m.id, m.songId);
      Done(DispatchOlder(rewritten.0, rewritten.1, m.storefront, client))
  }

  /** Outside playlists the two copies return the same value and error, and the older
      copy's found flag is exactly "the current copy's tag is known". */
  lemma DispatchCopiesAgree(typ: string, id: string, storefront: string, client: Client)
    requires typ != "playlist"
    ensures var cur := Dispatch(typ, id, storefront, client).value;
            var older := DispatchOlder(typ, id, storefront, client);
      && older.value == cur.value
      && older.error == cur.error
      && (older.found <==> cur.kind != UnknownType)
  {
  }
}

=== FILE: catalog.dfy ===
/** The backend's catalogue entities: what a streaming-service adapter returns for
    an artist, album, track or playlist, and the `Type` tag that accompanies it. */
module Catalog {
  import opened Wrappers

  /** `model.Type`. */
  datatype Type = UnknownType | ArtistType | AlbumType | TrackType | PlaylistType

  function TypeName(t: Type): string {
    match t
    case UnknownType => "unknown"
    case ArtistType => "artist"
    case AlbumType => "album"
    case TrackType => "track"
    case PlaylistType => "playlist"
  }

  /** `model.DefaultMarket`. */
  const DefaultMarket: string := "AU"

  /** Service keys of the three adapters. */
  const SpotifyKey: string := "spotify"
  const AppleMusicKey: string := "apple_music"
  const DeezerKey: string := "deezer"

  datatype Artist = Artist(name: string, artworkLink: string, source: string, market: string, link: string)

  datatype Album = Album(name: string, artistNames: seq<string>, artworkLink: string,
                         source: string, market: string, link: string)

  datatype Track = Track(isrc: string, name: string, artistNames: seq<string>, albumName: string,
                         artworkLink: string, source: string, market: string, link: string)

  datatype Playlist = Playlist(servicePlaylistId: string, name: string, artworkLink: string,
                               source: string, link: string)

  /** The dynamic value behind an `interface{}` result: nil, the boolean `false`, a
      nil pointer of an entity type (which is not a nil interface), or an entity. */
  datatype Value = NilValue | FalseValue | NilPointer(of: Type)
                 | ArtistValue(artist: Artist) | AlbumValue(album: Album)
                 | TrackValue(track: Track) | PlaylistValue(playlist: Playlist)

  /** An adapter's `(value, found, err)` triple: `(v, true, nil)`, `(nil, false, nil)`,
      `(nil, false, err)`, and the rarer `(nil, true, err)`. The older adapters' pair
      `(value, err)` uses the first three, with a nil value meaning not found. */
  datatype Search<T> = Found(value: T) | NotFound | Failed(error: string) | FoundFailed(error: string)

  /** Converts the value of a search result and keeps its shape. */
  function MapSearch<H, T>(r: Search<H>, f: H -> T): (m: Search<T>)
    ensures m.Found? <==> r.Found?
    ensures m.NotFound? <==> r.NotFound?
    ensures m.Failed? <==> r.Failed?
    ensures r.Found? ==> m.value == f(r.value)
    ensures r.Failed? || r.FoundFailed? ==> m.FoundFailed? == r.FoundFailed? && m.error == r.error
  {
    match r
    case Found(h) => Found(f(h))
    case NotFound => NotFound
    case Failed(e) => Failed(e)
    case FoundFailed(e) => FoundFailed(e)
  }

  /** The `(thing, found, err)` triple of the older `SearchFromLink`. */
  datatype ThingResult = ThingResult(value: Value, found: bool, error: Option<string>)

  /** What `GetFromLink` returns: a type tag, a value and an optional error. */
  datatype LinkResult = LinkResult(kind: Type, value: Value, error: Option<string>)

  /** A Go map lookup: a missing key reads as the zero value "". */
  function Lookup(m: map<string, string>, key: string): (r: string)
    ensures key in m ==> r == m[key]
    ensures key !in m ==> r == ""
  {
    if key in m then m[key] else ""
  }
}

=== FILE: catalogue.dfy ===
/** The catalogue page of the frontend: the empty state, the preview chosen from
    the best item, and one link per item paired with its service descriptor. The
    rendered page is modelled as a value that records what the components show. */
module Catalogue {
  import opened Wrappers
  import opened ThingModel
  import opened ApiClient

  /** The icon column of a link: the service's image or the question-mark icon. */
  datatype Icon = Image(src: string, alt: string) | QuestionMark

  /** One rendered `CatalogueItemLink`. */
  datatype LinkView = LinkView(icon: Icon, name: string, href: string, text: string)

  datatype Preview = ArtistPreview(artist: Thing) | AlbumPreview(album: Thing)
                   | TrackPreview(track: Thing) | UnknownPreview

  datatype Page = NothingFound | Listing(preview: Preview, links: seq<LinkView>)

  /** `services.find(s => s.Key === key)`. */
  function FindService(services: seq<Service>, key: string): (r: Option<Service>)
    ensures r.Some? ==> exists i :: 0 <= i < |services| && services[i] == r.value
                          && r.value.key == key && forall j :: 0 <= j < i ==> services[j].key != key
    ensures r.None? <==> forall j :: 0 <= j < |services| ==> services[j].key != key
    decreases |services|
  {
    if |services| == 0 then None
    else if services[0].key == key then Some(services[0])
    else
      var r := FindService(services[1..], key);
      assert r.Some? ==> exists i :: 0 <= i < |services| && services[i] == r.value
                           && r.value.key == key && forall j :: 0 <= j < i ==> services[j].key != key by {
        if r.Some? {
          var i :| 0 <= i < |services[1..]| && services[1..][i] == r.value
                   && forall j :: 0 <= j < i ==> services[1..][j].key != key;
          assert services[i + 1] == r.value;
          assert forall j :: 0 <= j < i + 1 ==> services[j].key != key by {
            forall j | 0 <= j < i + 1
              ensures services[j].key != key
            {
              if j > 0 {
                assert services[j] == services[1..][j - 1];
              }
            }
          }
        }
      }
      r
  }

  /** `CatalogueItemLink`: the icon and the name come from the service when there
      is one, the anchor from the item always. */
  function RenderLink(thing: Thing, service: Option<Service>): (r: LinkView)
    ensures r.href == thing.link && r.text == thing.link
    ensures r.icon.QuestionMark? <==> service.None?
    ensures service.Some? ==> r.icon == Image(service.value.artworkLink, thing.source)
    ensures service.Some? && service.value.name.Some? ==> r.name == service.value.name.value
    ensures service.None? || service.value.name.None? ==> r.name == "Unknown"
  {
    var icon := if service.Some? then Image(service.value.artworkLink, thing.source) else QuestionMark;
    var name := if service.Some? && service.value.name.Some? then service.value.name.value else "Unknown";
    LinkView(icon, name, thing.link, thing.link)
  }

  /** The rendered link never depends on the service's `LogoURL`, which is the
      field the API client rewrites. */
  lemma RenderLinkIgnoresLogo(thing: Thing, s: Service, logo: string)
    ensures RenderLink(thing, Some(s.(logoUrl := logo))) == RenderLink(thing, Some(s))
  {
  }

  /** `things.map(...)`: one link per item, in order, each with its own service. */
  function RenderLinks(things: seq<Thing>, services: seq<Service>): (r: seq<LinkView>)
    ensures |r| == |things|
    ensures forall i :: 0 <= i < |things| ==> r[i] == RenderLink(things[i], FindService(services, things[i].source))
  {
    seq(|things|, i requires 0 <= i < |things| => RenderLink(things[i], FindService(services, things[i].source)))
  }

  function PreviewOf(best: Thing): (r: Preview)
    ensures best.thingType == Some("artist") <==> r == ArtistPreview(best)
    ensures best.thingType == Some("album") <==> r == AlbumPreview(best)
    ensures best.thingType == Some("track") <==> r == TrackPreview(best)
    ensures r.UnknownPreview? <==> best.thingType !in {Some("artist"), Some("album"), Some("track")}
  {
    match best.thingType
    case Some("artist") => ArtistPreview(best)
    case Some("album") => AlbumPreview(best)
    case Some("track") => TrackPreview(best)
    case _ => UnknownPreview
  }

  /** `CatalogueItem` as written: `bestThing!.ThingType` reads a property of
      `undefined` when no item has artwork, which throws a TypeError. */
  function RenderCatalogue(things: Option<seq<Thing>>, services: seq<Service>): (r: Exec<Page>)
    ensures things.None? || |things.value| == 0 ==> r == Done(NothingFound)
    ensures r.Panic? <==> things.Some? && |things.value| > 0
                          && forall j :: 0 <= j < |things.value| ==> !HasArtwork(things.value[j])
    ensures r.Done? && r.value.Listing? ==> things.Some? && |r.value.links| == |things.value|
  {
    if things.None? || |things.value| == 0 then Done(NothingFound)
    else
      match FindBestThing(things.value)
      case None => Panic("TypeError: Cannot read properties of undefined (reading 'ThingType')")
      case Some(best) => Done(Listing(PreviewOf(best), RenderLinks(things.value, services)))
  }

  /** The preview item with a fallback to the first item when none has artwork. */
  function PreviewItem(things: seq<Thing>): (r: Thing)
    requires |things| > 0
    ensures r in things
    ensures (exists j :: 0 <= j < |things| && HasArtwork(things[j])) ==> HasArtwork(r)
  {
    FindBestThing(things).GetOr(things[0])
  }

  /** `CatalogueItem` with the fallback: every non-empty list renders. */
  function RenderCatalogueFixed(things: Option<seq<Thing>>, services: seq<Service>): (r: Page)
    ensures things.None? || |things.value| == 0 <==> r == NothingFound
    ensures r.Listing? ==> |r.links| == |things.value|
  {
    if things.None? || |things.value| == 0 then NothingFound
    else Listing(PreviewOf(PreviewItem(things.value)), RenderLinks(things.value, services))
  }

  /** The page as written crashes on a concrete one-item list without artwork. */
  lemma RenderCatalogueCrashes()
    ensures RenderCatalogue(Some([Thing(Some("track"), "Song", "https://x", Some(""), "spotify")]), []).Panic?
  {
    var t := Thing(Some("track"), "Song", "https://x", Some(""), "spotify");
    assert !HasArtwork([t][0]);
  }

  /** Whenever the page as written renders, the corrected page renders the same. */
  lemma RenderCatalogueFixedAgrees(things: Option<seq<Thing>>, services: seq<Service>)
    ensures RenderCatalogue(things, services).Done? ==>
      RenderCatalogue(things, services).value == RenderCatalogueFixed(things, services)
  {
  }

  /** Each link shows the item's own link, and its name comes from the first
      service with the item's source key, whatever order the items come in. */
  lemma LinksFollowItems(things: seq<Thing>, services: seq<Service>, i: nat)
    requires i < |things|
    ensures var l := RenderLinks(things, services)[i];
      && l.href == things[i].link
      && (l.icon.QuestionMark? <==> forall j :: 0 <= j < |services| ==> services[j].key != things[i].source)
  {
  }
}

=== FILE: deezer.dfy ===
/** The Deezer adapter in its two copies: the current one (`GetFromLink`, which also
    claims www.deezer.com links and does not follow redirects for them) and the
    older one (`SearchFromLink` with a found flag, share links only). The remote
    API is a set of functions; a single-entity lookup answers `Ok(None)` where the
    client returns a nil pointer (a 404, or a track without a link for the ISRC
    lookup), and dereferencing that nil is a panic. */
module Deezer {
  import opened Wrappers
  import opened Text
  import opened Catalog
  import opened DeezerLink
  import opened SearchLoop

  datatype DzArtist = DzArtist(id: int, name: string, link: string, picture: string)
  datatype DzAlbum = DzAlbum(id: int, title: string, link: string, cover: string, artist: DzArtist)
  datatype DzTrack = DzTrack(id: int, isrc: string, title: string, link: string, artist: DzArtist, album: DzAlbum)

  datatype Client = Client(
    searchArtist: string -> Result<seq<DzArtist>>,
    searchAlbum: (string, string) -> Result<seq<DzAlbum>>,
    searchTrack: (string, string, string) -> Result<seq<DzTrack>>,
    getArtist: int -> Result<Option<DzArtist>>,
    getAlbum: int -> Result<Option<DzAlbum>>,
    getTrack: int -> Result<Option<DzTrack>>,
    getTrackByIsrc: string -> Result<Option<DzTrack>>)

  function ToArtist(a: DzArtist): Artist {
    Artist(a.name, a.picture, DeezerKey, DefaultMarket, a.link)
  }

  /** Deezer has one artist per album and track, so the names are a singleton. */
  function ToAlbum(a: DzAlbum): Album {
    Album(a.title, [a.artist.name], a.cover, DeezerKey, DefaultMarket, a.link)
  }

  function ToTrack(t: DzTrack): Track {
    Track(t.isrc, t.title, [t.artist.name], t.album.title, t.album.cover, DeezerKey, DefaultMarket, t.link)
  }

  // ---- links ---------------------------------------------------------------

  /** `LinkBelongsToService` of the current copy: either pattern matches
      somewhere in the link. */
  function LinkBelongsToService(link: string): (b: bool)
    ensures b <==> exists p :: 0 <= p <= |link| && (ShareAt(link, p).Some? || ActualAt(link, p).Some?)
  {
    FindShare(link).Some? || FindActual(link).Some?
  }

  /** `LinkBelongsToService` of the older copy: the share pattern only. */
  function LinkBelongsToServiceOlder(link: string): (b: bool)
    ensures b <==> exists p :: 0 <= p <= |link| && ShareAt(link, p).Some?
  {
    FindShare(link).Some?
  }

  /** The older copy claims a subset of what the current one claims, and the
      canonical web link is in the difference. */
  lemma OlderClaimsFewer(link: string)
    ensures LinkBelongsToServiceOlder(link) ==> LinkBelongsToService(link)
    ensures var web := "https://www.deezer.com/en/track/606334862";
      LinkBelongsToService(web) && !LinkBelongsToServiceOlder(web)
  {
    WebLinkOnlyActual();
  }

  /** Every share link, and every actual link not followed by a digit, is claimed by
      the current copy; the older copy claims the share links. */
  lemma WrittenLinksClaimed(scheme: string, www: string, lang: string, kind: string, id: string, suffix: string)
    requires ValidScheme(scheme) && (www == "" || www == Www) && ValidLang(lang)
    requires |kind| > 0 && AllLetters(kind) && |id| > 0 && AllDigits(id) && AllAlnum(id)
    requires |suffix| == 0 || !IsAlnum(suffix[0])
    ensures LinkBelongsToServiceOlder(ShareLink(scheme, id) + suffix)
    ensures LinkBelongsToService(ShareLink(scheme, id) + suffix)
    ensures LinkBelongsToService(ActualLink(scheme, www, lang, kind, id) + suffix)
  {
    ShareRoundTrip(scheme, id, suffix);
    ActualRoundTrip(scheme, www, lang, kind, id, suffix);
  }

  /** `CleanLink`, the same in both copies: the leftmost share match, or the link
      unchanged — also when it matches only the actual pattern. */
  function CleanLink(link: string): (r: string)
    ensures FindShare(link).None? ==> r == link
    ensures FindShare(link).Some? ==>
      var m := FindShare(link).value;
      r == link[m.start..m.end] && r == ShareLink(m.scheme, m.id)
    ensures |r| <= |link|
  {
    match FindShare(link)
    case None => link
    case Some(m) => link[m.start..m.end]
  }

  /** A cleaned share link is matched whole, with the captures of the original. */
  lemma CleanLinkMatch(link: string)
    requires FindShare(link).Some?
    ensures var m := FindShare(link).value;
      FindShare(CleanLink(link)) == Some(ShareMatch(0, |CleanLink(link)|, m.scheme, m.id))
  {
    var m := FindShare(link).value;
    ShareRoundTrip(m.scheme, m.id, "");
    assert ShareLink(m.scheme, m.id) + "" == ShareLink(m.scheme, m.id);
  }

  /** Cleaning twice is cleaning once, and a cleaned link is still claimed by both
      copies exactly when the original was claimed by the older one. */
  lemma CleanLinkIdempotent(link: string)
    ensures CleanLink(CleanLink(link)) == CleanLink(link)
    ensures LinkBelongsToServiceOlder(CleanLink(link)) == LinkBelongsToServiceOlder(link)
  {
    if FindShare(link).Some? {
      CleanLinkMatch(link);
      var c := CleanLink(link);
      assert c[0..|c|] == c;
    }
  }

  // ---- following redirects -------------------------------------------------

  /** What the HTTP client meets when it requests a link: the URLs it is redirected
      to, in order, and how the request ends when no redirect is refused — `None`
      for a final response, or the transport error. */
  datatype Redirects = Redirects(urls: seq<string>, failure: Option<string>)

  /** Index of the first URL that matches the actual pattern. */
  function FirstActual(urls: seq<string>): (r: Option<nat>)
    ensures r.Some? ==> r.value < |urls| && FindActual(urls[r.value]).Some?
    decreases |urls|
  {
    if |urls| == 0 then None
    else if FindActual(urls[0]).Some? then Some(0)
    else
      match FirstActual(urls[1..])
      case None => None
      case Some(i) => Some(i + 1)
  }

  /** No URL before the one `FirstActual` picks matches, and when it picks none,
      no URL matches at all. */
  lemma {:induction false} FirstActualLeftmost(urls: seq<string>)
    ensures var r := FirstActual(urls);
      && (r.Some? ==> forall j :: 0 <= j < r.value ==> FindActual(urls[j]).None?)
      && (r.None? ==> forall j :: 0 <= j < |urls| ==> FindActual(urls[j]).None?)
    decreases |urls|
  {
    if |urls| > 0 && FindActual(urls[0]).None? {
      var rest := FirstActual(urls[1..]);
      FirstActualLeftmost(urls[1..]);
      forall j | 0 <= j < |urls| && (rest.Some? ==> j <= rest.value)
        ensures FindActual(urls[j]).None?
      {
        if j > 0 {
          assert urls[j] == urls[1..][j - 1];
        }
      }
    }
  }

  /** The request with the redirect check: the first redirect to an actual link is
      refused and its URL kept, which ends the request without an error; otherwise
      the request ends as the chain does, with no URL kept. */
  function Follow(chain: Redirects): (r: (string, Option<string>))
    ensures (exists i :: 0 <= i < |chain.urls| && FindActual(chain.urls[i]).Some?) ==>
      && r.1.None?
      && exists i :: && 0 <= i < |chain.urls| && r.0 == chain.urls[i] && FindActual(chain.urls[i]).Some?
                     && forall j :: 0 <= j < i ==> FindActual(chain.urls[j]).None?
    ensures (forall i :: 0 <= i < |chain.urls| ==> FindActual(chain.urls[i]).None?) ==> r == ("", chain.failure)
  {
    FirstActualLeftmost(chain.urls);
    match FirstActual(chain.urls)
    case Some(i) => (chain.urls[i], None)
    case None => ("", chain.failure)
  }

  /** `getActualLink` of the current copy: an actual link is returned as it is,
      without a request. */
  function GetActualLink(link: string, chain: Redirects): (r: (string, Option<string>))
    ensures FindActual(link).Some? ==> r == (link, None)
    ensures FindActual(link).None? ==> r == GetActualLinkOlder(chain)
  {
    if FindActual(link).Some? then (link, None) else Follow(chain)
  }

  /** `getActualLink` of the older copy: always requests the link. */
  function GetActualLinkOlder(chain: Redirects): (r: (string, Option<string>))
    ensures r.1.Some? ==> r.0 == ""
  {
    Follow(chain)
  }

  /** In both copies the link handed on is either "" or a link the actual pattern
      matches, and an error comes only with "". */
  lemma ActualLinkMatches(link: string, chain: Redirects)
    ensures var r := GetActualLink(link, chain);
      (r.0 == "" || FindActual(r.0).Some?) && (r.1.Some? ==> r.0 == "")
    ensures var r := GetActualLinkOlder(chain);
      (r.0 == "" || FindActual(r.0).Some?) && (r.1.Some? ==> r.0 == "")
  {
  }

  /** The current copy's answer for an actual link does not depend on the server. */
  lemma ActualLinkNeedsNoRequest(link: string, chain1: Redirects, chain2: Redirects)
    requires FindActual(link).Some?
    ensures GetActualLink(link, chain1) == GetActualLink(link, chain2) == (link, None)
  {
  }

  // ---- dispatch on a link --------------------------------------------------

  /** `FindStringSubmatchMap` over the actual pattern: the named captures of the
      leftmost match. With no match the capture slice is nil and indexing it panics. */
  function SubmatchMap(link: string): (r: Exec<map<string, string>>)
    ensures r.Panic? <==> FindActual(link).None?
    ensures r.Done? ==> && r.value.Keys == {"lang", "type", "id"}
                        && r.value["type"] == FindActual(link).value.kind
                        && r.value["id"] == FindActual(link).value.id
                        && r.value["lang"] == FindActual(link).value.lang
  {
    match FindActual(link)
    case None => Panic("index out of range")
    case Some(m) => Done(map["lang" := m.lang, "type" := m.kind, "id" := m.id])
  }

  /** `strconv.Atoi(id)` followed by a single-entity lookup whose nil result is then
      dereferenced. */
  function Fetch<T>(id: string, get: int -> Result<Option<T>>): (r: Exec<Result<T>>)
    ensures Atoi(id).Err? ==> r == Done(Err(Atoi(id).error))
    ensures r.Panic? <==> Atoi(id).Ok? && get(Atoi(id).value) == Ok(None)
    ensures r.Done? && r.value.Ok? ==> Atoi(id).Ok? && get(Atoi(id).value) == Ok(Some(r.value.value))
    ensures r.Done? && r.value.Err? && Atoi(id).Ok? ==> get(Atoi(id).value) == Err(r.value.error)
  {
    match Atoi(id)
    case Err(e) => Done(Err(e))
    case Ok(n) =>
      match get(n)
      case Err(e) => Done(Err(e))
      case Ok(None) => Panic("nil pointer dereference")
      case Ok(Some(x)) => Done(Ok(x))
  }

  /** The current copy's return for a fetch: the entity with its tag, or the error
      with UnknownType and a nil value. */
  function Tagged<T>(f: Exec<Result<T>>, tag: Type, make: T -> Value): (r: Exec<LinkResult>)
    ensures r.Panic? <==> f.Panic?
    ensures f.Done? && f.value.Err? ==> r == Done(LinkResult(UnknownType, NilValue, Some(f.value.error)))
    ensures f.Done? && f.value.Ok? ==> r == Done(LinkResult(tag, make(f.value.value), None))
  {
    match f
    case Panic(reason) => Panic(reason)
    case Done(Err(e)) => Done(LinkResult(UnknownType, NilValue, Some(e)))
    case Done(Ok(x)) => Done(LinkResult(tag, make(x), None))
  }

  /** The older copy's return for a fetch: `(entity, true, nil)` or `(nil, false, err)`. */
  function Flagged<T>(f: Exec<Result<T>>, make: T -> Value): (r: Exec<ThingResult>)
    ensures r.Panic? <==> f.Panic?
    ensures f.Done? && f.value.Err? ==> r == Done(ThingResult(NilValue, false, Some(f.value.error)))
    ensures f.Done? && f.value.Ok? ==> r == Done(ThingResult(make(f.value.value), true, None))
  {
    match f
    case Panic(reason) => Panic(reason)
    case Done(Err(e)) => Done(ThingResult(NilValue, false, Some(e)))
    case Done(Ok(x)) => Done(ThingResult(make(x), true, None))
  }

  /** The `switch typ` of the current `GetFromLink`. */
  function Dispatch(typ: string, id: string, client: Client): (r: Exec<LinkResult>)
    ensures typ !in {"artist", "album", "track"} ==>
              r == Done(LinkResult(UnknownType, NilValue, Some("unknown type " + typ)))
    ensures typ in {"artist", "album", "track"} && Atoi(id).Err? ==>
              r == Done(LinkResult(UnknownType, NilValue, Some(Atoi(id).error)))
    ensures r.Panic? ==> typ in {"artist", "album", "track"} && Atoi(id).Ok?
  {
    if typ == "artist" then Tagged(Fetch(id, client.getArtist), ArtistType, (a: DzArtist) => ArtistValue(ToArtist(a)))
    else if typ == "album" then Tagged(Fetch(id, client.getAlbum), AlbumType, (a: DzAlbum) => AlbumValue(ToAlbum(a)))
    else if typ == "track" then Tagged(Fetch(id, client.getTrack), TrackType, (t: DzTrack) => TrackValue(ToTrack(t)))
    else Done(LinkResult(UnknownType, NilValue, Some("unknown type " + typ)))
  }

  /** The `switch typ` of the older `SearchFromLink`. */
  function DispatchOlder(typ: string, id: string, client: Client): (r: Exec<ThingResult>)
    ensures typ !in {"artist", "album", "track"} ==> r == Done(ThingResult(NilValue, false, Some("unknown type " + typ)))
    ensures r.Done? ==> (r.value.found <==> r.value.error.None?)
  {
    if typ == "artist" then Flagged(Fetch(id, client.getArtist), (a: DzArtist) => ArtistValue(ToArtist(a)))
    else if typ == "album" then Flagged(Fetch(id, client.getAlbum), (a: DzAlbum) => AlbumValue(ToAlbum(a)))
    else if typ == "track" then Flagged(Fetch(id, client.getTrack), (t: DzTrack) => TrackValue(ToTrack(t)))
    else Done(ThingResult(NilValue, false, Some("unknown type " + typ)))
  }

  /** The two dispatches panic together and otherwise return the same value and
      error; the older found flag is "the current tag is known". */
  lemma DispatchCopiesAgree(typ: string, id: string, client: Client)
    ensures var cur := Dispatch(typ, id, client);
            var older := DispatchOlder(typ, id, client);
      && (cur.Panic? <==> older.Panic?)
      && (cur.Done? ==> && older.value.value == cur.value.value && older.value.error == cur.value.error
                        && (older.value.found <==> cur.value.kind != UnknownType))
  {
  }

  /** A lookup either fails with UnknownType and no entity, or carries a known tag
      naming the entity's variant. */
  lemma DispatchShape(typ: string, id: string, client: Client)
    ensures var r := Dispatch(typ, id, client);
      r.Done? ==> && (r.value.error.Some? <==> r.value.kind == UnknownType)
                  && (r.value.error.Some? ==> r.value.value == NilValue)
                  && (r.value.kind == ArtistType <==> r.value.value.ArtistValue?)
                  && (r.value.kind == AlbumType <==> r.value.value.AlbumValue?)
                  && (r.value.kind == TrackType <==> r.value.value.TrackValue?)
                  && r.value.kind != PlaylistType
  {
  }

  /** `GetFromLink` of the current copy. */
  function GetFromLink(link: string, chain: Redirects, client: Client): (r: Exec<LinkResult>)
    ensures FindActual(link).Some? ==>
      r == Dispatch(FindActual(link).value.kind, FindActual(link).value.id, client)
    ensures FindActual(link).None? && (forall i :: 0 <= i < |chain.urls| ==> FindActual(chain.urls[i]).None?) ==>
      (if chain.failure.Some? then r == Done(LinkResult(UnknownType, NilValue, chain.failure)) else r.Panic?)
    ensures FindActual(link).None? && FirstActual(chain.urls).Some? ==>
      var m := FindActual(chain.urls[FirstActual(chain.urls).value]).value;
      r == Dispatch(m.kind, m.id, client)
  {
    var actual := GetActualLink(link, chain);
    if actual.1.Some? then Done(LinkResult(UnknownType, NilValue, actual.1))
    else
      match SubmatchMap(actual.0)
      case Panic(reason) => Panic(reason)
      case Done(matches) => Dispatch(Lookup(matches, "type"), Lookup(matches, "id"), client)
  }

  /** `SearchFromLink` of the older copy. */
  function SearchFromLink(chain: Redirects, client: Client): (r: Exec<ThingResult>)
    ensures (forall i :: 0 <= i < |chain.urls| ==> FindActual(chain.urls[i]).None?) ==>
      (if chain.failure.Some? then r == Done(ThingResult(NilValue, false, chain.failure)) else r.Panic?)
    ensures FirstActual(chain.urls).Some? ==>
      var m := FindActual(chain.urls[FirstActual(chain.urls).value]).value;
      r == DispatchOlder(m.kind, m.id, client)
  {
    var actual := GetActualLinkOlder(chain);
    if actual.1.Some? then Done(ThingResult(NilValue, false, actual.1))
    else
      match SubmatchMap(actual.0)
      case Panic(reason) => Panic(reason)
      case Done(matches) => DispatchOlder(Lookup(matches, "type"), Lookup(matches, "id"), client)
  }

  /** For a link that is not already an actual link, both copies follow the same
      redirects and agree as their dispatches do. */
  lemma LinkCopiesAgree(link: string, chain: Redirects, client: Client)
    requires FindActual(link).None?
    ensures var cur := GetFromLink(link, chain, client);
            var older := SearchFromLink(chain, client);
      && (cur.Panic? <==> older.Panic?)
      && (cur.Done? ==> && older.value.value == cur.value.value && older.value.error == cur.value.error
                        && (older.value.found <==> cur.value.kind != UnknownType))
  {
    var actual := GetActualLinkOlder(chain);
    if actual.1.None? && FindActual(actual.0).Some? {
      var m := FindActual(actual.0).value;
      DispatchCopiesAgree(m.kind, m.id, client);
    }
  }

  /** The id of a match is a non-empty run of digits, so parsing it fails only when
      it is beyond the 64-bit range. */
  lemma MatchedIdParses(link: string)
    requires FindActual(link).Some?
    ensures var id := FindActual(link).value.id;
      Atoi(id).Ok? <==> DigitsValue(id) <= MaxInt64
    ensures var id := FindActual(link).value.id;
      Atoi(id).Ok? ==> Atoi(id).value == DigitsValue(id)
  {
  }

  /** An actual link whose id is within range reaches the lookup of its type: an
      error from the current copy then is the type's or the client's, never the parse. */
  lemma ActualLinkReachesLookup(link: string, chain: Redirects, client: Client)
    requires FindActual(link).Some?
    requires DigitsValue(FindActual(link).value.id) <= MaxInt64
    ensures var m := FindActual(link).value;
      m.kind == "artist" ==>
        GetFromLink(link, chain, client) == Tagged(Fetch(m.id, client.getArtist), ArtistType, (a: DzArtist) => ArtistValue(ToArtist(a)))
    ensures var m := FindActual(link).value;
      m.kind == "album" ==>
        GetFromLink(link, chain, client) == Tagged(Fetch(m.id, client.getAlbum), AlbumType, (a: DzAlbum) => AlbumValue(ToAlbum(a)))
    ensures var m := FindActual(link).value;
      m.kind == "track" ==>
        GetFromLink(link, chain, client) == Tagged(Fetch(m.id, client.getTrack), TrackType, (t: DzTrack) => TrackValue(ToTrack(t)))
    ensures var m := FindActual(link).value;
      Fetch(m.id, client.getArtist) == (match client.getArtist(DigitsValue(m.id))
        case Err(e) => Done(Err(e))
        case Ok(None) => Panic("nil pointer dereference")
        case Ok(Some(a)) => Done(Ok(a)))
  {
    MatchedIdParses(link);
  }

  // ---- searches ------------------------------------------------------------

  /** `SearchArtist`: the first result of the name search. */
  function SearchArtist(artist: Artist, client: Client): (r: Search<Artist>)
    ensures client.searchArtist(artist.name).Err? <==> r.Failed?
    ensures r.Failed? ==> r.error == client.searchArtist(artist.name).error
    ensures r.NotFound? <==> client.searchArtist(artist.name) == Ok([])
    ensures r.Found? ==> r.value == ToArtist(client.searchArtist(artist.name).value[0])
    ensures !r.FoundFailed?
  {
    match client.searchArtist(artist.name)
    case Err(e) => Failed(e)
    case Ok(hits) => if |hits| == 0 then NotFound else Found(ToArtist(hits[0]))
  }

  /** `SearchAlbum`: one query per artist name, the last name with hits wins. */
  method SearchAlbum(album: Album, client: Client) returns (r: Search<Album>)
    ensures |album.artistNames| == 0 ==> r.NotFound?
    ensures r.Failed? <==> exists i :: 0 <= i < |album.artistNames| && client.searchAlbum(album.artistNames[i], album.name).Err?
    ensures r.Failed? ==> exists i :: (
      && 0 <= i < |album.artistNames| && client.searchAlbum(album.artistNames[i], album.name).Err?
      && r.error == client.searchAlbum(album.artistNames[i], album.name).error
      && forall j :: 0 <= j < i ==> client.searchAlbum(album.artistNames[j], album.name).Ok?)
    ensures r.NotFound? <==> forall i :: 0 <= i < |album.artistNames| ==>
      client.searchAlbum(album.artistNames[i], album.name).Ok? && !Hit(client.searchAlbum(album.artistNames[i], album.name))
    ensures r.Found? ==> exists i :: (
      && 0 <= i < |album.artistNames|
      && Hit(client.searchAlbum(album.artistNames[i], album.name))
      && r.value == ToAlbum(client.searchAlbum(album.artistNames[i], album.name).value[0])
      && forall j :: i < j < |album.artistNames| ==> !Hit(client.searchAlbum(album.artistNames[j], album.name)))
    ensures r.Found? ==> |r.value.artistNames| == 1
  {
    var perName := (name: string) => client.searchAlbum(name, album.name);
    var hit := LastHit(album.artistNames, perName);
    r := MapSearch(hit, ToAlbum);
  }

  /** What one iteration of the track search does for one artist name. */
  datatype Step =
    | Stop(outcome: Search<Track>)  // return this outcome at once
    | Crash                          // the refetched track is nil and is dereferenced
    | Skip                           // no hits for this name
    | Take(track: DzTrack)           // this track is now the result

  /** One iteration of `SearchTrack` / `SearchSong`: with an ISRC, the ISRC lookup
      (a nil result ends the search as not found); without one, the term search and
      a refetch of the first hit by id. */
  function TrackStep(track: Track, name: string, client: Client): Step {
    if |track.isrc| > 0 then
      match client.getTrackByIsrc(track.isrc)
      case Err(e) => Stop(Failed(e))
      case Ok(None) => Stop(NotFound)
      case Ok(Some(t)) => Take(t)
    else
      match client.searchTrack(name, track.albumName, track.name)
      case Err(e) => Stop(Failed(e))
      case Ok(hits) =>
        if |hits| == 0 then Skip
        else
          match client.getTrack(hits[0].id)
          case Err(e) => Stop(Failed(e))
          case Ok(None) => Crash
          case Ok(Some(t)) => Take(t)
  }

  function Steps(track: Track, client: Client): (steps: seq<Step>)
    ensures |steps| == |track.artistNames|
  {
    seq(|track.artistNames|, i requires 0 <= i < |track.artistNames| => TrackStep(track, track.artistNames[i], client))
  }

  /** Reference reading of the loop: the first Stop or Crash decides; otherwise the
      last Take, or the result carried in, or not found. */
  function Outcome(steps: seq<Step>, last: Option<DzTrack>): Exec<Search<Track>>
    decreases |steps|
  {
    if |steps| == 0 then
      Done(match last case None => NotFound case Some(t) => Found(ToTrack(t)))
    else
      match steps[0]
      case Stop(o) => Done(o)
      case Crash => Panic("nil pointer dereference")
      case Skip => Outcome(steps[1..], last)
      case Take(t) => Outcome(steps[1..], Some(t))
  }

  /** `SearchTrack` (current) and `SearchSong` (older), loop as written. */
  method SearchTrack(track: Track, client: Client) returns (r: Exec<Search<Track>>)
    ensures r == Outcome(Steps(track, client), None)
  {
    var steps := Steps(track, client);
    var res: Option<DzTrack> := None;
    var i := 0;
    while i < |track.artistNames|
      invariant 0 <= i <= |track.artistNames|
      invariant Outcome(steps, None) == Outcome(steps[i..], res)
    {
      assert steps[i..][1..] == steps[i + 1..];
      var step := TrackStep(track, track.artistNames[i], client);
      assert step == steps[i];
      match step {
        case Stop(o) =>
          return Done(o);
        case Crash =>
          return Panic("nil pointer dereference");
        case Skip =>
        case Take(t) =>
          res := Some(t);
      }
      i := i + 1;
    }
    r := Done(if res.Some? then Found(ToTrack(res.value)) else NotFound);
  }

  /** With no artist names nothing is searched, even with an ISRC. */
  lemma NoArtistsNotFound(track: Track, client: Client)
    requires |track.artistNames| == 0
    ensures Outcome(Steps(track, client), None) == Done(NotFound)
  {
  }

  /** A run of identical steps decides as its first one does. */
  lemma {:induction false} OutcomeConstant(steps: seq<Step>, s: Step, last: Option<DzTrack>)
    requires |steps| > 0 && forall i :: 0 <= i < |steps| ==> steps[i] == s
    ensures s.Stop? ==> Outcome(steps, last) == Done(s.outcome)
    ensures s.Crash? ==> Outcome(steps, last).Panic?
    ensures s.Take? ==> Outcome(steps, last) == Done(Found(ToTrack(s.track)))
    ensures s.Skip? ==> Outcome(steps, last) == Outcome([], last)
    decreases |steps|
  {
    if |steps| > 1 {
      OutcomeConstant(steps[1..], s, if s.Take? then Some(s.track) else last);
    }
  }

  /** With an ISRC and at least one artist name, the search is the ISRC lookup alone,
      with a nil result reported as not found. */
  lemma IsrcSearchIsLookup(track: Track, client: Client)
    requires |track.isrc| > 0 && |track.artistNames| > 0
    ensures Outcome(Steps(track, client), None) == Done(GetTrackByIsrcFixed(track.isrc, client))
  {
    var steps := Steps(track, client);
    var s := TrackStep(track, track.artistNames[0], client);
    forall i | 0 <= i < |steps|
      ensures steps[i] == s
    {
    }
    OutcomeConstant(steps, s, None);
  }

  /** Without an ISRC, a found track is the refetch of the first hit for some artist
      name after which every name had no hits. */
  lemma {:induction false} OutcomeFoundIsLastTake(steps: seq<Step>, last: Option<DzTrack>)
    requires Outcome(steps, last).Done? && Outcome(steps, last).value.Found?
    requires forall i :: 0 <= i < |steps| ==> !steps[i].Stop? || !steps[i].outcome.Found?
    ensures var v := Outcome(steps, last).value.value;
      || (exists i :: && 0 <= i < |steps| && steps[i].Take? && v == ToTrack(steps[i].track)
                      && forall j :: i < j < |steps| ==> steps[j].Skip?)
      || (last.Some? && v == ToTrack(last.value) && forall j :: 0 <= j < |steps| ==> steps[j].Skip?)
    decreases |steps|
  {
    if |steps| > 0 {
      var v := Outcome(steps, last).value.value;
      var rest := steps[1..];
      var next := if steps[0].Take? then Some(steps[0].track) else last;
      assert Outcome(steps, last) == Outcome(rest, next);
      OutcomeFoundIsLastTake(rest, next);
      if exists i :: && 0 <= i < |rest| && rest[i].Take? && v == ToTrack(rest[i].track)
                     && forall j :: i < j < |rest| ==> rest[j].Skip? {
        var i :| && 0 <= i < |rest| && rest[i].Take? && v == ToTrack(rest[i].track)
                 && forall j :: i < j < |rest| ==> rest[j].Skip?;
        assert steps[i + 1] == rest[i];
        forall j | i + 1 < j < |steps|
          ensures steps[j].Skip?
        {
          assert steps[j] == rest[j - 1];
        }
      } else if steps[0].Take? {
        forall j | 0 < j < |steps|
          ensures steps[j].Skip?
        {
          assert steps[j] == rest[j - 1];
        }
      } else {
        forall j | 0 <= j < |steps|
          ensures steps[j].Skip?
        {
          if j > 0 {
            assert steps[j] == rest[j - 1];
          }
        }
      }
    }
  }

  /** The term search for artist name `i` had hits, and refetching the first of them
      gave the track that converts to `v`. */
  predicate TakenAt(track: Track, client: Client, i: nat, v: Track)
    requires i < |track.artistNames|
  {
    var hits := client.searchTrack(track.artistNames[i], track.albumName, track.name);
    && hits.Ok? && |hits.value| > 0
    && client.getTrack(hits.value[0].id).Ok? && client.getTrack(hits.value[0].id).value.Some?
    && v == ToTrack(client.getTrack(hits.value[0].id).value.value)
  }

  /** Without an ISRC: a found track is the refetch of the first hit for an artist
      name after which no name had hits. */
  lemma TermSearchLastHitWins(track: Track, client: Client)
    requires |track.isrc| == 0
    requires Outcome(Steps(track, client), None).Done? && Outcome(Steps(track, client), None).value.Found?
    ensures exists i :: && 0 <= i < |track.artistNames|
                        && TakenAt(track, client, i, Outcome(Steps(track, client), None).value.value)
                        && forall j :: i < j < |track.artistNames| ==>
                             client.searchTrack(track.artistNames[j], track.albumName, track.name) == Ok([])
  {
    var steps := Steps(track, client);
    forall i | 0 <= i < |steps|
      ensures !steps[i].Stop? || !steps[i].outcome.Found?
    {
    }
    OutcomeFoundIsLastTake(steps, None);
    var i :| && 0 <= i < |steps| && steps[i].Take?
             && Outcome(steps, None).value.value == ToTrack(steps[i].track)
             && forall j :: i < j < |steps| ==> steps[j].Skip?;
    assert TakenAt(track, client, i, Outcome(steps, None).value.value) by {
      assert steps[i] == TrackStep(track, track.artistNames[i], client);
    }
    forall j | i < j < |track.artistNames|
      ensures client.searchTrack(track.artistNames[j], track.albumName, track.name) == Ok([])
    {
      assert steps[j] == TrackStep(track, track.artistNames[j], client);
      assert steps[j].Skip?;
    }
  }

  // ---- GetTrackByIsrc ------------------------------------------------------

  /** `GetTrackByIsrc` of the current copy as written: the lookup's nil result (a
      404, or a track without a link) is dereferenced. */
  function GetTrackByIsrc(isrc: string, client: Client): (r: Exec<Search<Track>>)
    ensures r.Panic? <==> client.getTrackByIsrc(isrc) == Ok(None)
    ensures r.Done? ==> !r.value.NotFound? && !r.value.FoundFailed?
    ensures client.getTrackByIsrc(isrc).Err? ==> r == Done(Failed(client.getTrackByIsrc(isrc).error))
    ensures r.Done? && r.value.Found? ==>
              r.value.value.source == DeezerKey && r.value.value.isrc == client.getTrackByIsrc(isrc).value.value.isrc
  {
    match client.getTrackByIsrc(isrc)
    case Err(e) => Done(Failed(e))
    case Ok(None) => Panic("nil pointer dereference")
    case Ok(Some(t)) => Done(Found(ToTrack(t)))
  }

  /** `GetTrackByIsrc` as evidently intended: a nil result means not found, as in
      the ISRC branch of the track search. */
  function GetTrackByIsrcFixed(isrc: string, client: Client): (r: Search<Track>)
    ensures r.NotFound? <==> client.getTrackByIsrc(isrc) == Ok(None)
    ensures r.Failed? <==> client.getTrackByIsrc(isrc).Err?
    ensures r.Failed? ==> r.error == client.getTrackByIsrc(isrc).error
    ensures r.Found? ==> client.getTrackByIsrc(isrc).Ok? && client.getTrackByIsrc(isrc).value.Some?
                         && r.value == ToTrack(client.getTrackByIsrc(isrc).value.value)
    ensures r.Found? ==> r.value.source == DeezerKey
    ensures !r.FoundFailed?
  {
    match client.getTrackByIsrc(isrc)
    case Err(e) => Failed(e)
    case Ok(None) => NotFound
    case Ok(Some(t)) => Found(ToTrack(t))
  }

  /** The two agree exactly when the lookup does not come back nil. */
  lemma GetTrackByIsrcAgrees(isrc: string, client: Client)
    ensures GetTrackByIsrc(isrc, client) == Done(GetTrackByIsrcFixed(isrc, client))
        <==> client.getTrackByIsrc(isrc) != Ok(None)
  {
  }

  /** A client that answers 404 for an ISRC: the code as written panics, the fixed
      version reports not found. */
  lemma GetTrackByIsrcUnknownPanics()
    ensures var client := Client(
        _ => Ok([]), (_, _) => Ok([]), (_, _, _) => Ok([]),
        _ => Ok(None), _ => Ok(None), _ => Ok(None), _ => Ok(None));
      GetTrackByIsrc("USUM71703861", client).Panic?
      && GetTrackByIsrcFixed("USUM71703861", client) == NotFound
  {
  }
}

=== FILE: deezer_link.dfy ===
/** The two Deezer link patterns, written out as recognisers with RE2's
    leftmost-first semantics:

      share:  optional "http://" or "https://", "deezer.page.link/", a run of
              letters and digits (the `id` group);
      actual: optional scheme, optional "www.", "deezer.com/", an optional run of
              letters followed by "/" (the `lang` group), a run of letters (the
              `type` group), "/", a run of digits (the `id` group).

    Optional groups are greedy: the group is tried first and dropped only when the
    rest of the pattern fails after it. Every letter run has to end just before a
    "/", and the final run ends the pattern, so the greedy length of a run is the
    only one that can succeed. */
module DeezerLink {
  import opened Wrappers
  import opened Text

  const ShareHost: string := "deezer.page.link/"
  const Www: string := "www."
  const ActualHost: string := "deezer.com/"

  /** Both patterns open with `(https?:\/\/)?`. */
  predicate ValidScheme(scheme: string) {
    scheme == "" || scheme == "http://" || scheme == "https://"
  }

  // ---------------------------------------------------------------------------
  // Share links: https://deezer.page.link/<id>

  datatype ShareMatch = ShareMatch(start: nat, end: nat, scheme: string, id: string)

  function ShareLink(scheme: string, id: string): string {
    scheme + ShareHost + id
  }

  /** What a share match means: its span spells a share link, and the id run is maximal. */
  predicate WellFormedShare(s: string, m: ShareMatch) {
    && m.start <= m.end <= |s|
    && s[m.start..m.end] == ShareLink(m.scheme, m.id)
    && ValidScheme(m.scheme)
    && |m.id| > 0 && AllAlnum(m.id)
    && (m.end == |s| || !IsAlnum(s[m.end]))
  }

  /** The host and id, starting at `q`, of a match that starts at `p`. */
  function ShareRest(s: string, p: nat, q: nat): (r: Option<ShareMatch>)
    requires p <= q <= |s|
    ensures r.Some? ==> && r.value.start == p && r.value.scheme == s[p..q] && p <= r.value.end <= |s|
                        && s[r.value.start..r.value.end] == ShareLink(r.value.scheme, r.value.id)
                        && |r.value.id| > 0 && AllAlnum(r.value.id)
                        && (r.value.end == |s| || !IsAlnum(s[r.value.end]))
  {
    if !StartsWith(s[q..], ShareHost) then None
    else
      var t := q + |ShareHost|;
      var a := AlnumRun(s, t);
      if a == 0 then None
      else
        ShareSpell(s, p, q, a);
        AlnumRunSound(s, t);
        AlnumSlice(s, t, a);
        Some(ShareMatch(p, t + a, s[p..q], s[t..t + a]))
  }

  lemma ShareSpell(s: string, p: nat, q: nat, a: nat)
    requires p <= q && q + |ShareHost| + a <= |s|
    requires StartsWith(s[q..], ShareHost)
    ensures s[p..q + |ShareHost| + a] == ShareLink(s[p..q], s[q + |ShareHost|..q + |ShareHost| + a])
  {
    var t := q + |ShareHost|;
    assert s[q..t] == ShareHost by {
      assert s[q..][..|ShareHost|] == s[q..t];
    }
    SliceConcat(s, p, t, t + a);
    SliceConcat(s, p, q, t);
  }

  /** A share match starting exactly at `p`; the scheme group is greedy. */
  function ShareAt(s: string, p: nat): (r: Option<ShareMatch>)
    requires p <= |s|
    ensures r.Some? ==> r.value.start == p && WellFormedShare(s, r.value)
  {
    var https := StartsWith(s[p..], "https://");
    var http := StartsWith(s[p..], "http://");
    if https && ShareRest(s, p, p + 8).Some? then ShareRest(s, p, p + 8)
    else if http && ShareRest(s, p, p + 7).Some? then ShareRest(s, p, p + 7)
    else ShareRest(s, p, p)
  }

  function FindShareFrom(s: string, from: nat): (r: Option<ShareMatch>)
    requires from <= |s| + 1
    ensures r.Some? ==> from <= r.value.start <= |s| && ShareAt(s, r.value.start) == r
    ensures r.Some? ==> forall p :: from <= p < r.value.start ==> ShareAt(s, p).None?
    ensures r.None? ==> forall p :: from <= p <= |s| ==> ShareAt(s, p).None?
    decreases |s| + 1 - from
  {
    if from > |s| then None
    else if ShareAt(s, from).Some? then ShareAt(s, from)
    else FindShareFrom(s, from + 1)
  }

  /** The leftmost match of the share pattern. */
  function FindShare(s: string): (r: Option<ShareMatch>)
    ensures r.Some? ==> WellFormedShare(s, r.value)
    ensures r.Some? ==> ShareAt(s, r.value.start) == r
    ensures r.Some? ==> forall p :: 0 <= p < r.value.start ==> ShareAt(s, p).None?
    ensures r.None? ==> forall p :: 0 <= p <= |s| ==> ShareAt(s, p).None?
  {
    FindShareFrom(s, 0)
  }

  // ---------------------------------------------------------------------------
  // Actual links: https://www.deezer.com/<lang>/<type>/<id>

  datatype ActualMatch = ActualMatch(start: nat, end: nat, scheme: string, www: string,
                                     lang: string, kind: string, id: string)

  function ActualLink(scheme: string, www: string, lang: string, kind: string, id: string): string {
    scheme + www + ActualHost + lang + kind + "/" + id
  }

  /** The `lang` group: letters followed by "/", or absent. */
  predicate ValidLang(lang: string) {
    lang == "" || (|lang| >= 2 && AllLetters(lang[..|lang| - 1]) && lang[|lang| - 1] == '/')
  }

  /** Everything a match after its scheme and "www." guarantees. */
  predicate ActualParts(s: string, m: ActualMatch) {
    && m.start <= m.end <= |s|
    && s[m.start..m.end] == ActualLink(m.scheme, m.www, m.lang, m.kind, m.id)
    && ValidLang(m.lang)
    && |m.kind| > 0 && AllLetters(m.kind)
    && |m.id| > 0 && AllDigits(m.id)
    && (m.end == |s| || !IsDigit(s[m.end]))
  }

  /** What an actual match means: its span spells an actual link with well-formed
      parts, and the id run is maximal. */
  predicate WellFormedActual(s: string, m: ActualMatch) {
    && ActualParts(s, m)
    && ValidScheme(m.scheme)
    && (m.www == "" || m.www == Www)
  }

  /** Lengths of the `type` and `id` runs. */
  datatype Tail = Tail(kindLen: nat, idLen: nat)

  /** `type` "/" `id` starting at `t`. */
  function KindId(s: string, t: nat): (r: Option<Tail>)
    requires t <= |s|
    ensures r.Some? ==> && r.value.kindLen > 0 && r.value.idLen > 0
                        && t + r.value.kindLen + 1 + r.value.idLen <= |s|
  {
    var l := LetterRun(s, t);
    if l == 0 || t + l >= |s| || s[t + l] != '/' then None
    else
      var d := DigitRun(s, t + l + 1);
      if d == 0 then None else Some(Tail(l, d))
  }

  lemma KindIdSound(s: string, t: nat)
    requires t <= |s|
    ensures var r := KindId(s, t);
      r.Some? ==> var e := t + r.value.kindLen + 1 + r.value.idLen;
        && s[t + r.value.kindLen] == '/'
        && (forall k :: t <= k < t + r.value.kindLen ==> IsLetter(s[k]))
        && (forall k :: t + r.value.kindLen + 1 <= k < e ==> IsDigit(s[k]))
        && (e == |s| || !IsDigit(s[e]))
  {
    LetterRunSound(s, t);
    if t + LetterRun(s, t) < |s| {
      DigitRunSound(s, t + LetterRun(s, t) + 1);
    }
  }

  /** Length of the `lang` group (0 when it is absent) and the tail after it. */
  datatype Path = Path(langLen: nat, tail: Tail)

  /** The optional `lang` group and the tail, starting just after the host at `h`. */
  function LangPath(s: string, h: nat): (r: Option<Path>)
    requires h <= |s|
    ensures r.Some? ==> h + r.value.langLen <= |s| && KindId(s, h + r.value.langLen) == Some(r.value.tail)
  {
    var g := LetterRun(s, h);
    if g > 0 && h + g < |s| && s[h + g] == '/' && KindId(s, h + g + 1).Some? then
      Some(Path(g + 1, KindId(s, h + g + 1).value))
    else
      match KindId(s, h)
      case None => None
      case Some(tail) => Some(Path(0, tail))
  }

  lemma LangPathSound(s: string, h: nat)
    requires h <= |s|
    ensures var r := LangPath(s, h);
      r.Some? ==> var l := r.value.langLen;
        l == 0 || (l >= 2 && s[h + l - 1] == '/' && forall k :: h <= k < h + l - 1 ==> IsLetter(s[k]))
  {
    LetterRunSound(s, h);
  }

  /** The match whose host starts at `w` and whose path after the host is `path`. */
  function Assemble(s: string, p: nat, q: nat, w: nat, path: Path): (m: ActualMatch)
    requires p <= q <= w
    requires w + |ActualHost| + path.langLen + path.tail.kindLen + 1 + path.tail.idLen <= |s|
  {
    var h := w + |ActualHost|;
    var k := h + path.langLen;
    var t := k + path.tail.kindLen;
    var e := t + 1 + path.tail.idLen;
    ActualMatch(p, e, s[p..q], s[q..w], s[h..k], s[k..t], s[t + 1..e])
  }

  /** The host and path, with the host at `w`, of a match that starts at `p` and whose
      scheme ends at `q`. */
  function HostRest(s: string, p: nat, q: nat, w: nat): (r: Option<ActualMatch>)
    requires p <= q <= w <= |s|
    ensures r.Some? ==> r.value.start == p && r.value.scheme == s[p..q] && r.value.www == s[q..w]
  {
    if !StartsWith(s[w..], ActualHost) then None
    else
      match LangPath(s, w + |ActualHost|)
      case None => None
      case Some(path) => Some(Assemble(s, p, q, w, path))
  }

  lemma HostRestSound(s: string, p: nat, q: nat, w: nat)
    requires p <= q <= w <= |s|
    ensures HostRest(s, p, q, w).Some? ==> ActualParts(s, HostRest(s, p, q, w).value)
  {
    if HostRest(s, p, q, w).Some? {
      var h := w + |ActualHost|;
      var path := LangPath(s, h).value;
      assert StartsWith(s[w..], ActualHost);
      assert HostRest(s, p, q, w).value == Assemble(s, p, q, w, path);
      assert s[w..h] == ActualHost by {
        assert s[w..][..|ActualHost|] == s[w..h];
      }
      AssembleSound(s, p, q, w, path);
    }
  }

  lemma AssembleSound(s: string, p: nat, q: nat, w: nat, path: Path)
    requires p <= q <= w && w + |ActualHost| <= |s|
    requires s[w..w + |ActualHost|] == ActualHost
    requires LangPath(s, w + |ActualHost|) == Some(path)
    ensures ActualParts(s, Assemble(s, p, q, w, path))
  {
    var h := w + |ActualHost|;
    var k, t, e := PathPieces(s, h, path);
    AssembledFrom(s, p, q, w, path, h, k, t, e);
  }

  /** The match assembled from a path whose pieces are well formed. */
  lemma AssembledFrom(s: string, p: nat, q: nat, w: nat, path: Path, h: nat, k: nat, t: nat, e: nat)
    requires p <= q <= w && h == w + |ActualHost|
    requires k == h + path.langLen && t == k + path.tail.kindLen && e == t + 1 + path.tail.idLen
    requires e <= |s| && s[w..h] == ActualHost
    requires && s[t] == '/' && ValidLang(s[h..k])
             && |s[k..t]| > 0 && AllLetters(s[k..t])
             && |s[t + 1..e]| > 0 && AllDigits(s[t + 1..e])
             && (e == |s| || !IsDigit(s[e]))
    ensures ActualParts(s, Assemble(s, p, q, w, path))
  {
    var m := Assemble(s, p, q, w, path);
    assert m == ActualMatch(p, e, s[p..q], s[q..w], s[h..k], s[k..t], s[t + 1..e]);
    SpellActual(s, p, q, w, h, k, t, e);
    AssembledParts(s, m, p, q, w, h, k, t, e);
  }

  /** A match made of well-formed slices that spell an actual link has the parts
      of one. */
  lemma AssembledParts(s: string, m: ActualMatch, p: nat, q: nat, w: nat, h: nat, k: nat, t: nat, e: nat)
    requires p <= q <= w <= h <= k <= t < e <= |s|
    requires m == ActualMatch(p, e, s[p..q], s[q..w], s[h..k], s[k..t], s[t + 1..e])
    requires s[p..e] == ActualLink(s[p..q], s[q..w], s[h..k], s[k..t], s[t + 1..e])
    requires ValidLang(s[h..k]) && |s[k..t]| > 0 && AllLetters(s[k..t])
    requires |s[t + 1..e]| > 0 && AllDigits(s[t + 1..e]) && (e == |s| || !IsDigit(s[e]))
    ensures ActualParts(s, m)
  {
  }

  /** What the path after the host holds, piece by piece. */
  lemma PathPieces(s: string, h: nat, path: Path) returns (k: nat, t: nat, e: nat)
    requires h <= |s| && LangPath(s, h) == Some(path)
    ensures k == h + path.langLen && t == k + path.tail.kindLen && e == t + 1 + path.tail.idLen
    ensures && h <= k <= t < e <= |s| && s[t] == '/' && ValidLang(s[h..k])
            && |s[k..t]| > 0 && AllLetters(s[k..t])
            && |s[t + 1..e]| > 0 && AllDigits(s[t + 1..e])
            && (e == |s| || !IsDigit(s[e]))
  {
    k := h + path.langLen;
    t := k + path.tail.kindLen;
    e := t + 1 + path.tail.idLen;
    LangPathSound(s, h);
    KindIdSound(s, k);
    RunSlices(s, h, k, t, e);
  }

  /** The runs between the boundaries of a path, as slices. */
  lemma RunSlices(s: string, h: nat, k: nat, t: nat, e: nat)
    requires h <= k <= t < e <= |s|
    requires k == h || (k >= h + 2 && s[k - 1] == '/' && forall i :: h <= i < k - 1 ==> IsLetter(s[i]))
    requires forall i :: k <= i < t ==> IsLetter(s[i])
    requires forall i :: t + 1 <= i < e ==> IsDigit(s[i])
    ensures ValidLang(s[h..k]) && AllLetters(s[k..t]) && AllDigits(s[t + 1..e])
  {
    LangSlice(s, h, k - h);
    LettersSlice(s, k, t - k);
    DigitsSlice(s, t + 1, e - t - 1);
  }

  lemma SpellActual(s: string, p: nat, q: nat, w: nat, h: nat, k: nat, t: nat, e: nat)
    requires p <= q <= w <= h <= k <= t < e <= |s|
    requires s[w..h] == ActualHost && s[t] == '/'
    ensures s[p..e] == ActualLink(s[p..q], s[q..w], s[h..k], s[k..t], s[t + 1..e])
  {
    SliceConcat(s, p, t + 1, e);
    SliceConcat(s, p, t, t + 1);
    SliceConcat(s, p, k, t);
    SliceConcat(s, p, h, k);
    SliceConcat(s, p, w, h);
    SliceConcat(s, p, q, w);
    assert s[t..t + 1] == "/";
  }

  lemma LangSlice(s: string, h: nat, l: nat)
    requires h + l <= |s|
    requires l == 0 || (l >= 2 && s[h + l - 1] == '/' && forall k :: h <= k < h + l - 1 ==> IsLetter(s[k]))
    ensures ValidLang(s[h..h + l])
  {
    if l > 0 {
      LettersSlice(s, h, l - 1);
      assert s[h..h + l][..l - 1] == s[h..h + l - 1];
    }
  }

  /** The optional "www." group, greedy, after a scheme ending at `q`. */
  function WwwRest(s: string, p: nat, q: nat): (r: Option<ActualMatch>)
    requires p <= q <= |s|
    ensures r.Some? ==> r.value.start == p && r.value.scheme == s[p..q]
  {
    if StartsWith(s[q..], Www) && HostRest(s, p, q, q + |Www|).Some? then HostRest(s, p, q, q + |Www|)
    else HostRest(s, p, q, q)
  }

  lemma WwwRestSound(s: string, p: nat, q: nat)
    requires p <= q <= |s|
    ensures var r := WwwRest(s, p, q);
      r.Some? ==> (r.value.www == "" || r.value.www == Www) && ActualParts(s, r.value)
  {
    var w := if StartsWith(s[q..], Www) && HostRest(s, p, q, q + |Www|).Some? then q + |Www| else q;
    assert WwwRest(s, p, q) == HostRest(s, p, q, w);
    HostRestSound(s, p, q, w);
    if w == q {
      assert s[q..w] == "";
    } else {
      assert s[q..w] == Www by {
        assert s[q..][..|Www|] == s[q..w];
      }
    }
  }

  lemma WwwRestSoundAt(s: string, p: nat)
    requires p <= |s|
    ensures forall q :: p <= q <= |s| && q - p in {0, 7, 8} ==> var r := WwwRest(s, p, q);
      r.Some? ==> (r.value.www == "" || r.value.www == Www) && ActualParts(s, r.value)
  {
    forall q | p <= q <= |s| && q - p in {0, 7, 8} {
      WwwRestSound(s, p, q);
    }
  }

  /** An actual match starting exactly at `p`; the scheme group is greedy. */
  function ActualAt(s: string, p: nat): (r: Option<ActualMatch>)
    requires p <= |s|
    ensures r.Some? ==> r.value.start == p
  {
    var https := StartsWith(s[p..], "https://");
    var http := StartsWith(s[p..], "http://");
    if https && WwwRest(s, p, p + 8).Some? then WwwRest(s, p, p + 8)
    else if http && WwwRest(s, p, p + 7).Some? then WwwRest(s, p, p + 7)
    else WwwRest(s, p, p)
  }

  lemma ActualAtSound(s: string, p: nat)
    requires p <= |s|
    ensures ActualAt(s, p).Some? ==> WellFormedActual(s, ActualAt(s, p).value)
  {
    WwwRestSoundAt(s, p);
  }

  lemma ActualAtSoundAll(s: string)
    ensures forall p :: 0 <= p <= |s| && ActualAt(s, p).Some? ==> WellFormedActual(s, ActualAt(s, p).value)
  {
    forall p | 0 <= p <= |s| && ActualAt(s, p).Some? {
      ActualAtSound(s, p);
    }
  }

  function FindActualFrom(s: string, from: nat): (r: Option<ActualMatch>)
    requires from <= |s| + 1
    ensures r.Some? ==> from <= r.value.start <= |s| && ActualAt(s, r.value.start) == r
    decreases |s| + 1 - from
  {
    if from > |s| then None
    else if ActualAt(s, from).Some? then ActualAt(s, from)
    else FindActualFrom(s, from + 1)
  }

  /** The scan from `from` finds the leftmost position that admits a match. */
  lemma {:induction false} FindActualFromLeftmost(s: string, from: nat)
    requires from <= |s| + 1
    ensures var r := FindActualFrom(s, from);
      && (r.Some? ==> forall p :: from <= p < r.value.start ==> ActualAt(s, p).None?)
      && (r.None? ==> forall p :: from <= p <= |s| ==> ActualAt(s, p).None?)
    decreases |s| + 1 - from
  {
    if from <= |s| && ActualAt(s, from).None? {
      var rest := FindActualFrom(s, from + 1);
      assert FindActualFrom(s, from) == rest;
      FindActualFromLeftmost(s, from + 1);
      forall p | from <= p && (rest.Some? ==> p < rest.value.start) && (rest.None? ==> p <= |s|)
        ensures ActualAt(s, p).None?
      {
        if p > from {
          assert from + 1 <= p;
        }
      }
    }
  }

  /** The leftmost match of the actual-link pattern. */
  function FindActual(s: string): (r: Option<ActualMatch>)
    ensures r.Some? ==> WellFormedActual(s, r.value)
    ensures r.Some? ==> ActualAt(s, r.value.start) == r
    ensures r.Some? ==> forall p :: 0 <= p < r.value.start ==> ActualAt(s, p).None?
    ensures r.None? ==> forall p :: 0 <= p <= |s| ==> ActualAt(s, p).None?
  {
    ActualAtSoundAll(s);
    FindActualFromLeftmost(s, 0);
    FindActualFrom(s, 0)
  }

  // ---------------------------------------------------------------------------
  // Round trips: a link written from well-formed parts is recognised with exactly
  // those parts as captures.

  lemma ShareRestExact(s: string, q: nat, id: string)
    requires |id| > 0 && AllAlnum(id)
    requires q + |ShareHost| + |id| <= |s|
    requires s[q..q + |ShareHost|] == ShareHost
    requires s[q + |ShareHost|..q + |ShareHost| + |id|] == id
    requires q + |ShareHost| + |id| == |s| || !IsAlnum(s[q + |ShareHost| + |id|])
    ensures ShareRest(s, 0, q) == Some(ShareMatch(0, q + |ShareHost| + |id|, s[..q], id))
  {
    var t := q + |ShareHost|;
    assert StartsWith(s[q..], ShareHost) by {
      assert s[q..][..|ShareHost|] == s[q..t];
    }
    assert AlnumRun(s, t) == |id| by {
      assert forall k :: t <= k < t + |id| ==> s[k] == s[t..t + |id|][k - t];
      AlnumRunExact(s, t, |id|);
    }
    assert s[0..q] == s[..q];
  }

  /** A valid scheme followed by anything but 'h' decides both scheme tests. */
  lemma SchemePrefix(s: string, scheme: string)
    requires ValidScheme(scheme)
    requires |scheme| < |s| && s[..|scheme|] == scheme && s[|scheme|] != 'h'
    ensures StartsWith(s, "https://") <==> scheme == "https://"
    ensures StartsWith(s, "http://") <==> scheme == "http://"
  {
    if scheme == "https://" {
      assert s[..7] == "https:/"[..7];
      assert s[4] == 's';
    } else if scheme == "http://" {
      assert s[4] == ':';
    } else {
      assert s[0] != 'h';
    }
  }

  /** With a valid scheme in front of the host, `ShareAt` takes exactly that scheme. */
  lemma ShareSchemeChoice(s: string, scheme: string)
    requires ValidScheme(scheme)
    requires |scheme| < |s| && s[..|scheme|] == scheme && s[|scheme|] == 'd'
    requires ShareRest(s, 0, |scheme|).Some?
    ensures ShareAt(s, 0) == ShareRest(s, 0, |scheme|)
  {
    SchemePrefix(s, scheme);
    assert s[0..] == s;
    if scheme == "https://" {
      assert |scheme| == 8;
    } else if scheme == "http://" {
      assert |scheme| == 7;
    } else {
      assert |scheme| == 0;
    }
  }

  lemma ShareRoundTrip(scheme: string, id: string, suffix: string)
    requires ValidScheme(scheme)
    requires |id| > 0 && AllAlnum(id)
    requires |suffix| == 0 || !IsAlnum(suffix[0])
    ensures var link := ShareLink(scheme, id);
      FindShare(link + suffix) == Some(ShareMatch(0, |link|, scheme, id))
  {
    var link := ShareLink(scheme, id);
    var s := link + suffix;
    var q := |scheme|;
    var t := q + |ShareHost|;
    assert s == (scheme + ShareHost) + (id + suffix);
    assert s[..t] == scheme + ShareHost;
    assert s[..q] == scheme;
    assert s[q..t] == s[..t][q..];
    assert s[t..t + |id|] == id;
    assert s[q] == 'd';
    if t + |id| < |s| {
      assert s[t + |id|] == suffix[0];
    }
    ShareRestExact(s, q, id);
    ShareSchemeChoice(s, scheme);
  }

  lemma KindIdExact(s: string, t: nat, kind: string, id: string)
    requires |kind| > 0 && AllLetters(kind) && |id| > 0 && AllDigits(id)
    requires t + |kind| + 1 + |id| <= |s|
    requires s[t..t + |kind|] == kind && s[t + |kind|] == '/'
    requires s[t + |kind| + 1..t + |kind| + 1 + |id|] == id
    requires t + |kind| + 1 + |id| == |s| || !IsDigit(s[t + |kind| + 1 + |id|])
    ensures LetterRun(s, t) == |kind|
    ensures KindId(s, t) == Some(Tail(|kind|, |id|))
  {
    var u := t + |kind| + 1;
    assert LetterRun(s, t) == |kind| by {
      assert forall k :: t <= k < t + |kind| ==> s[k] == s[t..t + |kind|][k - t];
      LetterRunExact(s, t, |kind|);
    }
    assert DigitRun(s, u) == |id| by {
      assert forall k :: u <= k < u + |id| ==> s[k] == s[u..u + |id|][k - u];
      DigitRunExact(s, u, |id|);
    }
  }

  /** A `lang` group that is present is taken. */
  lemma LangPathWithLang(s: string, h: nat, lang: string, tail: Tail)
    requires ValidLang(lang) && lang != ""
    requires h + |lang| <= |s| && s[h..h + |lang|] == lang
    requires KindId(s, h + |lang|) == Some(tail)
    ensures LangPath(s, h) == Some(Path(|lang|, tail))
  {
    var g := |lang| - 1;
    assert s[h + g] == '/';
    assert LetterRun(s, h) == g by {
      assert forall k :: h <= k < h + g ==> s[k] == lang[..g][k - h];
      LetterRunExact(s, h, g);
    }
  }

  /** Without a `lang` group the type run is followed by "/" and a digit, so the
      group's attempt fails and the path is read from the host on. */
  lemma LangPathNoLang(s: string, h: nat, kind: string, id: string)
    requires |kind| > 0 && AllLetters(kind) && |id| > 0 && AllDigits(id)
    requires h + |kind| + 1 + |id| <= |s|
    requires s[h..h + |kind|] == kind && s[h + |kind|] == '/'
    requires s[h + |kind| + 1..h + |kind| + 1 + |id|] == id
    requires h + |kind| + 1 + |id| == |s| || !IsDigit(s[h + |kind| + 1 + |id|])
    ensures LangPath(s, h) == Some(Path(0, Tail(|kind|, |id|)))
  {
    KindIdExact(s, h, kind, id);
    var u := h + |kind| + 1;
    assert s[u] == id[0];
    assert LetterRun(s, u) == 0;
  }

  /** `s` holds, from `w` on, the host, `lang`, `kind`, "/" and a maximal `id`. */
  predicate PathAt(s: string, w: nat, lang: string, kind: string, id: string) {
    var h := w + |ActualHost|;
    var k := h + |lang|;
    var t := k + |kind|;
    var e := t + 1 + |id|;
    && e <= |s| && s[w..h] == ActualHost && s[h..k] == lang && s[k..t] == kind && s[t] == '/'
    && s[t + 1..e] == id && (e == |s| || !IsDigit(s[e]))
  }

  lemma LangPathExact(s: string, h: nat, lang: string, kind: string, id: string)
    requires ValidLang(lang) && |kind| > 0 && AllLetters(kind) && |id| > 0 && AllDigits(id)
    requires h + |lang| + |kind| + 1 + |id| <= |s|
    requires s[h..h + |lang|] == lang
    requires s[h + |lang|..h + |lang| + |kind|] == kind && s[h + |lang| + |kind|] == '/'
    requires s[h + |lang| + |kind| + 1..h + |lang| + |kind| + 1 + |id|] == id
    requires h + |lang| + |kind| + 1 + |id| == |s| || !IsDigit(s[h + |lang| + |kind| + 1 + |id|])
    ensures LangPath(s, h) == Some(Path(|lang|, Tail(|kind|, |id|)))
  {
    if lang == "" {
      LangPathNoLang(s, h, kind, id);
    } else {
      KindIdExact(s, h + |lang|, kind, id);
      LangPathWithLang(s, h, lang, Tail(|kind|, |id|));
    }
  }

  lemma HostRestExact(s: string, q: nat, w: nat, lang: string, kind: string, id: string)
    requires q <= w
    requires ValidLang(lang) && |kind| > 0 && AllLetters(kind) && |id| > 0 && AllDigits(id)
    requires PathAt(s, w, lang, kind, id)
    ensures HostRest(s, 0, q, w)
         == Some(ActualMatch(0, w + |ActualHost| + |lang| + |kind| + 1 + |id|, s[..q], s[q..w], lang, kind, id))
  {
    var h := w + |ActualHost|;
    var path := Path(|lang|, Tail(|kind|, |id|));
    assert HostRest(s, 0, q, w) == Some(Assemble(s, 0, q, w, path)) by {
      assert StartsWith(s[w..], ActualHost) by {
        assert s[w..][..|ActualHost|] == s[w..h];
      }
      LangPathExact(s, h, lang, kind, id);
    }
    AssembleExact(s, q, w, lang, kind, id);
  }

  lemma AssembleExact(s: string, q: nat, w: nat, lang: string, kind: string, id: string)
    requires q <= w
    requires PathAt(s, w, lang, kind, id)
    ensures Assemble(s, 0, q, w, Path(|lang|, Tail(|kind|, |id|)))
         == ActualMatch(0, w + |ActualHost| + |lang| + |kind| + 1 + |id|, s[..q], s[q..w], lang, kind, id)
  {
    assert s[0..q] == s[..q];
  }

  lemma WwwPrefix(s: string, q: nat, www: string)
    requires www == "" || www == Www
    requires q + |www| < |s| && s[q..q + |www|] == www && s[q + |www|] == 'd'
    ensures StartsWith(s[q..], Www) <==> www == Www
  {
    if www == Www {
      assert s[q..][..|Www|] == s[q..q + |Www|];
    } else {
      assert s[q..][0] == 'd';
    }
  }

  /** The "www." group is taken when it is there and the rest matches after it. */
  lemma WwwChoice(s: string, q: nat, www: string)
    requires www == "" || www == Www
    requires q + |www| < |s| && s[q..q + |www|] == www && s[q + |www|] == 'd'
    requires HostRest(s, 0, q, q + |www|).Some?
    ensures WwwRest(s, 0, q) == HostRest(s, 0, q, q + |www|)
  {
    WwwPrefix(s, q, www);
    if www == Www {
      assert q + |www| == q + |Www|;
    }
  }

  /** How `ActualAt` at the start of a string picks its scheme. */
  lemma ActualAtStartCases(s: string)
    ensures StartsWith(s, "https://") && WwwRest(s, 0, 8).Some? ==> ActualAt(s, 0) == WwwRest(s, 0, 8)
    ensures !StartsWith(s, "https://") && StartsWith(s, "http://") && WwwRest(s, 0, 7).Some?
            ==> ActualAt(s, 0) == WwwRest(s, 0, 7)
    ensures !StartsWith(s, "https://") && !StartsWith(s, "http://") ==> ActualAt(s, 0) == WwwRest(s, 0, 0)
  {
    assert s[0..] == s;
  }

  /** With a valid scheme in front of the rest, `ActualAt` takes exactly that scheme. */
  lemma ActualSchemeChoice(s: string, scheme: string, m: ActualMatch)
    requires ValidScheme(scheme)
    requires |scheme| < |s| && s[..|scheme|] == scheme && s[|scheme|] != 'h'
    requires WwwRest(s, 0, |scheme|) == Some(m)
    ensures ActualAt(s, 0) == Some(m)
  {
    SchemePrefix(s, scheme);
    ActualAtStartCases(s);
    if scheme == "https://" {
      assert |scheme| == 8;
    } else if scheme == "http://" {
      assert |scheme| == 7;
    } else {
      assert |scheme| == 0;
    }
  }

  lemma ActualPieces(scheme: string, www: string, lang: string, kind: string, id: string, suffix: string)
    requires |suffix| == 0 || !IsDigit(suffix[0])
    ensures var s := ActualLink(scheme, www, lang, kind, id) + suffix;
      var q := |scheme|;
      var w := q + |www|;
      && s[..q] == scheme && s[q..w] == www
      && PathAt(s, w, lang, kind, id)
  {
    ActualPrefixPieces(scheme, www, lang, kind, id, suffix);
    ActualPathPieces(scheme, www, lang, kind, id, suffix);
  }

  lemma ActualPrefixPieces(scheme: string, www: string, lang: string, kind: string, id: string, suffix: string)
    ensures var s := ActualLink(scheme, www, lang, kind, id) + suffix;
      s[..|scheme|] == scheme && s[|scheme|..|scheme| + |www|] == www
  {
    var s := ActualLink(scheme, www, lang, kind, id) + suffix;
    assert s == scheme + www + (ActualHost + lang + kind + "/" + id + suffix);
  }

  lemma ActualPathPieces(scheme: string, www: string, lang: string, kind: string, id: string, suffix: string)
    requires |suffix| == 0 || !IsDigit(suffix[0])
    ensures PathAt(ActualLink(scheme, www, lang, kind, id) + suffix, |scheme| + |www|, lang, kind, id)
  {
    ActualHostPieces(scheme, www, lang, kind, id, suffix);
    ActualTailPieces(scheme, www, lang, kind, id, suffix);
  }

  lemma ActualHostPieces(scheme: string, www: string, lang: string, kind: string, id: string, suffix: string)
    ensures var s := ActualLink(scheme, www, lang, kind, id) + suffix;
      var h := |scheme| + |www| + |ActualHost|;
      && s[|scheme| + |www|..h] == ActualHost && s[h..h + |lang|] == lang
  {
    var s := ActualLink(scheme, www, lang, kind, id) + suffix;
    var w := |scheme| + |www|;
    var h := w + |ActualHost|;
    assert s == (scheme + www) + ActualHost + (lang + kind + "/" + id + suffix);
    assert s[w..h] == ActualHost;
    assert s[h..h + |lang|] == lang;
  }

  lemma ActualTailPieces(scheme: string, www: string, lang: string, kind: string, id: string, suffix: string)
    requires |suffix| == 0 || !IsDigit(suffix[0])
    ensures var s := ActualLink(scheme, www, lang, kind, id) + suffix;
      var k := |scheme| + |www| + |ActualHost| + |lang|;
      var t := k + |kind|;
      var e := t + 1 + |id|;
      && e <= |s| && s[k..t] == kind && s[t] == '/' && s[t + 1..e] == id && (e == |s| || !IsDigit(s[e]))
  {
    var s := ActualLink(scheme, www, lang, kind, id) + suffix;
    var k := |scheme| + |www| + |ActualHost| + |lang|;
    var t := k + |kind|;
    var e := t + 1 + |id|;
    assert s == (scheme + www + ActualHost + lang) + kind + ("/" + id + suffix);
    assert s[k..t] == kind;
    assert s[t] == '/';
    assert s[t + 1..e] == id;
    if e < |s| {
      assert s[e] == suffix[0];
    }
  }

  /** After a written-out scheme, the `www.` choice and the host path give the expected match. */
  lemma WwwRestFromPieces(s: string, q: nat, www: string, lang: string, kind: string, id: string)
    requires (www == "" || www == Www) && ValidLang(lang)
    requires |kind| > 0 && AllLetters(kind) && |id| > 0 && AllDigits(id)
    requires q + |www| <= |s| && s[q..q + |www|] == www
    requires PathAt(s, q + |www|, lang, kind, id)
    ensures WwwRest(s, 0, q)
         == Some(ActualMatch(0, q + |www| + |ActualHost| + |lang| + |kind| + 1 + |id|, s[..q], www, lang, kind, id))
    ensures s[q] != 'h'
  {
    var w := q + |www|;
    HostRestExact(s, q, w, lang, kind, id);
    assert s[w] == 'd' by {
      assert s[w..w + |ActualHost|][0] == 'd';
    }
    WwwChoice(s, q, www);
    if www == Www {
      assert s[q..w][0] == 'w';
    }
  }

  /** A well-formed actual link written out at the start of `s` is what `ActualAt` finds there. */
  lemma ActualAtFromPieces(s: string, scheme: string, www: string, lang: string, kind: string, id: string)
    requires ValidScheme(scheme) && (www == "" || www == Www) && ValidLang(lang)
    requires |kind| > 0 && AllLetters(kind) && |id| > 0 && AllDigits(id)
    requires |scheme| + |www| <= |s| && s[..|scheme|] == scheme && s[|scheme|..|scheme| + |www|] == www
    requires PathAt(s, |scheme| + |www|, lang, kind, id)
    ensures ActualAt(s, 0)
         == Some(ActualMatch(0, |scheme| + |www| + |ActualHost| + |lang| + |kind| + 1 + |id|, scheme, www, lang, kind, id))
  {
    var q := |scheme|;
    var m := ActualMatch(0, q + |www| + |ActualHost| + |lang| + |kind| + 1 + |id|, scheme, www, lang, kind, id);
    WwwRestFromPieces(s, q, www, lang, kind, id);
    ActualSchemeChoice(s, scheme, m);
  }

  lemma ActualRoundTrip(scheme: string, www: string, lang: string, kind: string, id: string, suffix: string)
    requires ValidScheme(scheme) && (www == "" || www == Www) && ValidLang(lang)
    requires |kind| > 0 && AllLetters(kind) && |id| > 0 && AllDigits(id)
    requires |suffix| == 0 || !IsDigit(suffix[0])
    ensures var link := ActualLink(scheme, www, lang, kind, id);
      FindActual(link + suffix) == Some(ActualMatch(0, |link|, scheme, www, lang, kind, id))
  {
    var link := ActualLink(scheme, www, lang, kind, id);
    var s := link + suffix;
    ActualPieces(scheme, www, lang, kind, id, suffix);
    ActualAtFromPieces(s, scheme, www, lang, kind, id);
    assert |link| == |scheme| + |www| + |ActualHost| + |lang| + |kind| + 1 + |id|;
    FindActualAtStart(s);
  }

  /** A match at the very start is the leftmost one. */
  lemma FindActualAtStart(s: string)
    requires ActualAt(s, 0).Some?
    ensures FindActual(s) == ActualAt(s, 0)
  {
  }

  // ---------------------------------------------------------------------------
  // Which links the two copies claim

  /** A share match spells the share host, so a link without a 'g' has none. */
  lemma ShareNeedsG(s: string)
    requires FindShare(s).Some?
    ensures exists k :: 0 <= k < |s| && s[k] == 'g'
  {
    var m := FindShare(s).value;
    var k := m.start + |m.scheme| + 9;
    assert s[m.start..m.end][|m.scheme| + 9] == ShareHost[9];
  }

  /** No character of `s` is `c`. */
  predicate Lacks(s: string, c: char) {
    forall k :: 0 <= k < |s| ==> s[k] != c
  }

  lemma WebLinkLacksG()
    ensures Lacks("https://www.deezer.com/en/track/606334862", 'g')
  {
  }

  /** The canonical web link `https://www.deezer.com/en/track/606334862` matches the
      actual pattern with its parts as captures, and does not match the share pattern. */
  lemma WebLinkOnlyActual()
    ensures var link := "https://www.deezer.com/en/track/606334862";
      && FindActual(link) == Some(ActualMatch(0, |link|, "https://", Www, "en/", "track", "606334862"))
      && FindShare(link).None?
  {
    var link := "https://www.deezer.com/en/track/606334862";
    assert FindActual(link) == Some(ActualMatch(0, |link|, "https://", Www, "en/", "track", "606334862")) by {
      WebLinkParts();
      ActualRoundTrip("https://", Www, "en/", "track", "606334862", "");
    }
    WebLinkLacksG();
    if FindShare(link).Some? {
      ShareNeedsG(link);
      assert false;
    }
  }

  lemma WebLinkParts()
    ensures ValidLang("en/") && AllLetters("track") && AllDigits("606334862")
    ensures ActualLink("https://", Www, "en/", "track", "606334862") + ""
         == "https://www.deezer.com/en/track/606334862"
  {
    assert "en/"[..2] == "en";
    WebLinkSpelled();
  }

  lemma WebLinkSpelled()
    ensures ActualLink("https://", Www, "en/", "track", "606334862") + ""
         == "https://www.deezer.com/en/track/606334862"
  {
  }
}

=== FILE: documents.dfy ===
/** The document store the repositories and migrations work on: collections of
    BSON documents, selection by an equality filter, and the failures of the
    database driver. */
module Documents {
  import opened Wrappers

  /** A BSON value, as far as the model needs one: a string, an integer, or
      anything else (named by its kind). */
  datatype Field = Str(s: string) | Int(i: int) | Other(kind: string)

  type Doc = map<string, Field>

  /** A database: its collections by name. A collection never written is empty. */
  type Db = map<string, seq<Doc>>

  function Coll(db: Db, name: string): (docs: seq<Doc>)
    ensures name in db ==> docs == db[name]
    ensures name !in db ==> docs == []
  {
    if name in db then db[name] else []
  }

  /** The filter `bson.D{{key, value}}`: the document has that field with that value. */
  predicate Matches(d: Doc, key: string, value: Field) {
    key in d && d[key] == value
  }

  /** `Find` with an equality filter: the matching documents in collection order. */
  function Select(docs: seq<Doc>, key: string, value: Field): (sel: seq<Doc>)
    ensures |sel| <= |docs|
    ensures forall d :: d in sel ==> d in docs && Matches(d, key, value)
    ensures forall d :: d in docs && Matches(d, key, value) ==> d in sel
  {
    if |docs| == 0 then []
    else if Matches(docs[0], key, value) then [docs[0]] + Select(docs[1..], key, value)
    else Select(docs[1..], key, value)
  }

  /** Selecting from two runs of documents selects from each in turn, so the
      selection keeps the collection's order. */
  lemma {:induction false} SelectAppend(a: seq<Doc>, b: seq<Doc>, key: string, value: Field)
    ensures Select(a + b, key, value) == Select(a, key, value) + Select(b, key, value)
  {
    if |a| > 0 {
      assert (a + b)[1..] == a[1..] + b;
      SelectAppend(a[1..], b, key, value);
    } else {
      assert a + b == b;
    }
  }

  /** Selecting from one document. */
  lemma SelectOne(d: Doc, key: string, value: Field)
    ensures Select([d], key, value) == if Matches(d, key, value) then [d] else []
  {
    assert [d][1..] == [];
  }

  /** Selecting from three documents by a field each of them has. */
  lemma SelectThree(a: Doc, b: Doc, c: Doc, key: string, value: Field)
    requires key in a && key in b && key in c
    ensures Select([a, b, c], key, value)
         == (if a[key] == value then [a] else []) + (if b[key] == value then [b] else [])
            + (if c[key] == value then [c] else [])
  {
    assert [a, b, c] == [a] + ([b] + [c]);
    SelectAppend([a], [b] + [c], key, value);
    SelectAppend([b], [c], key, value);
    SelectOne(a, key, value);
    SelectOne(b, key, value);
    SelectOne(c, key, value);
  }

  /** `FindOne` with an equality filter: the first matching document, or none
      (`mongo.ErrNoDocuments`). */
  function FindOne(docs: seq<Doc>, key: string, value: Field): (r: Option<Doc>)
    ensures r.None? <==> forall i :: 0 <= i < |docs| ==> !Matches(docs[i], key, value)
    ensures r.Some? ==> exists i :: && 0 <= i < |docs| && docs[i] == r.value && Matches(docs[i], key, value)
                                    && forall j :: 0 <= j < i ==> !Matches(docs[j], key, value)
  {
    if |docs| == 0 then None
    else if Matches(docs[0], key, value) then Some(docs[0])
    else
      var r := FindOne(docs[1..], key, value);
      assert forall i :: 0 < i < |docs| ==> docs[i] == docs[1..][i - 1];
      r
  }

  /** `FindOne` is the head of what `Find` would return. */
  lemma {:induction false} FindOneIsFirstSelected(docs: seq<Doc>, key: string, value: Field)
    ensures FindOne(docs, key, value) == if |Select(docs, key, value)| == 0 then None else Some(Select(docs, key, value)[0])
  {
    if |docs| > 0 && !Matches(docs[0], key, value) {
      FindOneIsFirstSelected(docs[1..], key, value);
    }
  }

  /** `CountDocuments` with an equality filter. */
  function Count(docs: seq<Doc>, key: string, value: Field): (n: nat)
    ensures n > 0 <==> exists i :: 0 <= i < |docs| && Matches(docs[i], key, value)
  {
    var sel := Select(docs, key, value);
    if |sel| > 0 then
      assert sel[0] in sel;
      |sel|
    else
      assert forall i :: 0 <= i < |docs| ==> docs[i] in docs;
      0
  }

  /** `InsertMany`/`InsertOne` without a failure: the documents go to the end of
      the collection. */
  function Insert(db: Db, name: string, docs: seq<Doc>): (r: Db)
    ensures Coll(r, name) == Coll(db, name) + docs
    ensures forall other :: other != name ==> Coll(r, other) == Coll(db, other)
  {
    db[name := Coll(db, name) + docs]
  }

  /** The failures of the database driver, by operation and collection: `Some`
      carries the error a call on that collection returns. */
  datatype Driver = Driver(
    find: string -> Option<string>,
    insert: string -> Option<string>,
    update: string -> Option<string>,
    count: string -> Option<string>)
}

=== FILE: handlers.dfy ===
/** The API handlers' response body `Result` (a type tag and one value per
    streaming service), the two handlers that fill it from a list of entities,
    and the track-by-ISRC handler that tops the stored tracks up from the
    services. */
module Handlers {
  import opened Wrappers
  import opened Catalog
  import opened Documents
  import MongoRepository
  import Migrations
  import SpotifyAdapter
  import AppleMusic
  import Deezer

  // ---- result.go -------------------------------------------------------------

  /** The handlers' `Result`. The values are the `interface{}`s stored under each service key;
      a nil `Services` map (the zero value of the struct) is `None`. */
  datatype ResultBody = ResultBody(typ: Type, services: Option<map<string, Value>>)

  /** `NewResult`: the given type and an empty, allocated map. */
  function NewResult(typ: Type): (r: ResultBody)
    ensures r.typ == typ && r.services.Some? && |r.services.value| == 0
  {
    ResultBody(typ, Some(map[]))
  }

  /** The values that implement `model.HasStreamingService`: the four entities. */
  predicate HasSource(v: Value) {
    v.ArtistValue? || v.AlbumValue? || v.TrackValue? || v.PlaylistValue?
  }

  /** `GetSource`. */
  function Source(v: Value): string
    requires HasSource(v)
  {
    match v
    case ArtistValue(a) => a.source
    case AlbumValue(a) => a.source
    case TrackValue(t) => t.source
    case PlaylistValue(p) => p.source
  }

  /** `Add`: stores `v` under its source. Calling `GetSource` on a nil value and
      assigning into a nil map both panic. */
  function Add(r: ResultBody, v: Value): (e: Exec<ResultBody>)
    ensures e.Done? <==> HasSource(v) && r.services.Some?
    ensures e.Done? ==> e.value.typ == r.typ && e.value.services.Some?
    ensures e.Done? ==> Source(v) in e.value.services.value && e.value.services.value[Source(v)] == v
    ensures e.Done? ==> forall k :: k != Source(v) ==>
                          && (k in e.value.services.value <==> k in r.services.value)
                          && (k in r.services.value ==> e.value.services.value[k] == r.services.value[k])
  {
    if !HasSource(v) then Panic("invalid memory address or nil pointer dereference")
    else match r.services
      case None => Panic("assignment to entry in nil map")
      case Some(m) => Done(ResultBody(r.typ, Some(m[Source(v) := v])))
  }

  /** `AddAll`: `Add` on each value in order, stopping at the first panic. */
  function AddAll(r: ResultBody, vs: seq<Value>): (e: Exec<ResultBody>)
    ensures e.Done? ==> e.value.typ == r.typ && (e.value.services.Some? || |vs| == 0)
    decreases |vs|
  {
    if |vs| == 0 then Done(r)
    else
      match Add(r, vs[0])
      case Panic(why) => Panic(why)
      case Done(r1) => AddAll(r1, vs[1..])
  }

  /** `AddAll` panics exactly when there is something to add and either the map is
      nil or one of the values has no source. */
  lemma {:induction false} AddAllPanics(r: ResultBody, vs: seq<Value>)
    ensures AddAll(r, vs).Panic? <==>
              |vs| > 0 && (r.services.None? || exists i :: 0 <= i < |vs| && !HasSource(vs[i]))
    decreases |vs|
  {
    if |vs| > 0 && HasSource(vs[0]) && r.services.Some? {
      AddAllPanics(Add(r, vs[0]).value, vs[1..]);
      if exists i :: 0 <= i < |vs| && !HasSource(vs[i]) {
        var i :| 0 <= i < |vs| && !HasSource(vs[i]);
        assert vs[1..][i - 1] == vs[i];
      }
    }
  }

  /** `vs[i]` is the last value in `vs` with its source. */
  predicate LastFor(vs: seq<Value>, i: int)
    requires 0 <= i < |vs| && forall j :: 0 <= j < |vs| ==> HasSource(vs[j])
  {
    forall j :: i < j < |vs| ==> Source(vs[j]) != Source(vs[i])
  }

  /** On an allocated map, `AddAll` gives every source the LAST value with that
      source, keeps the entries of sources not in `vs`, and adds nothing else. */
  lemma {:induction false} AddAllLastWins(r: ResultBody, vs: seq<Value>)
    requires r.services.Some? && forall i :: 0 <= i < |vs| ==> HasSource(vs[i])
    ensures AddAll(r, vs).Done?
    ensures var m0, m := r.services.value, AddAll(r, vs).value.services.value;
      && (forall k :: k in m <==> k in m0 || exists i :: 0 <= i < |vs| && Source(vs[i]) == k)
      && (forall i :: 0 <= i < |vs| && LastFor(vs, i) ==> m[Source(vs[i])] == vs[i])
      && (forall k :: k in m0 && (forall i :: 0 <= i < |vs| ==> Source(vs[i]) != k) ==> m[k] == m0[k])
      && (forall k :: k in m ==> m[k] in vs || (k in m0 && m[k] == m0[k]))
    decreases |vs|
  {
    if |vs| > 0 {
      var r1 := Add(r, vs[0]).value;
      var tail := vs[1..];
      AddAllLastWins(r1, tail);
      var m0, m1, m := r.services.value, r1.services.value, AddAll(r, vs).value.services.value;
      assert AddAll(r, vs) == AddAll(r1, tail);
      assert forall j :: 0 <= j < |tail| ==> tail[j] == vs[j + 1];
      forall k | k in m
        ensures k in m0 || exists i :: 0 <= i < |vs| && Source(vs[i]) == k
      {
        if k !in m0 && k != Source(vs[0]) {
          var j :| 0 <= j < |tail| && Source(tail[j]) == k;
          assert Source(vs[j + 1]) == k;
        }
      }
      forall i | 0 <= i < |vs| && LastFor(vs, i)
        ensures m[Source(vs[i])] == vs[i]
      {
        if i > 0 {
          assert tail[i - 1] == vs[i];
          assert LastFor(tail, i - 1);
        }
      }
      forall k | k in m
        ensures m[k] in vs || (k in m0 && m[k] == m0[k])
      {
        if m[k] !in tail {
          assert k in m1 && m[k] == m1[k];
        }
      }
    }
  }

  /** `IsMissingResults`: a nil value is stored. A nil map holds nothing. */
  predicate Missing(r: ResultBody) {
    r.services.Some? && exists k :: k in r.services.value && r.services.value[k] == NilValue
  }

  /** `HasResults`: a non-nil value is stored. */
  predicate AnyResult(r: ResultBody) {
    r.services.Some? && exists k :: k in r.services.value && r.services.value[k] != NilValue
  }

  /** The keys of the map in its iteration order `order`. */
  ghost predicate IterationOrder(r: ResultBody, order: seq<string>) {
    match r.services
    case None => order == []
    case Some(m) => forall k :: k in m <==> k in order
  }

  /** `IsMissingResults`, as its loop runs in the map's iteration order. */
  method IsMissingResults(r: ResultBody, order: seq<string>) returns (b: bool)
    requires IterationOrder(r, order)
    ensures b <==> Missing(r)
    ensures r.services.None? || |r.services.value| == 0 ==> !b
  {
    var i := 0;
    while i < |order|
      invariant 0 <= i <= |order|
      invariant forall j :: 0 <= j < i ==> r.services.value[order[j]] != NilValue
    {
      if r.services.value[order[i]] == NilValue {
        return true;
      }
      i := i + 1;
    }
    return false;
  }

  /** `HasResultFor`: the key has an entry, whatever its value. */
  method HasResultFor(r: ResultBody, order: seq<string>, key: string) returns (b: bool)
    requires IterationOrder(r, order)
    ensures b <==> r.services.Some? && key in r.services.value
  {
    var i := 0;
    while i < |order|
      invariant 0 <= i <= |order|
      invariant key !in order[..i]
    {
      if order[i] == key {
        return true;
      }
      i := i + 1;
    }
    assert order[..i] == order;
    return false;
  }

  /** `HasResults`, as its loop runs in the map's iteration order. */
  method HasResults(r: ResultBody, order: seq<string>) returns (b: bool)
    requires IterationOrder(r, order)
    ensures b <==> AnyResult(r)
    ensures r.services.None? || |r.services.value| == 0 ==> !b
  {
    var i := 0;
    while i < |order|
      invariant 0 <= i <= |order|
      invariant forall j :: 0 <= j < i ==> r.services.value[order[j]] == NilValue
    {
      if r.services.value[order[i]] != NilValue {
        return true;
      }
      i := i + 1;
    }
    return false;
  }

  /** A result filled by `AddAll` from `NewResult` misses nothing, has a result as
      soon as one value was added, and has one for every added source. */
  lemma FilledResultComplete(typ: Type, vs: seq<Value>)
    requires forall i :: 0 <= i < |vs| ==> HasSource(vs[i])
    ensures AddAll(NewResult(typ), vs).Done?
    ensures var res := AddAll(NewResult(typ), vs).value;
      && res.typ == typ && !Missing(res) && (AnyResult(res) <==> |vs| > 0)
      && forall i :: 0 <= i < |vs| ==> Source(vs[i]) in res.services.value
  {
    var r := NewResult(typ);
    AddAllLastWins(r, vs);
    var m := AddAll(r, vs).value.services.value;
    if |vs| > 0 {
      assert Source(vs[0]) in m;
      assert m[Source(vs[0])] in vs;
    }
  }

  // ---- the handlers that answer with a ResultBody --------------------------------

  /** What a handler writes: an error, a not-found message, or `200` with a result. */
  datatype Response = ErrorResponse(message: string) | NotFoundResponse(message: string)
                    | OkResponse(result: ResultBody)

  function ArtistValues(artists: seq<Artist>): (vs: seq<Value>)
    ensures |vs| == |artists| && forall i :: 0 <= i < |vs| ==> vs[i] == ArtistValue(artists[i])
  {
    seq(|artists|, i requires 0 <= i < |artists| => ArtistValue(artists[i]))
  }

  function TrackValues(tracks: seq<Track>): (vs: seq<Value>)
    ensures |vs| == |tracks| && forall i :: 0 <= i < |vs| ==> vs[i] == TrackValue(tracks[i])
  {
    seq(|tracks|, i requires 0 <= i < |tracks| => TrackValue(tracks[i]))
  }

  /** The tail of `HandleGetArtistById` as written: the result is the zero `Result`
      (its type, the empty string, is stood for by `UnknownType`), whose map is
      nil, so `AddAll` panics on the first artist. */
  function ArtistResponseAsWritten(id: string, artists: seq<Artist>): (e: Exec<Response>)
    ensures |artists| == 0 ==> e == Done(NotFoundResponse("could not find any artists with ID " + id))
  {
    if |artists| == 0 then Done(NotFoundResponse("could not find any artists with ID " + id))
    else
      match AddAll(ResultBody(UnknownType, None), ArtistValues(artists))
      case Panic(why) => Panic(why)
      case Done(res) => Done(OkResponse(res))
  }

  /** Every artist found makes the handler as written panic. */
  lemma ArtistResponsePanics(id: string, artists: seq<Artist>)
    requires |artists| > 0
    ensures ArtistResponseAsWritten(id, artists) == Panic("assignment to entry in nil map")
  {
  }

  /** The concrete case: one artist found. */
  lemma ArtistResponseOneArtistPanics()
    ensures ArtistResponseAsWritten("1", [Artist("Daft Punk", "", DeezerKey, DefaultMarket, "")]).Panic?
  {
    ArtistResponsePanics("1", [Artist("Daft Punk", "", DeezerKey, DefaultMarket, "")]);
  }

  /** The tail of `HandleGetArtistById` built with `NewResult(model.ArtistType)`, as
      the album and track handlers build theirs: an artist result holding every
      artist's service, never missing one. */
  function ArtistResponse(id: string, artists: seq<Artist>): (resp: Response)
    ensures |artists| == 0 <==> resp.NotFoundResponse?
    ensures resp.OkResponse? ==> && resp.result.typ == ArtistType && !Missing(resp.result)
                                  && AnyResult(resp.result)
                                  && forall i :: 0 <= i < |artists| ==> artists[i].source in resp.result.services.value
  {
    if |artists| == 0 then NotFoundResponse("could not find any artists with ID " + id)
    else
      var vs := ArtistValues(artists);
      FilledResultComplete(ArtistType, vs);
      assert forall i :: 0 <= i < |artists| ==> Source(vs[i]) == artists[i].source;
      OkResponse(AddAll(NewResult(ArtistType), vs).value)
  }

  // ---- track.go --------------------------------------------------------------

  /** A streaming service as the track handler uses it: its key and its
      `GetTrackByIsrc`, which can panic (Deezer's does on a nil lookup). */
  datatype TrackService = TrackService(key: string, getTrackByIsrc: string -> Exec<Search<Track>>)

  /** Some already known track comes from the service with key `key`. */
  predicate Known(known: seq<Track>, key: string) {
    exists t :: t in known && t.source == key
  }

  /** The tracks the services not yet known report as found, in service order,
      when none of them fails or panics. */
  function Gathered(isrc: string, known: seq<Track>, svcs: seq<TrackService>): (ts: seq<Track>)
    ensures |ts| <= |svcs|
    ensures forall t :: t in ts ==> exists i :: && 0 <= i < |svcs| && !Known(known, svcs[i].key)
                                                && svcs[i].getTrackByIsrc(isrc) == Done(Found(t))
  {
    if |svcs| == 0 then []
    else
      var rest := Gathered(isrc, known, svcs[..|svcs| - 1]);
      var last := svcs[|svcs| - 1];
      var reply := last.getTrackByIsrc(isrc);
      if !Known(known, last.key) && reply.Done? && reply.value.Found? then rest + [reply.value.value]
      else rest
  }

  /** The service at `i` is asked and answers with an error. */
  predicate FailsAt(isrc: string, known: seq<Track>, svcs: seq<TrackService>, i: int)
    requires 0 <= i < |svcs|
  {
    && !Known(known, svcs[i].key) && svcs[i].getTrackByIsrc(isrc).Done?
    && (svcs[i].getTrackByIsrc(isrc).value.Failed? || svcs[i].getTrackByIsrc(isrc).value.FoundFailed?)
  }

  /** The service at `i` is asked and panics. */
  predicate PanicsAt(isrc: string, known: seq<Track>, svcs: seq<TrackService>, i: int)
    requires 0 <= i < |svcs|
  {
    !Known(known, svcs[i].key) && svcs[i].getTrackByIsrc(isrc).Panic?
  }

  /** The service at `i` is asked and ends the walk. */
  predicate StopsAt(isrc: string, known: seq<Track>, svcs: seq<TrackService>, i: int)
    requires 0 <= i < |svcs|
  {
    FailsAt(isrc, known, svcs, i) || PanicsAt(isrc, known, svcs, i)
  }

  /** The service at `i` is the first to end the walk. */
  predicate FirstStop(isrc: string, known: seq<Track>, svcs: seq<TrackService>, i: int) {
    && 0 <= i < |svcs| && StopsAt(isrc, known, svcs, i)
    && forall j :: 0 <= j < i ==> !StopsAt(isrc, known, svcs, j)
  }

  /** How the walk ends at a service that ends it: with its panic, or with its
      error and the tracks found before it. */
  function Halt(isrc: string, known: seq<Track>, svcs: seq<TrackService>, i: int): Exec<(seq<Track>, Option<string>)>
    requires 0 <= i < |svcs| && StopsAt(isrc, known, svcs, i)
  {
    match svcs[i].getTrackByIsrc(isrc)
    case Panic(why) => Panic(why)
    case Done(reply) => Done((Gathered(isrc, known, svcs[..i]), Some(reply.error)))
  }

  /** The inner loop of `getNewTrackByIsrc`: some known track has the key as source. */
  method TrackIsKnown(known: seq<Track>, key: string) returns (b: bool)
    ensures b <==> Known(known, key)
  {
    b := false;
    var n := 0;
    while n < |known|
      invariant 0 <= n <= |known|
      invariant b <==> exists m :: 0 <= m < n && known[m].source == key
    {
      if known[n].source == key {
        b := true;
      }
      n := n + 1;
    }
  }

  /** What `getNewTrackByIsrc` returns: walking the services in order and
      skipping those a known track comes from, the tracks found so far and the
      error of the first service that fails, which ends the walk. A service that
      panics ends it with the panic. */
  function NewTracks(isrc: string, known: seq<Track>, svcs: seq<TrackService>): (r: Exec<(seq<Track>, Option<string>)>)
    ensures r.Done? ==> |r.value.0| <= |svcs|
  {
    if |svcs| == 0 then Done(([], None))
    else
      var prev := NewTracks(isrc, known, svcs[..|svcs| - 1]);
      var last := svcs[|svcs| - 1];
      if prev.Panic? || prev.value.1.Some? || Known(known, last.key) then prev
      else
        match last.getTrackByIsrc(isrc)
        case Panic(why) => Panic(why)
        case Done(Found(t)) => Done((prev.value.0 + [t], None))
        case Done(NotFound) => prev
        case Done(Failed(e)) => Done((prev.value.0, Some(e)))
        case Done(FoundFailed(e)) => Done((prev.value.0, Some(e)))
  }

  /** The walk completes exactly when no service not yet known fails or panics,
      and then gathers the tracks of all of them; otherwise it ends at the first
      one that does, with its panic or its error. */
  lemma NewTracksMeaning(isrc: string, known: seq<Track>, svcs: seq<TrackService>)
    ensures NewTracks(isrc, known, svcs) == Done((Gathered(isrc, known, svcs), None))
        <==> forall i :: 0 <= i < |svcs| ==> !StopsAt(isrc, known, svcs, i)
    ensures forall i :: FirstStop(isrc, known, svcs, i) ==> NewTracks(isrc, known, svcs) == Halt(isrc, known, svcs, i)
  {
    if forall i :: 0 <= i < |svcs| ==> !StopsAt(isrc, known, svcs, i) {
      NewTracksComplete(isrc, known, svcs);
    } else {
      var first := NewTracksHalts(isrc, known, svcs);
      forall i | FirstStop(isrc, known, svcs, i)
        ensures NewTracks(isrc, known, svcs) == Halt(isrc, known, svcs, i)
      {
        assert FirstStop(isrc, known, svcs, first);
      }
    }
  }

  /** Dropping the last service keeps which of the others end the walk. */
  lemma PrefixStops(isrc: string, known: seq<Track>, svcs: seq<TrackService>, n: nat)
    requires n <= |svcs|
    ensures forall k :: 0 <= k < n ==> (StopsAt(isrc, known, svcs[..n], k) <==> StopsAt(isrc, known, svcs, k))
    ensures forall k :: 0 <= k < n ==> svcs[..n][k] == svcs[k]
  {
  }

  /** When no service not yet known fails or panics, the walk gathers them all. */
  lemma {:induction false} NewTracksComplete(isrc: string, known: seq<Track>, svcs: seq<TrackService>)
    requires forall k :: 0 <= k < |svcs| ==> !StopsAt(isrc, known, svcs, k)
    ensures NewTracks(isrc, known, svcs) == Done((Gathered(isrc, known, svcs), None))
    decreases |svcs|
  {
    if |svcs| > 0 {
      var p := svcs[..|svcs| - 1];
      PrefixStops(isrc, known, svcs, |svcs| - 1);
      NewTracksComplete(isrc, known, p);
      assert !StopsAt(isrc, known, svcs, |svcs| - 1);
    }
  }

  /** When some service not yet known fails or panics, the walk ends at the
      first of them. */
  lemma {:induction false} NewTracksHalts(isrc: string, known: seq<Track>, svcs: seq<TrackService>) returns (i: nat)
    requires exists k :: 0 <= k < |svcs| && StopsAt(isrc, known, svcs, k)
    ensures FirstStop(isrc, known, svcs, i) && NewTracks(isrc, known, svcs) == Halt(isrc, known, svcs, i)
    decreases |svcs|
  {
    var p := svcs[..|svcs| - 1];
    PrefixStops(isrc, known, svcs, |svcs| - 1);
    if exists k :: 0 <= k < |p| && StopsAt(isrc, known, p, k) {
      i := NewTracksHalts(isrc, known, p);
      assert p[..i] == svcs[..i];
      assert Halt(isrc, known, p, i) == Halt(isrc, known, svcs, i);
    } else {
      i := |svcs| - 1;
      NewTracksComplete(isrc, known, p);
      assert svcs[..i] == p;
    }
  }

  /** Once the walk has ended, the services after it change nothing. */
  lemma {:induction false} NewTracksStops(isrc: string, known: seq<Track>, svcs: seq<TrackService>, k: nat)
    requires k <= |svcs|
    requires NewTracks(isrc, known, svcs[..k]).Panic? || NewTracks(isrc, known, svcs[..k]).value.1.Some?
    ensures NewTracks(isrc, known, svcs) == NewTracks(isrc, known, svcs[..k])
    decreases |svcs| - k
  {
    if k == |svcs| {
      assert svcs[..k] == svcs;
    } else {
      var p := svcs[..|svcs| - 1];
      assert p[..k] == svcs[..k];
      NewTracksStops(isrc, known, p, k);
    }
  }

  /** `getNewTrackByIsrc`. `asked` lists the keys of the services it queried. */
  method GetNewTrackByIsrc(isrc: string, known: seq<Track>, svcs: seq<TrackService>)
    returns (r: Exec<(seq<Track>, Option<string>)>, asked: seq<string>)
    ensures forall k :: k in asked ==> !Known(known, k)
    ensures r == NewTracks(isrc, known, svcs)
  {
    var tracks: seq<Track> := [];
    asked := [];
    var i := 0;
    while i < |svcs|
      invariant 0 <= i <= |svcs|
      invariant forall k :: k in asked ==> !Known(known, k)
      invariant NewTracks(isrc, known, svcs[..i]) == Done((tracks, None))
    {
      var svc := svcs[i];
      assert svcs[..i + 1][..i] == svcs[..i];
      var trackIsKnown := TrackIsKnown(known, svc.key);
      if !trackIsKnown {
        asked := asked + [svc.key];
        var reply := svc.getTrackByIsrc(isrc);
        if reply.Panic? {
          NewTracksStops(isrc, known, svcs, i + 1);
          return Panic(reply.reason), asked;
        }
        if reply.value.Failed? || reply.value.FoundFailed? {
          NewTracksStops(isrc, known, svcs, i + 1);
          return Done((tracks, Some(reply.value.error))), asked;
        }
        if reply.value.Found? {
          tracks := tracks + [reply.value.value];
        }
      }
      i := i + 1;
    }
    assert svcs[..i] == svcs;
    r := Done((tracks, None));
  }

  /** The gathered tracks come from distinct services none of which was known. */
  lemma {:induction false} GatheredSkipsKnown(isrc: string, known: seq<Track>, svcs: seq<TrackService>)
    requires forall i, j :: 0 <= i < j < |svcs| ==> svcs[i].key != svcs[j].key
    requires forall i :: 0 <= i < |svcs| && svcs[i].getTrackByIsrc(isrc).Done? && svcs[i].getTrackByIsrc(isrc).value.Found? ==>
               svcs[i].getTrackByIsrc(isrc).value.value.source == svcs[i].key
    ensures forall t :: t in Gathered(isrc, known, svcs) ==> !Known(known, t.source)
  {
    forall t | t in Gathered(isrc, known, svcs)
      ensures !Known(known, t.source)
    {
      var i :| 0 <= i < |svcs| && !Known(known, svcs[i].key) && svcs[i].getTrackByIsrc(isrc) == Done(Found(t));
    }
  }

  /** The streaming services the track handler asks, each with its own
      `GetTrackByIsrc` as written: Apple Music, Deezer when it is enabled, and
      Spotify. Only Deezer's can panic. */
  function AdapterServices(search: SpotifyAdapter.Searcher<SpotifyAdapter.FullTrack>, am: AppleMusic.Client,
                           dz: Option<Deezer.Client>): (svcs: seq<TrackService>)
    ensures |svcs| == if dz.Some? then 3 else 2
    ensures forall i, j :: 0 <= i < j < |svcs| ==> svcs[i].key != svcs[j].key
    ensures forall i, isrc :: 0 <= i < |svcs| && svcs[i].getTrackByIsrc(isrc).Panic? ==> svcs[i].key == DeezerKey
  {
    [TrackService(AppleMusicKey, isrc => Done(AppleMusic.GetTrackByIsrc(isrc, am)))]
    + (if dz.Some? then [TrackService(DeezerKey, isrc => Deezer.GetTrackByIsrc(isrc, dz.value))] else [])
    + [TrackService(SpotifyKey, isrc => Done(SpotifyAdapter.GetTrackByIsrc(isrc, search)))]
  }

  /** Over the adapters, the handler never adds a track from a service a stored
      track already comes from: each adapter stamps its own key. */
  lemma AdaptersGatherOnlyUnknown(isrc: string, known: seq<Track>,
                                  search: SpotifyAdapter.Searcher<SpotifyAdapter.FullTrack>,
                                  am: AppleMusic.Client, dz: Option<Deezer.Client>)
    ensures forall t :: t in Gathered(isrc, known, AdapterServices(search, am, dz)) ==> !Known(known, t.source)
  {
    var svcs := AdapterServices(search, am, dz);
    forall i | 0 <= i < |svcs| && svcs[i].getTrackByIsrc(isrc).Done? && svcs[i].getTrackByIsrc(isrc).value.Found?
      ensures svcs[i].getTrackByIsrc(isrc).value.value.source == svcs[i].key
    {
      if i == 0 {
        assert svcs[i].getTrackByIsrc(isrc) == Done(AppleMusic.GetTrackByIsrc(isrc, am));
      } else if i == |svcs| - 1 {
        assert svcs[i].getTrackByIsrc(isrc) == Done(SpotifyAdapter.GetTrackByIsrc(isrc, search));
      } else {
        assert svcs[i].getTrackByIsrc(isrc) == Deezer.GetTrackByIsrc(isrc, dz.value);
      }
    }
    GatheredSkipsKnown(isrc, known, svcs);
  }

  /** The track store as the handler uses it. A lookup can panic, as the
      repository's do when `Find` fails. */
  datatype TrackRepo = TrackRepo(
    getTracksByIsrc: string -> Exec<Result<seq<Track>>>,
    getTracksByLegacyId: string -> Exec<Result<seq<Track>>>,
    addTracks: seq<Track> -> Result<int>)

  /** The stored tracks for an ISRC: those with the code, then those stored
      under it as a legacy id. The first panic or error ends the lookup. */
  function Stored(isrc: string, repo: TrackRepo): (e: Exec<Result<seq<Track>>>)
    ensures repo.getTracksByIsrc(isrc).Panic? ==> e == repo.getTracksByIsrc(isrc)
    ensures repo.getTracksByIsrc(isrc).Done? && repo.getTracksByIsrc(isrc).value.Err? ==> e == repo.getTracksByIsrc(isrc)
    ensures repo.getTracksByIsrc(isrc).Done? && repo.getTracksByIsrc(isrc).value.Ok? ==>
              && (!(repo.getTracksByLegacyId(isrc).Done? && repo.getTracksByLegacyId(isrc).value.Ok?) ==>
                    e == repo.getTracksByLegacyId(isrc))
              && (repo.getTracksByLegacyId(isrc).Done? && repo.getTracksByLegacyId(isrc).value.Ok? ==>
                    e == Done(Ok(repo.getTracksByIsrc(isrc).value.value + repo.getTracksByLegacyId(isrc).value.value)))
  {
    match repo.getTracksByIsrc(isrc)
    case Panic(why) => Panic(why)
    case Done(Err(e)) => Done(Err(e))
    case Done(Ok(byIsrc)) =>
      match repo.getTracksByLegacyId(isrc)
      case Panic(why) => Panic(why)
      case Done(Err(e)) => Done(Err(e))
      case Done(Ok(legacy)) => Done(Ok(byIsrc + legacy))
  }

  /** The lookup found tracks. */
  predicate StoredOk(isrc: string, repo: TrackRepo) {
    Stored(isrc, repo).Done? && Stored(isrc, repo).value.Ok?
  }

  /** The body of the closure in `HandleGetTrackByIsrc`, as written: the stored
      tracks and, when their number differs from the number of services, the new
      tracks of the services, which are stored even when there are none. A
      service's panic ends the closure. */
  function FindTracks(isrc: string, repo: TrackRepo, svcs: seq<TrackService>): (r: Exec<Result<seq<Track>>>)
    ensures !StoredOk(isrc, repo) ==> r == Stored(isrc, repo)
    ensures StoredOk(isrc, repo) && |Stored(isrc, repo).value.value| == |svcs| ==> r == Stored(isrc, repo)
    ensures StoredOk(isrc, repo) && |Stored(isrc, repo).value.value| != |svcs| ==>
              var known := Stored(isrc, repo).value.value;
              && (forall i :: FirstStop(isrc, known, svcs, i) && PanicsAt(isrc, known, svcs, i) ==>
                    r == Panic(svcs[i].getTrackByIsrc(isrc).reason))
              && (forall i :: FirstStop(isrc, known, svcs, i) && FailsAt(isrc, known, svcs, i) ==>
                    r == Done(Err(svcs[i].getTrackByIsrc(isrc).value.error)))
              && ((forall i :: 0 <= i < |svcs| ==> !StopsAt(isrc, known, svcs, i)) ==>
                    r == Done(if repo.addTracks(Gathered(isrc, known, svcs)).Err?
                              then Err(repo.addTracks(Gathered(isrc, known, svcs)).error)
                              else Ok(known + Gathered(isrc, known, svcs))))
  {
    match Stored(isrc, repo)
    case Panic(why) => Panic(why)
    case Done(Err(e)) => Done(Err(e))
    case Done(Ok(found)) =>
      if |found| == |svcs| then Done(Ok(found))
      else
        NewTracksMeaning(isrc, found, svcs);
        match NewTracks(isrc, found, svcs)
        case Panic(why) => Panic(why)
        case Done((newTracks, err)) =>
          if err.Some? then Done(Err(err.value))
          else
            match repo.addTracks(newTracks)
            case Err(e) => Done(Err(e))
            case Ok(_) => Done(Ok(found + newTracks))
  }

  /** The closure with the store left alone when no service has a new track. */
  function FindTracksFixed(isrc: string, repo: TrackRepo, svcs: seq<TrackService>): (r: Exec<Result<seq<Track>>>)
    ensures !StoredOk(isrc, repo) ==> r == Stored(isrc, repo)
    ensures StoredOk(isrc, repo) && |Stored(isrc, repo).value.value| == |svcs| ==> r == Stored(isrc, repo)
    ensures StoredOk(isrc, repo) && |Stored(isrc, repo).value.value| != |svcs| ==>
              var known := Stored(isrc, repo).value.value;
              && (forall i :: FirstStop(isrc, known, svcs, i) && PanicsAt(isrc, known, svcs, i) ==>
                    r == Panic(svcs[i].getTrackByIsrc(isrc).reason))
              && (forall i :: FirstStop(isrc, known, svcs, i) && FailsAt(isrc, known, svcs, i) ==>
                    r == Done(Err(svcs[i].getTrackByIsrc(isrc).value.error)))
              && ((forall i :: 0 <= i < |svcs| ==> !StopsAt(isrc, known, svcs, i)) && |Gathered(isrc, known, svcs)| == 0 ==>
                    r == Done(Ok(known)))
              && ((forall i :: 0 <= i < |svcs| ==> !StopsAt(isrc, known, svcs, i)) && |Gathered(isrc, known, svcs)| > 0 ==>
                    r == Done(if repo.addTracks(Gathered(isrc, known, svcs)).Err?
                              then Err(repo.addTracks(Gathered(isrc, known, svcs)).error)
                              else Ok(known + Gathered(isrc, known, svcs))))
  {
    match Stored(isrc, repo)
    case Panic(why) => Panic(why)
    case Done(Err(e)) => Done(Err(e))
    case Done(Ok(found)) =>
      if |found| == |svcs| then Done(Ok(found))
      else
        NewTracksMeaning(isrc, found, svcs);
        match NewTracks(isrc, found, svcs)
        case Panic(why) => Panic(why)
        case Done((newTracks, err)) =>
          if err.Some? then Done(Err(err.value))
          else if |newTracks| == 0 then Done(Ok(found))
          else
            match repo.addTracks(newTracks)
            case Err(e) => Done(Err(e))
            case Ok(_) => Done(Ok(found + newTracks))
  }

  /** The two closures differ only where there is nothing new to store and the
      store refuses to store nothing; the corrected one then answers the stored
      tracks. */
  lemma FindTracksFixedDiffers(isrc: string, repo: TrackRepo, svcs: seq<TrackService>)
    ensures FindTracks(isrc, repo, svcs) != FindTracksFixed(isrc, repo, svcs) ==>
              && StoredOk(isrc, repo) && |Stored(isrc, repo).value.value| != |svcs|
              && NewTracks(isrc, Stored(isrc, repo).value.value, svcs) == Done(([], None))
              && repo.addTracks([]).Err?
              && FindTracks(isrc, repo, svcs) == Done(Err(repo.addTracks([]).error))
              && FindTracksFixed(isrc, repo, svcs) == Stored(isrc, repo)
  {
    if StoredOk(isrc, repo) && |Stored(isrc, repo).value.value| != |svcs| {
      var found := Stored(isrc, repo).value.value;
      var walk := NewTracks(isrc, found, svcs);
      if walk.Done? {
        var (newTracks, err) := walk.value;
        assert FindTracks(isrc, repo, svcs) == if err.Some? then Done(Err(err.value))
          else if repo.addTracks(newTracks).Err? then Done(Err(repo.addTracks(newTracks).error)) else Done(Ok(found + newTracks));
        if err.None? && |newTracks| == 0 {
          assert newTracks == [] && found + newTracks == found;
          assert FindTracksFixed(isrc, repo, svcs) == Done(Ok(found));
        }
      }
    }
  }

  /** The handler's repository backed by the document store. */
  function StoreRepo(db: Db, cs: MongoRepository.Codecs, driver: Driver): (repo: TrackRepo)
    ensures repo.addTracks([]) == Err(MongoRepository.EmptySliceError)
    ensures forall isrc :: repo.getTracksByIsrc(isrc).Panic? <==> driver.find(MongoRepository.TracksCollection).Some?
    ensures forall isrc :: MongoRepository.LookupAsWritten(repo.getTracksByIsrc(isrc), db, MongoRepository.TracksCollection,
                                                          MongoRepository.IsrcKey, isrc, cs.track.decode, driver)
    ensures forall id :: MongoRepository.LookupAsWritten(repo.getTracksByLegacyId(id), db, MongoRepository.TracksCollection,
                                                        Migrations.GroupIdKey, id, cs.track.decode, driver)
    ensures forall ts :: |ts| > 0 ==>
              repo.addTracks(ts) == if driver.insert(MongoRepository.TracksCollection).None? then Ok(|ts|)
                                    else Err(driver.insert(MongoRepository.TracksCollection).value)
  {
    TrackRepo(
      isrc => MongoRepository.GetTracksByIsrc(db, isrc, cs, driver),
      id => MongoRepository.GetTracksByLegacyId(db, id, cs, driver),
      ts => match MongoRepository.AddTracks(db, ts, cs, driver)
            case Ok(added) => Ok(added.1)
            case Err(e) => Err(e))
  }

  /** With the store unreachable, the lookup by ISRC panics on the nil cursor, so
      the handler's closure panics instead of answering an error. */
  lemma UnreachableStorePanics(isrc: string, db: Db, cs: MongoRepository.Codecs, driver: Driver, svcs: seq<TrackService>)
    requires driver.find(MongoRepository.TracksCollection).Some?
    ensures FindTracks(isrc, StoreRepo(db, cs, driver), svcs) == Panic(MongoRepository.NilCursorPanic)
    ensures FindTracksFixed(isrc, StoreRepo(db, cs, driver), svcs) == Panic(MongoRepository.NilCursorPanic)
  {
    assert MongoRepository.GetTracksByIsrc(db, isrc, cs, driver).Panic?;
  }

  /** As written, the store's refusal of an empty insert turns every lookup with
      nothing new into an error, whatever is already stored. */
  lemma NothingNewIsAnError(isrc: string, db: Db, cs: MongoRepository.Codecs, driver: Driver, svcs: seq<TrackService>)
    requires StoredOk(isrc, StoreRepo(db, cs, driver))
    requires |Stored(isrc, StoreRepo(db, cs, driver)).value.value| != |svcs|
    requires NewTracks(isrc, Stored(isrc, StoreRepo(db, cs, driver)).value.value, svcs) == Done(([], None))
    ensures FindTracks(isrc, StoreRepo(db, cs, driver), svcs) == Done(Err(MongoRepository.EmptySliceError))
    ensures FindTracksFixed(isrc, StoreRepo(db, cs, driver), svcs) == Stored(isrc, StoreRepo(db, cs, driver))
  {
  }

  /** With Deezer disabled, an ISRC neither Apple Music nor Spotify knows (such
      as "USUM71703861"), and an empty store: the handler as written answers with
      an error where the corrected one answers not found. */
  lemma UnknownIsrcAnswersError(isrc: string, cs: MongoRepository.Codecs,
                                search: SpotifyAdapter.Searcher<SpotifyAdapter.FullTrack>, am: AppleMusic.Client)
    requires am.songsByIsrc(isrc, DefaultMarket) == Ok([])
    requires search(SpotifyAdapter.IsrcQuery(isrc), None) == Ok([])
    ensures var repo := StoreRepo(map[], cs, Driver(_ => None, _ => None, _ => None, _ => None));
            var svcs := AdapterServices(search, am, None);
            && FindTracks(isrc, repo, svcs).Done? && FindTracksFixed(isrc, repo, svcs).Done?
            && TrackResponse(isrc, FindTracks(isrc, repo, svcs).value) == ErrorResponse(MongoRepository.EmptySliceError)
            && TrackResponse(isrc, FindTracksFixed(isrc, repo, svcs).value)
               == NotFoundResponse("could not find any tracks with ISRC code " + isrc)
  {
    var driver := Driver(_ => None, _ => None, _ => None, _ => None);
    var svcs := AdapterServices(search, am, None);
    assert svcs[0].getTrackByIsrc(isrc) == Done(AppleMusic.GetTrackByIsrc(isrc, am));
    assert svcs[1].getTrackByIsrc(isrc) == Done(SpotifyAdapter.GetTrackByIsrc(isrc, search));
    EmptyStoreHoldsNothing(isrc, cs, driver);
    NoneFoundNothingNew(isrc, [], svcs);
    NothingNewIsAnError(isrc, map[], cs, driver, svcs);
  }

  /** With Deezer enabled, the same lookup crashes the handler, as written and
      corrected alike: Deezer's client answers an unknown ISRC with neither a
      track nor an error, and its adapter dereferences the missing track. */
  lemma UnknownIsrcPanicsWithDeezer(isrc: string, cs: MongoRepository.Codecs,
                                    search: SpotifyAdapter.Searcher<SpotifyAdapter.FullTrack>,
                                    am: AppleMusic.Client, dz: Deezer.Client)
    requires am.songsByIsrc(isrc, DefaultMarket) == Ok([])
    requires dz.getTrackByIsrc(isrc) == Ok(None)
    ensures var repo := StoreRepo(map[], cs, Driver(_ => None, _ => None, _ => None, _ => None));
            var svcs := AdapterServices(search, am, Some(dz));
            && FindTracks(isrc, repo, svcs) == Panic(Deezer.GetTrackByIsrc(isrc, dz).reason)
            && FindTracksFixed(isrc, repo, svcs) == Panic(Deezer.GetTrackByIsrc(isrc, dz).reason)
  {
    var driver := Driver(_ => None, _ => None, _ => None, _ => None);
    var svcs := AdapterServices(search, am, Some(dz));
    assert svcs[0].getTrackByIsrc(isrc) == Done(AppleMusic.GetTrackByIsrc(isrc, am));
    assert svcs[1].getTrackByIsrc(isrc) == Deezer.GetTrackByIsrc(isrc, dz);
    assert !Known([], svcs[0].key) && !Known([], svcs[1].key);
    assert !StopsAt(isrc, [], svcs, 0);
    assert FirstStop(isrc, [], svcs, 1) && PanicsAt(isrc, [], svcs, 1);
    EmptyStoreHoldsNothing(isrc, cs, driver);
  }

  /** Services that all answer "not found" add nothing and report no error. */
  lemma {:induction false} NoneFoundNothingNew(isrc: string, known: seq<Track>, svcs: seq<TrackService>)
    requires forall i :: 0 <= i < |svcs| ==> svcs[i].getTrackByIsrc(isrc) == Done(NotFound)
    ensures NewTracks(isrc, known, svcs) == Done(([], None))
    decreases |svcs|
  {
    if |svcs| > 0 {
      var p := svcs[..|svcs| - 1];
      assert forall i :: 0 <= i < |p| ==> p[i] == svcs[i];
      NoneFoundNothingNew(isrc, known, p);
    }
  }

  /** An empty store whose driver does not fail holds no tracks. */
  lemma EmptyStoreHoldsNothing(isrc: string, cs: MongoRepository.Codecs, driver: Driver)
    requires driver.find(MongoRepository.TracksCollection).None?
    ensures Stored(isrc, StoreRepo(map[], cs, driver)) == Done(Ok([]))
  {
    assert Select([], MongoRepository.IsrcKey, Str(isrc)) == [];
    assert Select([], Migrations.GroupIdKey, Str(isrc)) == [];
  }

  /** The response of `HandleGetTrackByIsrc` for the closure's outcome. */
  function TrackResponse(isrc: string, found: Result<seq<Track>>): (resp: Response)
    ensures found.Err? <==> resp.ErrorResponse?
    ensures found.Ok? && |found.value| == 0 <==> resp == NotFoundResponse("could not find any tracks with ISRC code " + isrc)
    ensures resp.OkResponse? ==> && resp.result.typ == TrackType && !Missing(resp.result)
                                  && resp.result.services.Some?
                                  && forall t :: t in found.value ==> t.source in resp.result.services.value
  {
    match found
    case Err(e) => ErrorResponse(e)
    case Ok(tracks) =>
      if |tracks| == 0 then NotFoundResponse("could not find any tracks with ISRC code " + isrc)
      else
        var vs := TrackValues(tracks);
        FilledResultComplete(TrackType, vs);
        assert forall i :: 0 <= i < |tracks| ==> Source(vs[i]) == tracks[i].source;
        OkResponse(AddAll(NewResult(TrackType), vs).value)
  }

  /** In the track response, a service with several tracks shows the last one: a
      new track over a legacy-id one over an ISRC one. */
  lemma TrackResponseLastWins(isrc: string, tracks: seq<Track>, i: int)
    requires 0 <= i < |tracks| && forall j :: i < j < |tracks| ==> tracks[j].source != tracks[i].source
    ensures var resp := TrackResponse(isrc, Ok(tracks));
      resp.OkResponse? && resp.result.services.Some? && resp.result.services.value[tracks[i].source] == TrackValue(tracks[i])
  {
    var vs := TrackValues(tracks);
    AddAllLastWins(NewResult(TrackType), vs);
    assert LastFor(vs, i);
  }
}

=== FILE: index_route.dfy ===
/** The home page's form action: submit the pasted link to the API and redirect to
    the page of whatever it found. */
module IndexRoute {
  import opened Wrappers
  import opened Text
  import ApiClient

  /** The identifying fields of a search result item that the action reads. */
  datatype Item = Item(artistId: string, albumId: string, isrc: string)

  /** How the action ends: a redirect, an error rethrown from the API client, or a
      TypeError from reading `Items[0]` of an empty list. */
  datatype ActionResult = Redirect(location: string) | Rejected(message: string) | Crash(reason: string)

  /** `formData.get("link") as string`: a missing field is `null`, which
      `encodeURIComponent` turns into the text "null". */
  function FormLink(form: map<string, string>): (link: string)
    ensures "link" in form ==> link == form["link"]
    ensures "link" !in form ==> link == "null"
  {
    if "link" in form then form["link"] else "null"
  }

  /** The redirect for a search response. */
  function RedirectFor(kind: string, items: seq<Item>): (r: ActionResult)
    ensures kind in {"artist", "album", "track"} && |items| == 0 <==> r.Crash?
    ensures kind == "artist" && |items| > 0 ==> r == Redirect("/artist/" + items[0].artistId)
    ensures kind == "album" && |items| > 0 ==> r == Redirect("/album/" + items[0].albumId)
    ensures kind == "track" && |items| > 0 ==> r == Redirect("/track/" + items[0].isrc)
    ensures kind !in {"artist", "album", "track"} ==> r == Redirect("/nothing")
  {
    if kind !in {"artist", "album", "track"} then Redirect("/nothing")
    else if |items| == 0 then Crash("TypeError: Cannot read properties of undefined")
    else if kind == "artist" then Redirect("/artist/" + items[0].artistId)
    else if kind == "album" then Redirect("/album/" + items[0].albumId)
    else Redirect("/track/" + items[0].isrc)
  }

  /** `action`: the form's link goes to the client unchanged; a thrown error
      propagates; a response is dispatched on its `Type`. */
  function Action(form: map<string, string>,
                  search: string -> ApiClient.Outcome<ApiClient.Payload<Item>>): (r: ActionResult)
    ensures search(FormLink(form)).Throw? <==> r.Rejected?
    ensures search(FormLink(form)).Throw? ==> r.message == search(FormLink(form)).message
    ensures search(FormLink(form)).Return? ==>
      r == RedirectFor(search(FormLink(form)).value.kind, search(FormLink(form)).value.items)
  {
    match search(FormLink(form))
    case Throw(m) => Rejected(m)
    case Return(p) => RedirectFor(p.kind, p.items)
  }

  /** The page a redirect leads to, as the router reads the path back. */
  datatype Route = ArtistPage(id: string) | AlbumPage(id: string) | TrackPage(id: string)
                 | NothingPage | OtherPage

  function ParseRoute(path: string): Route {
    if path == "/nothing" then NothingPage
    else if StartsWith(path, "/artist/") then ArtistPage(path[8..])
    else if StartsWith(path, "/album/") then AlbumPage(path[7..])
    else if StartsWith(path, "/track/") then TrackPage(path[7..])
    else OtherPage
  }

  /** Every redirect the action issues leads to the page of the response's kind,
      carrying the first item's identifier. */
  lemma RedirectRoundTrip(kind: string, items: seq<Item>)
    requires RedirectFor(kind, items).Redirect?
    ensures var route := ParseRoute(RedirectFor(kind, items).location);
      && (kind == "artist" ==> route == ArtistPage(items[0].artistId))
      && (kind == "album" ==> route == AlbumPage(items[0].albumId))
      && (kind == "track" ==> route == TrackPage(items[0].isrc))
      && (kind !in {"artist", "album", "track"} ==> route == NothingPage)
  {
    var loc := RedirectFor(kind, items).location;
    if kind == "artist" {
      assert loc[..8] == "/artist/" && loc[8..] == items[0].artistId;
      assert loc[1] == 'a';
    } else if kind == "album" {
      assert loc[..7] == "/album/" && loc[7..] == items[0].albumId;
      assert loc[1] == 'a' && loc[2] == 'l';
    } else if kind == "track" {
      assert loc[..7] == "/track/" && loc[7..] == items[0].isrc;
      assert loc[1] == 't';
    }
  }
}

=== FILE: migrations.dfy ===
/** The database migrations of the API: the migrator that runs the pending ones
    in one transaction and records each, the migration that splits the shared
    `things` collection by type, and the one that copies each artist's and
    album's group id into its own id field. */
module Migrations {
  import opened Wrappers
  import opened Documents
  import ThingDecoding

  // ---- migrator.go -----------------------------------------------------------

  const MigrationsCollection: string := "migrations"
  const VersionKey: string := "version"

  /** A migration: its version and its effect on the database. */
  datatype Migration = Migration(version: int, execute: Db -> Exec<Result<Db>>)

  /** The database as the migrator sees it: the collections the migrations work on,
      and the documents of the `migrations` collection, which they leave alone. */
  datatype Store = Store(data: Db, records: seq<Doc>)

  /** The document `recordExecution` inserts. */
  function VersionRecord(v: int): Doc {
    map[VersionKey := Int(v)]
  }

  /** Some record carries version `v`. */
  predicate Recorded(records: seq<Doc>, v: int) {
    exists i :: 0 <= i < |records| && Matches(records[i], VersionKey, Int(v))
  }

  /** `hasExecuted`: the count of records with the migration's version is positive. */
  function HasExecuted(s: Store, m: Migration, driver: Driver): (r: Result<bool>)
    ensures driver.count(MigrationsCollection).Some? <==> r.Err?
    ensures r.Err? ==> r.error == driver.count(MigrationsCollection).value
    ensures r.Ok? ==> (r.value <==> Recorded(s.records, m.version))
  {
    match driver.count(MigrationsCollection)
    case Some(e) => Err(e)
    case None => Ok(Count(s.records, VersionKey, Int(m.version)) > 0)
  }

  /** `recordExecution`: one more record, of the migration's version. */
  function RecordExecution(s: Store, m: Migration, driver: Driver): (r: Result<Store>)
    ensures driver.insert(MigrationsCollection).Some? <==> r.Err?
    ensures r.Ok? ==> r.value.data == s.data && Recorded(r.value.records, m.version)
    ensures r.Ok? ==> forall v :: Recorded(r.value.records, v) <==> Recorded(s.records, v) || v == m.version
    ensures r.Ok? ==> Count(r.value.records, VersionKey, Int(m.version)) == Count(s.records, VersionKey, Int(m.version)) + 1
  {
    match driver.insert(MigrationsCollection)
    case Some(e) => Err(e)
    case None =>
      var records := s.records + [VersionRecord(m.version)];
      SelectAppend(s.records, [VersionRecord(m.version)], VersionKey, Int(m.version));
      assert Matches(records[|s.records|], VersionKey, Int(m.version));
      forall v | Recorded(records, v)
        ensures Recorded(s.records, v) || v == m.version
      {
        var i :| 0 <= i < |records| && Matches(records[i], VersionKey, Int(v));
        if i < |s.records| {
          assert Matches(s.records[i], VersionKey, Int(v));
        }
      }
      forall v | Recorded(s.records, v)
        ensures Recorded(records, v)
      {
        var i :| 0 <= i < |s.records| && Matches(s.records[i], VersionKey, Int(v));
        assert records[i] == s.records[i];
      }
      Ok(Store(s.data, records))
  }

  /** A completed run: the database after it, and the versions it executed, in order. */
  datatype Outcome = Outcome(store: Store, ran: seq<int>)

  /** The body of the transaction in `Execute`: each migration in the provider's
      order is skipped when already recorded, and otherwise executed and recorded.
      The first error or panic ends the run. */
  function Run(s: Store, ms: seq<Migration>, driver: Driver): (e: Exec<Result<Outcome>>)
    ensures |ms| > 0 && driver.count(MigrationsCollection).Some? ==>
              e == Done(Err(driver.count(MigrationsCollection).value))
    ensures e.Panic? ==> |ms| > 0 && driver.count(MigrationsCollection).None?
    ensures driver.count(MigrationsCollection).None? && (forall i :: 0 <= i < |ms| ==> Recorded(s.records, ms[i].version)) ==>
              e == Done(Ok(Outcome(s, [])))
    ensures e.Done? && e.value.Ok? ==> |e.value.value.ran| <= |ms|
    decreases |ms|
  {
    if |ms| == 0 then Done(Ok(Outcome(s, [])))
    else
      match HasExecuted(s, ms[0], driver)
      case Err(err) => Done(Err(err))
      case Ok(executed) =>
        if executed then Run(s, ms[1..], driver)
        else
          match ms[0].execute(s.data)
          case Panic(why) => Panic(why)
          case Done(Err(err)) => Done(Err(err))
          case Done(Ok(data)) =>
            match RecordExecution(Store(data, s.records), ms[0], driver)
            case Err(err) => Done(Err(err))
            case Ok(s1) =>
              match Run(s1, ms[1..], driver)
              case Done(Ok(o)) => Done(Ok(Outcome(o.store, [ms[0].version] + o.ran)))
              case Done(Err(err)) => Done(Err(err))
              case Panic(why) => Panic(why)
  }

  /** `Execute`: the run inside a transaction. An error (from starting the session
      or from the run) leaves the database as it was; a panic propagates. */
  function Execute(s: Store, ms: seq<Migration>, driver: Driver, sessionErr: Option<string>): (e: Exec<(Store, Option<string>)>)
    ensures e.Done? && e.value.1.Some? ==> e.value.0 == s
    ensures sessionErr.Some? ==> e == Done((s, sessionErr))
    ensures sessionErr.None? ==> (e.Panic? <==> Run(s, ms, driver).Panic?)
    ensures sessionErr.None? && e.Done? ==>
              (e.value.1.None? <==> Run(s, ms, driver).value.Ok?)
    ensures e.Done? && e.value.1.None? ==> e.value.0 == Run(s, ms, driver).value.value.store
  {
    if sessionErr.Some? then Done((s, sessionErr))
    else
      match Run(s, ms, driver)
      case Panic(why) => Panic(why)
      case Done(Err(err)) => Done((s, Some(err)))
      case Done(Ok(o)) => Done((o.store, None))
  }

  function VersionRecords(vs: seq<int>): (docs: seq<Doc>)
    ensures |docs| == |vs| && forall i :: 0 <= i < |vs| ==> docs[i] == VersionRecord(vs[i])
  {
    seq(|vs|, i requires 0 <= i < |vs| => VersionRecord(vs[i]))
  }

  /** A record of `v` stays a record after more are appended. */
  lemma RecordedAppend(a: seq<Doc>, b: seq<Doc>, v: int)
    requires Recorded(a, v)
    ensures Recorded(a + b, v)
  {
    var i :| 0 <= i < |a| && Matches(a[i], VersionKey, Int(v));
    assert (a + b)[i] == a[i];
  }

  /** One step of a completed run: the first migration was either already recorded
      and skipped, or not recorded, executed and recorded before the rest ran from
      `s1`. */
  lemma RunStep(s: Store, ms: seq<Migration>, driver: Driver) returns (executed: bool, s1: Store)
    requires |ms| > 0 && Run(s, ms, driver).Done? && Run(s, ms, driver).value.Ok?
    ensures !executed ==> Recorded(s.records, ms[0].version) && Run(s, ms[1..], driver) == Run(s, ms, driver)
    ensures executed ==> && !Recorded(s.records, ms[0].version)
                         && s1.records == s.records + [VersionRecord(ms[0].version)]
                         && Run(s1, ms[1..], driver).Done? && Run(s1, ms[1..], driver).value.Ok?
                         && Run(s, ms, driver).value.value.ran == [ms[0].version] + Run(s1, ms[1..], driver).value.value.ran
                         && Run(s, ms, driver).value.value.store == Run(s1, ms[1..], driver).value.value.store
  {
    executed := !HasExecuted(s, ms[0], driver).value;
    s1 := s;
    if executed {
      var data := ms[0].execute(s.data).value.value;
      s1 := RecordExecution(Store(data, s.records), ms[0], driver).value;
    }
  }

  /** A completed run appends one record per executed migration, in order. */
  lemma {:induction false} RunAppendsRecords(s: Store, ms: seq<Migration>, driver: Driver)
    requires Run(s, ms, driver).Done? && Run(s, ms, driver).value.Ok?
    ensures var o := Run(s, ms, driver).value.value;
      o.store.records == s.records + VersionRecords(o.ran)
    decreases |ms|
  {
    if |ms| > 0 {
      var executed, s1 := RunStep(s, ms, driver);
      if executed {
        RunAppendsRecords(s1, ms[1..], driver);
        var o1 := Run(s1, ms[1..], driver).value.value;
        assert VersionRecords([ms[0].version] + o1.ran) == [VersionRecord(ms[0].version)] + VersionRecords(o1.ran);
      } else {
        RunAppendsRecords(s, ms[1..], driver);
      }
    }
  }

  /** Executing `v` and then only versions unrecorded after it, each once,
      executes only versions unrecorded before, each once. */
  lemma FreshAfterRecord(records: seq<Doc>, v: int, ran1: seq<int>)
    requires !Recorded(records, v)
    requires forall w :: w in ran1 ==> !Recorded(records + [VersionRecord(v)], w)
    requires forall i, j :: 0 <= i < j < |ran1| ==> ran1[i] != ran1[j]
    ensures forall w :: w in [v] + ran1 ==> !Recorded(records, w)
    ensures forall i, j :: 0 <= i < j < |[v] + ran1| ==> ([v] + ran1)[i] != ([v] + ran1)[j]
  {
    var records1 := records + [VersionRecord(v)];
    assert Recorded(records1, v) by {
      assert Matches(records1[|records|], VersionKey, Int(v));
    }
    forall w | w in ran1
      ensures !Recorded(records, w) && w != v
    {
      if Recorded(records, w) {
        RecordedAppend(records, [VersionRecord(v)], w);
      }
    }
    var ran := [v] + ran1;
    forall i, j | 0 <= i < j < |ran|
      ensures ran[i] != ran[j]
    {
      assert ran[j] == ran1[j - 1];
      if i > 0 {
        assert ran[i] == ran1[i - 1];
      }
    }
  }

  /** A completed run executes only versions not recorded before it, and each
      at most once. */
  lemma {:induction false} RunExecutesFresh(s: Store, ms: seq<Migration>, driver: Driver)
    requires Run(s, ms, driver).Done? && Run(s, ms, driver).value.Ok?
    ensures var o := Run(s, ms, driver).value.value;
      && (forall v :: v in o.ran ==> !Recorded(s.records, v))
      && (forall i, j :: 0 <= i < j < |o.ran| ==> o.ran[i] != o.ran[j])
    decreases |ms|
  {
    if |ms| > 0 {
      var executed, s1 := RunStep(s, ms, driver);
      if executed {
        RunExecutesFresh(s1, ms[1..], driver);
        FreshAfterRecord(s.records, ms[0].version, Run(s1, ms[1..], driver).value.value.ran);
      } else {
        RunExecutesFresh(s, ms[1..], driver);
      }
    }
  }

  /** A completed run keeps every record it started with. */
  lemma RunKeepsRecords(s: Store, ms: seq<Migration>, driver: Driver, v: int)
    requires Run(s, ms, driver).Done? && Run(s, ms, driver).value.Ok?
    requires Recorded(s.records, v)
    ensures Recorded(Run(s, ms, driver).value.value.store.records, v)
  {
    RunAppendsRecords(s, ms, driver);
    RecordedAppend(s.records, VersionRecords(Run(s, ms, driver).value.value.ran), v);
  }

  /** The store the rest of a completed run starts from, which already records
      the first migration. */
  lemma RunStepStart(s: Store, ms: seq<Migration>, driver: Driver) returns (start: Store)
    requires |ms| > 0 && Run(s, ms, driver).Done? && Run(s, ms, driver).value.Ok?
    ensures Recorded(start.records, ms[0].version)
    ensures Run(start, ms[1..], driver).Done? && Run(start, ms[1..], driver).value.Ok?
    ensures Run(start, ms[1..], driver).value.value.store == Run(s, ms, driver).value.value.store
  {
    var executed, s1 := RunStep(s, ms, driver);
    start := if executed then s1 else s;
    if executed {
      assert Matches(s1.records[|s.records|], VersionKey, Int(ms[0].version));
    }
  }

  lemma RecordedEach(records: seq<Doc>, ms: seq<Migration>)
    requires |ms| > 0 && Recorded(records, ms[0].version)
    requires forall m :: m in ms[1..] ==> Recorded(records, m.version)
    ensures forall m :: m in ms ==> Recorded(records, m.version)
  {
    assert ms == [ms[0]] + ms[1..];
  }

  lemma {:induction false} RunRecordsAll(s: Store, ms: seq<Migration>, driver: Driver)
    requires Run(s, ms, driver).Done? && Run(s, ms, driver).value.Ok?
    ensures forall m :: m in ms ==> Recorded(Run(s, ms, driver).value.value.store.records, m.version)
    decreases |ms|
  {
    if |ms| > 0 {
      var start := RunStepStart(s, ms, driver);
      RunKeepsRecords(start, ms[1..], driver, ms[0].version);
      RunRecordsAll(start, ms[1..], driver);
      RecordedEach(Run(s, ms, driver).value.value.store.records, ms);
    }
  }

  /** A completed run appends one record per executed migration; it executes only
      migrations not recorded when the run began, each version at most once, and
      every migration of the provider is recorded at the end. */
  lemma RunRecordsEach(s: Store, ms: seq<Migration>, driver: Driver)
    requires Run(s, ms, driver).Done? && Run(s, ms, driver).value.Ok?
    ensures var o := Run(s, ms, driver).value.value;
      && o.store.records == s.records + VersionRecords(o.ran)
      && (forall v :: v in o.ran ==> !Recorded(s.records, v))
      && (forall i, j :: 0 <= i < j < |o.ran| ==> o.ran[i] != o.ran[j])
      && (forall m :: m in ms ==> Recorded(o.store.records, m.version))
      && (forall m :: m in ms && Recorded(s.records, m.version) ==> m.version !in o.ran)
  {
    RunAppendsRecords(s, ms, driver);
    RunExecutesFresh(s, ms, driver);
    RunRecordsAll(s, ms, driver);
  }

  /** The migrator's own test case: with version 1 recorded, a run of versions 1
      and 2 executes only 2 and leaves one record of each. */
  lemma ExecutedMigrationsAreSkipped(data: Db, driver: Driver, m1: Migration, m2: Migration)
    requires m1.version == 1 && m2.version == 2
    requires driver.count(MigrationsCollection).None? && driver.insert(MigrationsCollection).None?
    requires m2.execute(data) == Done(Ok(data))
    ensures Run(Store(data, [VersionRecord(1)]), [m1, m2], driver)
            == Done(Ok(Outcome(Store(data, [VersionRecord(1), VersionRecord(2)]), [2])))
  {
    var s := Store(data, [VersionRecord(1)]);
    var s1 := Store(data, [VersionRecord(1), VersionRecord(2)]);
    assert Matches(s.records[0], VersionKey, Int(1));
    assert HasExecuted(s, m1, driver) == Ok(true);
    assert HasExecuted(s, m2, driver) == Ok(false) by {
      assert !Recorded(s.records, 2);
    }
    assert s.records + [VersionRecord(2)] == s1.records;
    assert RecordExecution(Store(data, s.records), m2, driver) == Ok(s1);
    assert [m1, m2][1..] == [m2];
    assert Run(s1, [m2][1..], driver) == Done(Ok(Outcome(s1, [])));
    assert [2] + [] == [2];
    assert Run(s, [m2], driver) == Done(Ok(Outcome(s1, [2])));
  }

  /** The migrator's own test case: a failing third migration after two that
      succeed leaves no record at all. */
  lemma BadMigrationsAbortAllChanges(data: Db, driver: Driver, m1: Migration, m3: Migration)
    requires m1.version == 1 && m3.version == 3
    requires driver.count(MigrationsCollection).None? && driver.insert(MigrationsCollection).None?
    requires m1.execute(data) == Done(Ok(data)) && m3.execute(data) == Done(Err("oops"))
    ensures Execute(Store(data, []), [m1, m1, m3], driver, None) == Done((Store(data, []), Some("oops")))
  {
    var s0 := Store(data, []);
    var s1 := Store(data, [VersionRecord(1)]);
    assert HasExecuted(s0, m1, driver) == Ok(false);
    assert [] + [VersionRecord(1)] == s1.records;
    assert RecordExecution(Store(data, []), m1, driver) == Ok(s1);
    assert Matches(s1.records[0], VersionKey, Int(1));
    assert HasExecuted(s1, m1, driver) == Ok(true);
    assert HasExecuted(s1, m3, driver) == Ok(false) by {
      assert !Recorded(s1.records, 3);
    }
    assert [m1, m1, m3][1..] == [m1, m3];
    assert [m1, m3][1..] == [m3];
    assert Run(s1, [m3], driver) == Done(Err("oops"));
    assert Run(s1, [m1, m3], driver) == Done(Err("oops"));
    assert Run(s0, [m1, m1, m3], driver) == Done(Err("oops"));
  }

  // ---- migration0001_split_things.go -----------------------------------------

  const ThingsCollection: string := "things"

  /** One step of `Migration0001SplitThings.Execute`: the things of one type are
      found and, when there are any, inserted into their own collection. */
  function CopyKind(db: Db, kind: string, target: string, driver: Driver): (r: Result<Db>)
    requires target != ThingsCollection
    ensures driver.find(ThingsCollection).Some? ==> r == Err(driver.find(ThingsCollection).value)
    ensures r.Ok? ==> Coll(r.value, target) == Coll(db, target) + Select(Coll(db, ThingsCollection), ThingDecoding.ThingTypeKey, Str(kind))
    ensures r.Ok? ==> forall other :: other != target ==> Coll(r.value, other) == Coll(db, other)
    ensures driver.find(ThingsCollection).None? && |Select(Coll(db, ThingsCollection), ThingDecoding.ThingTypeKey, Str(kind))| == 0 ==> r == Ok(db)
    ensures driver.find(ThingsCollection).None? && |Select(Coll(db, ThingsCollection), ThingDecoding.ThingTypeKey, Str(kind))| > 0 ==>
              (r.Err? <==> driver.insert(target).Some?)
  {
    match driver.find(ThingsCollection)
    case Some(e) => Err(e)
    case None =>
      var docs := Select(Coll(db, ThingsCollection), ThingDecoding.ThingTypeKey, Str(kind));
      if |docs| > 0 then
        match driver.insert(target)
        case Some(e) => Err(e)
        case None => Ok(Insert(db, target, docs))
      else Ok(db)
  }

  /** `Migration0001SplitThings.Execute`: artists, then albums, then tracks; the
      first error ends it. The drop of `things` is commented out in the source. */
  function SplitThings(db: Db, driver: Driver): (r: Result<Db>)
    ensures driver.find(ThingsCollection).Some? ==> r == Err(driver.find(ThingsCollection).value)
    ensures r.Ok? <==> && driver.find(ThingsCollection).None?
                       && (|OfKind(db, "artist")| == 0 || driver.insert("artists").None?)
                       && (|OfKind(db, "album")| == 0 || driver.insert("albums").None?)
                       && (|OfKind(db, "track")| == 0 || driver.insert("tracks").None?)
    ensures r.Err? && driver.find(ThingsCollection).None? ==>
              Some(r.error) in {driver.insert("artists"), driver.insert("albums"), driver.insert("tracks")}
    ensures r.Ok? ==> Coll(r.value, ThingsCollection) == Coll(db, ThingsCollection)
  {
    match CopyKind(db, "artist", "artists", driver)
    case Err(e) => Err(e)
    case Ok(db1) =>
      match CopyKind(db1, "album", "albums", driver)
      case Err(e) => Err(e)
      case Ok(db2) => CopyKind(db2, "track", "tracks", driver)
  }

  /** The things of type `kind`, in collection order. */
  function OfKind(db: Db, kind: string): seq<Doc> {
    Select(Coll(db, ThingsCollection), ThingDecoding.ThingTypeKey, Str(kind))
  }

  /** A completed split appends each type's things to its collection, keeps
      `things`, and touches nothing else. */
  lemma SplitThingsCopies(db: Db, driver: Driver)
    requires SplitThings(db, driver).Ok?
    ensures var r := SplitThings(db, driver).value;
      && Coll(r, "artists") == Coll(db, "artists") + OfKind(db, "artist")
      && Coll(r, "albums") == Coll(db, "albums") + OfKind(db, "album")
      && Coll(r, "tracks") == Coll(db, "tracks") + OfKind(db, "track")
      && Coll(r, ThingsCollection) == Coll(db, ThingsCollection)
      && forall other :: other !in {"artists", "albums", "tracks"} ==> Coll(r, other) == Coll(db, other)
  {
  }

  /** A thing whose type is none of the three is copied nowhere. */
  lemma SplitThingsSkipsOtherTypes(db: Db, driver: Driver, d: Doc)
    requires SplitThings(db, driver).Ok?
    requires d in Coll(db, ThingsCollection)
    requires !Matches(d, ThingDecoding.ThingTypeKey, Str("artist")) && !Matches(d, ThingDecoding.ThingTypeKey, Str("album"))
             && !Matches(d, ThingDecoding.ThingTypeKey, Str("track"))
    ensures var r := SplitThings(db, driver).value;
      && (d in Coll(r, "artists") <==> d in Coll(db, "artists"))
      && (d in Coll(r, "albums") <==> d in Coll(db, "albums"))
      && (d in Coll(r, "tracks") <==> d in Coll(db, "tracks"))
  {
    SplitThingsCopies(db, driver);
  }

  /** A type without things asks for no insert: the failure of its collection's
      insert cannot matter. */
  lemma SplitThingsNoInsertWhenEmpty(db: Db, d1: Driver, d2: Driver)
    requires |OfKind(db, "artist")| == 0
    requires d1.find == d2.find
    requires forall c :: c != "artists" ==> d1.insert(c) == d2.insert(c)
    ensures SplitThings(db, d1) == SplitThings(db, d2)
  {
  }

  /** The first error ends the migration: a failing find fails it at once, and a
      failing artist insert (with artists to insert) fails it whatever follows. */
  lemma SplitThingsFirstError(db: Db, driver: Driver)
    ensures driver.find(ThingsCollection).Some? ==> SplitThings(db, driver) == Err(driver.find(ThingsCollection).value)
    ensures driver.find(ThingsCollection).None? && |OfKind(db, "artist")| > 0 && driver.insert("artists").Some? ==>
              SplitThings(db, driver) == Err(driver.insert("artists").value)
  {
  }

  /** The documents of the migration's own test case. */
  const ExampleArtist: Doc := map["name" := Str("my_artist"), ThingDecoding.ThingTypeKey := Str("artist")]
  const ExampleAlbum: Doc := map["name" := Str("my_album"), ThingDecoding.ThingTypeKey := Str("album")]
  const ExampleTrack: Doc := map["name" := Str("my_track"), ThingDecoding.ThingTypeKey := Str("track")]

  lemma ExampleKinds()
    ensures var db: Db := map[ThingsCollection := [ExampleArtist, ExampleAlbum, ExampleTrack]];
      && OfKind(db, "artist") == [ExampleArtist]
      && OfKind(db, "album") == [ExampleAlbum]
      && OfKind(db, "track") == [ExampleTrack]
  {
    var key := ThingDecoding.ThingTypeKey;
    var things := [ExampleArtist, ExampleAlbum, ExampleTrack];
    assert ExampleArtist[key] == Str("artist") && ExampleAlbum[key] == Str("album") && ExampleTrack[key] == Str("track");
    SelectThree(ExampleArtist, ExampleAlbum, ExampleTrack, key, Str("artist"));
    assert Select(things, key, Str("artist")) == [ExampleArtist] + [] + [];
    SelectThree(ExampleArtist, ExampleAlbum, ExampleTrack, key, Str("album"));
    assert Select(things, key, Str("album")) == [] + [ExampleAlbum] + [];
    SelectThree(ExampleArtist, ExampleAlbum, ExampleTrack, key, Str("track"));
    assert Select(things, key, Str("track")) == [] + [] + [ExampleTrack];
  }

  /** The migration's own test case: one thing of each type ends up in its own
      collection, and `things` keeps all three. */
  lemma SplitThingsExample(driver: Driver)
    requires driver.find(ThingsCollection).None?
    requires driver.insert("artists").None? && driver.insert("albums").None? && driver.insert("tracks").None?
    ensures var db: Db := map[ThingsCollection := [ExampleArtist, ExampleAlbum, ExampleTrack]];
      var r := SplitThings(db, driver);
      && r.Ok?
      && Coll(r.value, "artists") == [ExampleArtist]
      && Coll(r.value, "albums") == [ExampleAlbum]
      && Coll(r.value, "tracks") == [ExampleTrack]
      && Coll(r.value, ThingsCollection) == [ExampleArtist, ExampleAlbum, ExampleTrack]
  {
    var db: Db := map[ThingsCollection := [ExampleArtist, ExampleAlbum, ExampleTrack]];
    ExampleKinds();
    SplitThingsCopies(db, driver);
  }

  // ---- migration0002_add_thing_ids.go ----------------------------------------

  const GroupIdKey: string := "groupid"
  const GroupIdPanic: string := "interface conversion: interface {} is not string"
  const ArtistIdKey: string := "artistid"
  const AlbumIdKey: string := "albumid"

  /** The document's group id, when it is a string; `.(string)` panics otherwise. */
  function GroupId(d: Doc): Option<string> {
    if GroupIdKey in d && d[GroupIdKey].Str? then Some(d[GroupIdKey].s) else None
  }

  /** `UpdateOne({groupid: g}, {$set: {field: g}})`: the first document with that
      group id gets the field; the rest is unchanged. */
  function SetFirst(docs: seq<Doc>, g: string, field: string): (r: seq<Doc>)
    ensures |r| == |docs|
  {
    if |docs| == 0 then []
    else if GroupId(docs[0]) == Some(g) then [docs[0][field := Str(g)]] + docs[1..]
    else [docs[0]] + SetFirst(docs[1..], g, field)
  }

  /** The index of the first document with the group id, or the length when
      there is none. */
  function FirstWith(docs: seq<Doc>, g: string): (i: nat)
    ensures i <= |docs|
    ensures forall j :: 0 <= j < i ==> GroupId(docs[j]) != Some(g)
    ensures i < |docs| ==> GroupId(docs[i]) == Some(g)
  {
    if |docs| == 0 then 0
    else if GroupId(docs[0]) == Some(g) then 0
    else
      var i := 1 + FirstWith(docs[1..], g);
      assert forall j :: 0 < j < |docs| ==> docs[j] == docs[1..][j - 1];
      i
  }

  /** The first document with the group id gets the field; every other document
      is left as it was. */
  lemma {:induction false} SetFirstUpdatesFirst(docs: seq<Doc>, g: string, field: string)
    ensures var i := FirstWith(docs, g);
            SetFirst(docs, g, field) == if i == |docs| then docs else docs[..i] + [docs[i][field := Str(g)]] + docs[i + 1..]
  {
    if |docs| > 0 && GroupId(docs[0]) != Some(g) {
      var rest := docs[1..];
      SetFirstUpdatesFirst(rest, g, field);
      var i := FirstWith(rest, g);
      assert FirstWith(docs, g) == i + 1;
      var tail := SetFirst(rest, g, field);
      assert SetFirst(docs, g, field) == [docs[0]] + tail;
      if i == |rest| {
        assert tail == rest;
        assert [docs[0]] + rest == docs;
      } else {
        var x := rest[i][field := Str(g)];
        assert tail == rest[..i] + [x] + rest[i + 1..];
        assert rest[i] == docs[i + 1];
        assert [docs[0]] + rest[..i] == docs[..i + 1];
        assert rest[i + 1..] == docs[i + 2..];
        assert [docs[0]] + (rest[..i] + [x] + rest[i + 1..]) == ([docs[0]] + rest[..i]) + [x] + rest[i + 1..];
      }
    } else if |docs| > 0 {
      assert FirstWith(docs, g) == 0;
      assert docs[..0] == [] && docs[0 + 1..] == docs[1..];
      assert SetFirst(docs, g, field) == [docs[0][field := Str(g)]] + docs[1..];
    }
  }

  /** The loop of `addArtistIds`/`addAlbumIds` over the documents `pending` that
      the cursor returns, updating the collection `current`. */
  function UpdateAll(current: seq<Doc>, pending: seq<Doc>, field: string, updateErr: Option<string>): (e: Exec<Result<seq<Doc>>>)
    ensures e.Panic? ==> e.reason == GroupIdPanic
    ensures updateErr.None? ==> (e.Panic? <==> exists i :: 0 <= i < |pending| && GroupId(pending[i]).None?)
    ensures updateErr.None? && e.Done? ==> e.value.Ok?
    ensures updateErr.Some? && |pending| > 0 ==> (e.Panic? <==> GroupId(pending[0]).None?)
    ensures updateErr.Some? && e.Done? && e.value.Err? ==> e.value.error == updateErr.value
    ensures e.Done? && e.value.Ok? ==> |e.value.value| == |current|
    decreases |pending|
  {
    if |pending| == 0 then Done(Ok(current))
    else
      match GroupId(pending[0])
      case None => Panic(GroupIdPanic)
      case Some(g) =>
        if updateErr.Some? then Done(Err(updateErr.value))
        else UpdateAll(SetFirst(current, g, field), pending[1..], field, updateErr)
  }

  /** `addArtistIds` (`coll` "artists", `field` "artistid") and `addAlbumIds`
      ("albums", "albumid"). */
  function AddIds(db: Db, coll: string, field: string, driver: Driver): (e: Exec<Result<Db>>)
    ensures driver.find(coll).Some? ==> e == Done(Err(driver.find(coll).value))
    ensures e.Done? && e.value.Ok? ==> forall other :: other != coll ==> Coll(e.value.value, other) == Coll(db, other)
  {
    match driver.find(coll)
    case Some(err) => Done(Err(err))
    case None =>
      match UpdateAll(Coll(db, coll), Coll(db, coll), field, driver.update(coll))
      case Panic(why) => Panic(why)
      case Done(Err(err)) => Done(Err(err))
      case Done(Ok(docs)) => Done(Ok(db[coll := docs]))
  }

  /** `Migration0002AddThingIds.Execute`: artists first; only when they succeed,
      albums. */
  function AddThingIds(db: Db, driver: Driver): (e: Exec<Result<Db>>)
    ensures !(AddIds(db, "artists", ArtistIdKey, driver).Done? && AddIds(db, "artists", ArtistIdKey, driver).value.Ok?) ==>
              e == AddIds(db, "artists", ArtistIdKey, driver)
  {
    match AddIds(db, "artists", ArtistIdKey, driver)
    case Done(Ok(db1)) => AddIds(db1, "albums", AlbumIdKey, driver)
    case other => other
  }

  /** Every document has a string group id, and no two share one. */
  predicate UniqueGroupIds(docs: seq<Doc>) {
    && (forall i :: 0 <= i < |docs| ==> GroupId(docs[i]).Some?)
    && (forall i, j :: 0 <= i < j < |docs| ==> GroupId(docs[i]) != GroupId(docs[j]))
  }

  /** Each document with `field` set to its group id, nothing else changed. */
  function WithIds(docs: seq<Doc>, field: string): (r: seq<Doc>)
    requires forall i :: 0 <= i < |docs| ==> GroupId(docs[i]).Some?
    ensures |r| == |docs|
  {
    seq(|docs|, i requires 0 <= i < |docs| && GroupId(docs[i]).Some? => docs[i][field := Str(GroupId(docs[i]).value)])
  }

  /** A first document with another group id is passed over. */
  lemma SetFirstPasses(d: Doc, rest: seq<Doc>, g: string, field: string)
    requires GroupId(d) != Some(g)
    ensures SetFirst([d] + rest, g, field) == [d] + SetFirst(rest, g, field)
  {
    assert ([d] + rest)[0] == d;
    assert ([d] + rest)[1..] == rest;
  }

  /** Updating after a run of documents with other group ids updates the rest. */
  lemma {:induction false} SetFirstSkips(a: seq<Doc>, b: seq<Doc>, g: string, field: string)
    requires forall d :: d in a ==> GroupId(d) != Some(g)
    ensures SetFirst(a + b, g, field) == a + SetFirst(b, g, field)
  {
    if |a| > 0 {
      var head, tail := a[0], a[1..];
      assert a == [head] + tail;
      assert head in a;
      assert forall d :: d in tail ==> d in a;
      assert a + b == [head] + (tail + b);
      SetFirstPasses(head, tail + b, g, field);
      SetFirstSkips(tail, b, g, field);
      assert [head] + (tail + SetFirst(b, g, field)) == a + SetFirst(b, g, field);
    } else {
      assert a + b == b;
    }
  }

  /** The documents before `k`, with their ids set, have group ids other than
      document `k`'s. */
  lemma WithIdsOthers(docs: seq<Doc>, field: string, k: nat)
    requires field != GroupIdKey && UniqueGroupIds(docs) && k < |docs|
    ensures forall d :: d in WithIds(docs[..k], field) ==> GroupId(d) != GroupId(docs[k])
  {
    var done := WithIds(docs[..k], field);
    forall d | d in done
      ensures GroupId(d) != GroupId(docs[k])
    {
      var i :| 0 <= i < |done| && done[i] == d;
      assert done[i] == docs[i][field := Str(GroupId(docs[i]).value)];
      assert GroupId(done[i]) == GroupId(docs[i]);
    }
  }

  lemma WithIdsExtend(docs: seq<Doc>, field: string, k: nat)
    requires UniqueGroupIds(docs) && k < |docs|
    ensures WithIds(docs[..k + 1], field) == WithIds(docs[..k], field) + [docs[k][field := Str(GroupId(docs[k]).value)]]
  {
  }

  /** One turn of the loop: document `k` gets its id and the loop goes on. */
  lemma UpdateAllStep(docs: seq<Doc>, field: string, k: nat)
    requires field != GroupIdKey && UniqueGroupIds(docs) && k < |docs|
    ensures UpdateAll(WithIds(docs[..k], field) + docs[k..], docs[k..], field, None)
         == UpdateAll(WithIds(docs[..k + 1], field) + docs[k + 1..], docs[k + 1..], field, None)
  {
    var done := WithIds(docs[..k], field);
    var g := GroupId(docs[k]).value;
    var withId := docs[k][field := Str(g)];
    assert docs[k..][0] == docs[k];
    assert docs[k..][1..] == docs[k + 1..];
    assert UpdateAll(done + docs[k..], docs[k..], field, None)
        == UpdateAll(SetFirst(done + docs[k..], g, field), docs[k + 1..], field, None);
    WithIdsOthers(docs, field, k);
    SetFirstSkips(done, docs[k..], g, field);
    assert SetFirst(docs[k..], g, field) == [withId] + docs[k + 1..];
    WithIdsExtend(docs, field, k);
    assert done + ([withId] + docs[k + 1..]) == (done + [withId]) + docs[k + 1..];
  }

  /** The loop from document `k` on, with the first `k` already carrying their id. */
  lemma {:induction false} UpdateAllFrom(docs: seq<Doc>, field: string, k: nat)
    requires field != GroupIdKey && UniqueGroupIds(docs) && k <= |docs|
    ensures UpdateAll(WithIds(docs[..k], field) + docs[k..], docs[k..], field, None) == Done(Ok(WithIds(docs, field)))
    decreases |docs| - k
  {
    if k == |docs| {
      var done := WithIds(docs[..k], field);
      assert docs[..k] == docs;
      assert docs[k..] == [];
      assert done + docs[k..] == done;
    } else {
      UpdateAllStep(docs, field, k);
      UpdateAllFrom(docs, field, k + 1);
    }
  }

  /** With unique string group ids and no failure, every document gets `field`
      set to its group id and keeps every other field. */
  lemma AddIdsSetsEveryId(db: Db, coll: string, field: string, driver: Driver)
    requires field != GroupIdKey && UniqueGroupIds(Coll(db, coll))
    requires driver.find(coll).None? && driver.update(coll).None?
    ensures var e := AddIds(db, coll, field, driver);
      && e.Done? && e.value.Ok? && |Coll(e.value.value, coll)| == |Coll(db, coll)|
      && forall i :: 0 <= i < |Coll(db, coll)| ==>
           var before, after := Coll(db, coll)[i], Coll(e.value.value, coll)[i];
           && Matches(after, field, Str(GroupId(before).value))
           && forall key :: key != field ==> (key in after <==> key in before) && (key in before ==> after[key] == before[key])
  {
    var docs := Coll(db, coll);
    UpdateAllFrom(docs, field, 0);
    assert docs[..0] == [] && docs[0..] == docs;
    assert WithIds([], field) + docs == docs;
  }

  /** A document without a string group id makes the migration panic once the
      loop reaches it. */
  lemma UpdateAllPanics(current: seq<Doc>, pending: seq<Doc>, field: string)
    requires |pending| > 0 && GroupId(pending[0]).None?
    ensures UpdateAll(current, pending, field, None).Panic?
  {
  }

  /** Two artists sharing a group id: the first gets the id twice and the second
      never, which is why the unique-id requirement is needed. */
  lemma SharedGroupIdLeavesSecond()
    ensures var d: Doc := map[GroupIdKey := Str("g")];
      UpdateAll([d, d], [d, d], "artistid", None) == Done(Ok([d["artistid" := Str("g")], d]))
  {
    var d: Doc := map[GroupIdKey := Str("g")];
    var d1 := d["artistid" := Str("g")];
    assert GroupId(d1) == Some("g");
    assert SetFirst([d, d], "g", "artistid") == [d1, d];
    assert SetFirst([d1, d], "g", "artistid") == [d1["artistid" := Str("g")], d];
    assert d1["artistid" := Str("g")] == d1;
    assert [d, d][1..] == [d];
    assert [d][1..] == [];
    assert UpdateAll([d1, d], [d], "artistid", None) == UpdateAll([d1, d], [], "artistid", None);
    assert UpdateAll([d, d], [d, d], "artistid", None) == UpdateAll([d1, d], [d], "artistid", None);
  }

  /** The migration values the provider lists. */
  function SplitThingsMigration(driver: Driver): (m: Migration)
    ensures m.version == 1
  {
    Migration(1, db => Done(SplitThings(db, driver)))
  }

  function AddThingIdsMigration(driver: Driver): (m: Migration)
    ensures m.version == 2
  {
    Migration(2, db => AddThingIds(db, driver))
  }

  /** The migration's own test case: one artist and one album, each with a group id,
      get it as their artist and album id. */
  lemma AddThingIdsExample(driver: Driver)
    requires driver.find("artists").None? && driver.find("albums").None?
    requires driver.update("artists").None? && driver.update("albums").None?
    ensures var artist: Doc := map[GroupIdKey := Str("my_artist_id")];
      var album: Doc := map[GroupIdKey := Str("my_album_id")];
      var db: Db := map["artists" := [artist], "albums" := [album]];
      AddThingIds(db, driver)
        == Done(Ok(db["artists" := [artist["artistid" := Str("my_artist_id")]]]
                     ["albums" := [album["albumid" := Str("my_album_id")]]]))
  {
    var artist: Doc := map[GroupIdKey := Str("my_artist_id")];
    var album: Doc := map[GroupIdKey := Str("my_album_id")];
    assert SetFirst([artist], "my_artist_id", "artistid") == [artist["artistid" := Str("my_artist_id")]];
    assert SetFirst([album], "my_album_id", "albumid") == [album["albumid" := Str("my_album_id")]];
    var db: Db := map["artists" := [artist], "albums" := [album]];
    var db1 := db["artists" := [artist["artistid" := Str("my_artist_id")]]];
    assert [artist][1..] == [] && [album][1..] == [];
    assert UpdateAll([artist], [artist], "artistid", None) == Done(Ok([artist["artistid" := Str("my_artist_id")]]));
    assert AddIds(db, "artists", "artistid", driver) == Done(Ok(db1));
    assert Coll(db1, "albums") == [album];
    assert UpdateAll([album], [album], "albumid", None) == Done(Ok([album["albumid" := Str("my_album_id")]]));
  }
}

=== FILE: mongo_repository.dfy ===
/** The MongoDB repositories: the current one and the older one the API package
    kept. Both store artists, albums and tracks in their own collections, look them
    up by link, by id and by ISRC, and report what a lookup finds as a type tag and
    a value. They differ in the fields their id lookups filter on, and the older
    one has update operations that were never written. */
module MongoRepository {
  import opened Wrappers
  import opened Catalog
  import opened Documents
  import Migrations

  const ArtistsCollection: string := "artists"
  const AlbumsCollection: string := "albums"
  const TracksCollection: string := "tracks"

  const LinkKey: string := "link"
  const IsrcKey: string := "isrc"
  /** The field the older repository's id lookups filter on. */
  const OlderIdKey: string := "id"

  /** The driver's `ErrEmptySlice`: `InsertMany` refuses an empty list. */
  const EmptySliceError: string := "must provide at least one element in input slice"
  /** Reading from the nil cursor a failed `Find` leaves behind. */
  const NilCursorPanic: string := "invalid memory address or nil pointer dereference"
  const NotImplemented: string := "not implemented!"

  /** `bson.Marshal` and `bson.Unmarshal` of one entity type. */
  datatype Codec<!T> = Codec(encode: T -> Doc, decode: Doc -> Result<T>)

  datatype Codecs = Codecs(artist: Codec<Artist>, album: Codec<Album>, track: Codec<Track>)

  /** The documents `InsertMany` is given: one per item, in order. */
  function EncodeAll<T>(items: seq<T>, c: Codec<T>): (docs: seq<Doc>)
    ensures |docs| == |items|
    ensures forall i :: 0 <= i < |items| ==> docs[i] == c.encode(items[i])
  {
    seq(|items|, i requires 0 <= i < |items| => c.encode(items[i]))
  }

  lemma EncodeAllAppend<T>(a: seq<T>, b: seq<T>, c: Codec<T>)
    ensures EncodeAll(a + b, c) == EncodeAll(a, c) + EncodeAll(b, c)
  {
  }

  /** Encoding a non-empty run encodes its first item, then the rest. */
  lemma EncodeAllCons<T>(items: seq<T>, c: Codec<T>)
    requires |items| > 0
    ensures EncodeAll(items, c) == [c.encode(items[0])] + EncodeAll(items[1..], c)
  {
  }

  // ---- adding ------------------------------------------------------------------

  /** What an insert of `items` into `coll` promises: the driver refuses an empty
      list before it reaches the server; otherwise the insert fails as the server
      fails, or appends one document per item, in order, to that collection alone
      and answers how many. */
  ghost predicate InsertsAll<T>(r: Result<(Db, nat)>, db: Db, coll: string, items: seq<T>, c: Codec<T>, driver: Driver) {
    && (|items| == 0 ==> r == Err(EmptySliceError))
    && (|items| > 0 ==> (r.Ok? <==> driver.insert(coll).None?))
    && (|items| > 0 && r.Err? ==> r.error == driver.insert(coll).value)
    && (r.Ok? ==> r.value.1 == |items|)
    && (r.Ok? ==> Coll(r.value.0, coll) == Coll(db, coll) + EncodeAll(items, c))
    && (r.Ok? ==> forall other :: other != coll ==> Coll(r.value.0, other) == Coll(db, other))
  }

  /** `AddArtist`, `AddAlbum`, `AddTracks`: `InsertMany` into the entity's
      collection, answering the number of documents inserted. */
  function AddMany<T>(db: Db, coll: string, items: seq<T>, c: Codec<T>, driver: Driver): (r: Result<(Db, nat)>)
    ensures InsertsAll(r, db, coll, items, c, driver)
  {
    if |items| == 0 then Err(EmptySliceError)
    else
      match driver.insert(coll)
      case Some(e) => Err(e)
      case None => Ok((Insert(db, coll, EncodeAll(items, c)), |items|))
  }

  function AddArtist(db: Db, artists: seq<Artist>, cs: Codecs, driver: Driver): (r: Result<(Db, nat)>)
    ensures InsertsAll(r, db, ArtistsCollection, artists, cs.artist, driver)
  {
    AddMany(db, ArtistsCollection, artists, cs.artist, driver)
  }

  function AddAlbum(db: Db, albums: seq<Album>, cs: Codecs, driver: Driver): (r: Result<(Db, nat)>)
    ensures InsertsAll(r, db, AlbumsCollection, albums, cs.album, driver)
  {
    AddMany(db, AlbumsCollection, albums, cs.album, driver)
  }

  function AddTracks(db: Db, tracks: seq<Track>, cs: Codecs, driver: Driver): (r: Result<(Db, nat)>)
    ensures InsertsAll(r, db, TracksCollection, tracks, cs.track, driver)
  {
    AddMany(db, TracksCollection, tracks, cs.track, driver)
  }

  /** `UpdateArtists`, `UpdateAlbums`, `UpdateTracks` of the older repository:
      whatever they are given, they panic. */
  function UpdateMany<T>(items: seq<T>): (e: Exec<nat>)
    ensures e.Panic? && e.reason == NotImplemented
  {
    Panic(NotImplemented)
  }

  // ---- reading a cursor ----------------------------------------------------------

  /** `unmarshalFromCursor`: every document of the cursor decoded, in order; the
      first decoding error is returned alone. */
  function DecodeAll<T>(docs: seq<Doc>, decode: Doc -> Result<T>): (r: Result<seq<T>>)
    ensures r.Ok? <==> forall i :: 0 <= i < |docs| ==> decode(docs[i]).Ok?
    ensures r.Ok? ==> |r.value| == |docs| && forall i :: 0 <= i < |docs| ==> decode(docs[i]) == Ok(r.value[i])
    ensures r.Err? ==> exists i :: && 0 <= i < |docs| && decode(docs[i]) == Err(r.error)
                                   && forall j :: 0 <= j < i ==> decode(docs[j]).Ok?
  {
    if |docs| == 0 then Ok([])
    else
      assert forall i :: 0 < i < |docs| ==> docs[i] == docs[1..][i - 1];
      match decode(docs[0])
      case Err(e) => Err(e)
      case Ok(t) =>
        match DecodeAll(docs[1..], decode)
        case Err(e) => Err(e)
        case Ok(ts) => Ok([t] + ts)
  }

  /** Decoding two runs of documents decodes the first, then the second. */
  lemma DecodeAllAppend<T>(a: seq<Doc>, b: seq<Doc>, decode: Doc -> Result<T>)
    requires DecodeAll(a, decode).Ok? && DecodeAll(b, decode).Ok?
    ensures DecodeAll(a + b, decode) == Ok(DecodeAll(a, decode).value + DecodeAll(b, decode).value)
  {
    var va, vb := DecodeAll(a, decode).value, DecodeAll(b, decode).value;
    assert forall i :: 0 <= i < |a + b| ==> decode((a + b)[i]) == Ok((va + vb)[i]) by {
      forall i | 0 <= i < |a + b|
        ensures decode((a + b)[i]) == Ok((va + vb)[i])
      {
        if i < |a| {
          assert (a + b)[i] == a[i];
        } else {
          assert (a + b)[i] == b[i - |a|];
        }
      }
    }
    var r := DecodeAll(a + b, decode);
    assert r.Ok?;
    assert r.value == va + vb;
  }

  // ---- finding by a field --------------------------------------------------------

  /** `Get*ById`, `GetTracksByIsrc`, `GetTracksByLegacyId` as written: the error of
      `Find` is overwritten before anyone reads it, so a failed `Find` hands its nil
      cursor to `unmarshalFromCursor`, which dereferences it. */
  function FindAllAsWritten<T>(db: Db, coll: string, key: string, value: string, decode: Doc -> Result<T>,
                               driver: Driver): (e: Exec<Result<seq<T>>>)
    ensures e.Panic? <==> driver.find(coll).Some?
    ensures e.Panic? ==> e.reason == NilCursorPanic
    ensures e.Done? ==> e.value == FindAll(db, coll, key, value, decode, driver)
  {
    match driver.find(coll)
    case Some(_) => Panic(NilCursorPanic)
    case None => Done(DecodeAll(Select(Coll(db, coll), key, Str(value)), decode))
  }

  /** The same lookups with the error of `Find` returned: the documents of the
      collection whose `key` field is `value`, decoded in collection order. */
  function FindAll<T>(db: Db, coll: string, key: string, value: string, decode: Doc -> Result<T>,
                      driver: Driver): (r: Result<seq<T>>)
    ensures driver.find(coll).Some? ==> r == Err(driver.find(coll).value)
    ensures driver.find(coll).None? ==> r == DecodeAll(Select(Coll(db, coll), key, Str(value)), decode)
    ensures r.Ok? ==> forall t :: t in r.value ==>
              exists d :: d in Coll(db, coll) && Matches(d, key, Str(value)) && decode(d) == Ok(t)
    ensures r.Ok? ==> forall d :: d in Coll(db, coll) && Matches(d, key, Str(value)) ==>
              exists t :: t in r.value && decode(d) == Ok(t)
  {
    match driver.find(coll)
    case Some(e) => Err(e)
    case None =>
      SelectDecoded(Coll(db, coll), key, Str(value), decode);
      DecodeAll(Select(Coll(db, coll), key, Str(value)), decode)
  }

  /** Decoding the selected documents gives a decoded matching document for each
      result, and a result for each matching document. */
  lemma SelectDecoded<T>(docs: seq<Doc>, key: string, value: Field, decode: Doc -> Result<T>)
    ensures var r := DecodeAll(Select(docs, key, value), decode);
      r.Ok? ==> && (forall t :: t in r.value ==> exists d :: d in docs && Matches(d, key, value) && decode(d) == Ok(t))
                && (forall d :: d in docs && Matches(d, key, value) ==> exists t :: t in r.value && decode(d) == Ok(t))
  {
    var sel := Select(docs, key, value);
    var r := DecodeAll(sel, decode);
    if r.Ok? {
      forall t | t in r.value
        ensures exists d :: d in docs && Matches(d, key, value) && decode(d) == Ok(t)
      {
        var i :| 0 <= i < |r.value| && r.value[i] == t;
        assert sel[i] in sel;
      }
      forall d | d in docs && Matches(d, key, value)
        ensures exists t :: t in r.value && decode(d) == Ok(t)
      {
        var i :| 0 <= i < |sel| && sel[i] == d;
        assert r.value[i] in r.value;
      }
    }
  }

  /** A failed `Find` crashes the lookups as written where the corrected ones
      return its error: a lookup by ISRC while the server is unreachable. */
  lemma FindErrorPanics(cs: Codecs)
    ensures var down := Driver(_ => Some("server selection error"), _ => None, _ => None, _ => None);
            && FindAllAsWritten(map[], TracksCollection, IsrcKey, "USUM71703861", cs.track.decode, down) == Panic(NilCursorPanic)
            && FindAll(map[], TracksCollection, IsrcKey, "USUM71703861", cs.track.decode, down) == Err("server selection error")
  {
  }

  /** What a lookup by a field promises, as written: a failed `Find` panics on the
      nil cursor; otherwise the documents of the collection whose field has the
      value, decoded in collection order, every one of them, with the first
      decoding error returned alone. */
  predicate LookupAsWritten<T(==)>(e: Exec<Result<seq<T>>>, db: Db, coll: string, key: string, value: string,
                               decode: Doc -> Result<T>, driver: Driver)
  {
    && (e.Panic? <==> driver.find(coll).Some?)
    && (e.Panic? ==> e.reason == NilCursorPanic)
    && (e.Done? ==> e.value == DecodeAll(Select(Coll(db, coll), key, Str(value)), decode))
    && (e.Done? && e.value.Ok? ==> forall t :: t in e.value.value ==>
          exists d :: d in Coll(db, coll) && Matches(d, key, Str(value)) && decode(d) == Ok(t))
    && (e.Done? && e.value.Ok? ==> forall d :: d in Coll(db, coll) && Matches(d, key, Str(value)) ==>
          exists t :: t in e.value.value && decode(d) == Ok(t))
  }

  /** `GetArtistsById`: the current repository filters on `artistid`, the older
      one on `id`. */
  function GetArtistsById(db: Db, id: string, older: bool, cs: Codecs, driver: Driver): (e: Exec<Result<seq<Artist>>>)
    ensures LookupAsWritten(e, db, ArtistsCollection, if older then OlderIdKey else Migrations.ArtistIdKey,
                            id, cs.artist.decode, driver)
  {
    FindAllAsWritten(db, ArtistsCollection, if older then OlderIdKey else Migrations.ArtistIdKey, id, cs.artist.decode, driver)
  }

  /** `GetAlbumsById`: on `albumid`, or on `id` in the older repository. */
  function GetAlbumsById(db: Db, id: string, older: bool, cs: Codecs, driver: Driver): (e: Exec<Result<seq<Album>>>)
    ensures LookupAsWritten(e, db, AlbumsCollection, if older then OlderIdKey else Migrations.AlbumIdKey,
                            id, cs.album.decode, driver)
  {
    FindAllAsWritten(db, AlbumsCollection, if older then OlderIdKey else Migrations.AlbumIdKey, id, cs.album.decode, driver)
  }

  /** `GetTracksByIsrc`: the stored tracks whose `isrc` field is the code. */
  function GetTracksByIsrc(db: Db, isrc: string, cs: Codecs, driver: Driver): (e: Exec<Result<seq<Track>>>)
    ensures LookupAsWritten(e, db, TracksCollection, IsrcKey, isrc, cs.track.decode, driver)
  {
    FindAllAsWritten(db, TracksCollection, IsrcKey, isrc, cs.track.decode, driver)
  }

  /** `GetTracksByLegacyId`: the stored tracks whose `groupid`, the id the tracks
      had before they were split out of `things`, is the given one. */
  function GetTracksByLegacyId(db: Db, id: string, cs: Codecs, driver: Driver): (e: Exec<Result<seq<Track>>>)
    ensures LookupAsWritten(e, db, TracksCollection, Migrations.GroupIdKey, id, cs.track.decode, driver)
  {
    FindAllAsWritten(db, TracksCollection, Migrations.GroupIdKey, id, cs.track.decode, driver)
  }

  /** The tracks with the given ISRC, in order. */
  function WithIsrc(tracks: seq<Track>, isrc: string): (r: seq<Track>)
    ensures forall t :: t in r <==> t in tracks && t.isrc == isrc
  {
    if |tracks| == 0 then []
    else (if tracks[0].isrc == isrc then [tracks[0]] else []) + WithIsrc(tracks[1..], isrc)
  }

  /** The codec stores a track's ISRC under `isrc` and decodes what it encodes. */
  predicate IsrcCodec(c: Codec<Track>, t: Track) {
    && c.decode(c.encode(t)) == Ok(t)
    && IsrcKey in c.encode(t) && c.encode(t)[IsrcKey] == Str(t.isrc)
  }

  /** Selecting one encoded track by ISRC keeps it exactly when it has that ISRC. */
  lemma SelectEncodedOne(t: Track, isrc: string, c: Codec<Track>)
    requires IsrcCodec(c, t)
    ensures Select([c.encode(t)], IsrcKey, Str(isrc)) == EncodeAll(if t.isrc == isrc then [t] else [], c)
  {
    SelectOne(c.encode(t), IsrcKey, Str(isrc));
  }

  /** Selecting encoded tracks by ISRC selects the tracks with that ISRC. */
  lemma {:induction false} SelectEncoded(tracks: seq<Track>, isrc: string, c: Codec<Track>)
    requires forall t :: t in tracks ==> IsrcCodec(c, t)
    ensures Select(EncodeAll(tracks, c), IsrcKey, Str(isrc)) == EncodeAll(WithIsrc(tracks, isrc), c)
  {
    if |tracks| > 0 {
      var head := if tracks[0].isrc == isrc then [tracks[0]] else [];
      var rest := WithIsrc(tracks[1..], isrc);
      var e0, tail := c.encode(tracks[0]), EncodeAll(tracks[1..], c);
      assert tracks[0] in tracks;
      SelectEncodedOne(tracks[0], isrc, c);
      assert forall t :: t in tracks[1..] ==> t in tracks;
      SelectEncoded(tracks[1..], isrc, c);
      EncodeAllCons(tracks, c);
      SelectAppend([e0], tail, IsrcKey, Str(isrc));
      EncodeAllAppend(head, rest, c);
      assert WithIsrc(tracks, isrc) == head + rest;
    } else {
      assert EncodeAll(tracks, c) == [];
    }
  }

  /** Encoded tracks decode back to themselves. */
  lemma DecodeEncoded(tracks: seq<Track>, c: Codec<Track>)
    requires forall t :: t in tracks ==> c.decode(c.encode(t)) == Ok(t)
    ensures DecodeAll(EncodeAll(tracks, c), c.decode) == Ok(tracks)
  {
    var r := DecodeAll(EncodeAll(tracks, c), c.decode);
    assert forall i :: 0 <= i < |tracks| ==> tracks[i] in tracks;
    assert r.Ok?;
    assert r.value == tracks;
  }

  /** Finding in a collection that grew finds what it found before, then what
      the new documents give. */
  lemma FindAllAppended<T>(db: Db, db1: Db, coll: string, key: string, value: string, extra: seq<Doc>,
                           decode: Doc -> Result<T>, driver: Driver)
    requires Coll(db1, coll) == Coll(db, coll) + extra
    requires FindAll(db, coll, key, value, decode, driver).Ok?
    requires DecodeAll(Select(extra, key, Str(value)), decode).Ok?
    ensures FindAll(db1, coll, key, value, decode, driver)
         == Ok(FindAll(db, coll, key, value, decode, driver).value + DecodeAll(Select(extra, key, Str(value)), decode).value)
  {
    SelectAppend(Coll(db, coll), extra, key, Str(value));
    DecodeAllAppend(Select(Coll(db, coll), key, Str(value)), Select(extra, key, Str(value)), decode);
  }

  /** Round trip: after `AddTracks`, `GetTracksByIsrc` finds what it found before,
      followed by the added tracks with that ISRC in the order they were added. */
  lemma AddThenGetByIsrc(db: Db, tracks: seq<Track>, isrc: string, cs: Codecs, driver: Driver)
    requires forall t :: t in tracks ==> IsrcCodec(cs.track, t)
    requires AddTracks(db, tracks, cs, driver).Ok? && GetTracksByIsrc(db, isrc, cs, driver).Done?
    requires GetTracksByIsrc(db, isrc, cs, driver).value.Ok?
    ensures GetTracksByIsrc(AddTracks(db, tracks, cs, driver).value.0, isrc, cs, driver)
         == Done(Ok(GetTracksByIsrc(db, isrc, cs, driver).value.value + WithIsrc(tracks, isrc)))
  {
    var db1 := AddTracks(db, tracks, cs, driver).value.0;
    var enc := EncodeAll(tracks, cs.track);
    assert Coll(db1, TracksCollection) == Coll(db, TracksCollection) + enc;
    SelectEncoded(tracks, isrc, cs.track);
    DecodeEncoded(WithIsrc(tracks, isrc), cs.track);
    FindAllAppended(db, db1, TracksCollection, IsrcKey, isrc, enc, cs.track.decode, driver);
  }

  // ---- finding by link -----------------------------------------------------------

  /** What a lookup by link promises: a failed `Find` is the error; otherwise the
      first document of the collection with that link, decoded, and no such
      document is no entity and no error. */
  ghost predicate FindsFirstByLink<T>(r: Result<Option<T>>, db: Db, coll: string, link: string,
                                    decode: Doc -> Result<T>, driver: Driver)
  {
    && (driver.find(coll).Some? ==> r == Err(driver.find(coll).value))
    && (r == Ok(None) <==>
          driver.find(coll).None? && forall i :: 0 <= i < |Coll(db, coll)| ==> !Matches(Coll(db, coll)[i], LinkKey, Str(link)))
    && (r.Ok? && r.value.Some? ==>
          exists i :: && 0 <= i < |Coll(db, coll)| && Matches(Coll(db, coll)[i], LinkKey, Str(link))
                      && decode(Coll(db, coll)[i]) == Ok(r.value.value)
                      && forall j :: 0 <= j < i ==> !Matches(Coll(db, coll)[j], LinkKey, Str(link)))
  }

  /** `GetArtistByLink`, `GetAlbumByLink`, `GetTrackByLink`: `FindOne` on the link,
      with `mongo.ErrNoDocuments` answered as no entity. */
  function FindByLink<T>(db: Db, coll: string, link: string, decode: Doc -> Result<T>, driver: Driver)
    : (r: Result<Option<T>>)
    ensures FindsFirstByLink(r, db, coll, link, decode, driver)
  {
    match driver.find(coll)
    case Some(e) => Err(e)
    case None =>
      match FindOne(Coll(db, coll), LinkKey, Str(link))
      case None => Ok(None)
      case Some(d) =>
        match decode(d)
        case Err(e) => Err(e)
        case Ok(t) => Ok(Some(t))
  }

  function ArtistByLink(db: Db, link: string, cs: Codecs, driver: Driver): (r: Result<Option<Artist>>)
    ensures FindsFirstByLink(r, db, ArtistsCollection, link, cs.artist.decode, driver)
  {
    FindByLink(db, ArtistsCollection, link, cs.artist.decode, driver)
  }

  function AlbumByLink(db: Db, link: string, cs: Codecs, driver: Driver): (r: Result<Option<Album>>)
    ensures FindsFirstByLink(r, db, AlbumsCollection, link, cs.album.decode, driver)
  {
    FindByLink(db, AlbumsCollection, link, cs.album.decode, driver)
  }

  function TrackByLink(db: Db, link: string, cs: Codecs, driver: Driver): (r: Result<Option<Track>>)
    ensures FindsFirstByLink(r, db, TracksCollection, link, cs.track.decode, driver)
  {
    FindByLink(db, TracksCollection, link, cs.track.decode, driver)
  }

  /** `GetByLink`: artists first, then albums, then tracks; the first lookup that
      fails or finds something decides, and the error carries no type or value. */
  function GetByLink(db: Db, link: string, cs: Codecs, driver: Driver): (r: LinkResult)
    ensures r.error.Some? ==> r.kind == UnknownType && r.value == NilValue
    ensures ArtistByLink(db, link, cs, driver).Err? ==>
              r == LinkResult(UnknownType, NilValue, Some(ArtistByLink(db, link, cs, driver).error))
    ensures r.kind == ArtistType <==> ArtistByLink(db, link, cs, driver).Ok? && ArtistByLink(db, link, cs, driver).value.Some?
    ensures r.kind == ArtistType ==> r == LinkResult(ArtistType, ArtistValue(ArtistByLink(db, link, cs, driver).value.value), None)
    ensures r.kind == AlbumType <==> && ArtistByLink(db, link, cs, driver) == Ok(None)
                                     && AlbumByLink(db, link, cs, driver).Ok? && AlbumByLink(db, link, cs, driver).value.Some?
    ensures r.kind == AlbumType ==> r == LinkResult(AlbumType, AlbumValue(AlbumByLink(db, link, cs, driver).value.value), None)
    ensures r.kind == TrackType <==> && ArtistByLink(db, link, cs, driver) == Ok(None)
                                     && AlbumByLink(db, link, cs, driver) == Ok(None)
                                     && TrackByLink(db, link, cs, driver).Ok? && TrackByLink(db, link, cs, driver).value.Some?
    ensures r.kind == TrackType ==> r == LinkResult(TrackType, TrackValue(TrackByLink(db, link, cs, driver).value.value), None)
    ensures r == LinkResult(UnknownType, NilValue, None) <==>
              && ArtistByLink(db, link, cs, driver) == Ok(None) && AlbumByLink(db, link, cs, driver) == Ok(None)
              && TrackByLink(db, link, cs, driver) == Ok(None)
  {
    match ArtistByLink(db, link, cs, driver)
    case Err(e) => LinkResult(UnknownType, NilValue, Some(e))
    case Ok(Some(a)) => LinkResult(ArtistType, ArtistValue(a), None)
    case Ok(None) =>
      match AlbumByLink(db, link, cs, driver)
      case Err(e) => LinkResult(UnknownType, NilValue, Some(e))
      case Ok(Some(a)) => LinkResult(AlbumType, AlbumValue(a), None)
      case Ok(None) =>
        match TrackByLink(db, link, cs, driver)
        case Err(e) => LinkResult(UnknownType, NilValue, Some(e))
        case Ok(Some(t)) => LinkResult(TrackType, TrackValue(t), None)
        case Ok(None) => LinkResult(UnknownType, NilValue, None)
  }

  /** A link stored only as a track is reported as a track, once the artist and
      album collections can be read. */
  lemma GetByLinkFindsStoredTrack(db: Db, link: string, cs: Codecs, driver: Driver, i: int)
    requires driver.find(ArtistsCollection).None? && driver.find(AlbumsCollection).None?
    requires driver.find(TracksCollection).None?
    requires forall d :: d in Coll(db, ArtistsCollection) ==> !Matches(d, LinkKey, Str(link))
    requires forall d :: d in Coll(db, AlbumsCollection) ==> !Matches(d, LinkKey, Str(link))
    requires 0 <= i < |Coll(db, TracksCollection)| && Matches(Coll(db, TracksCollection)[i], LinkKey, Str(link))
    requires forall d :: d in Coll(db, TracksCollection) ==> cs.track.decode(d).Ok?
    ensures GetByLink(db, link, cs, driver).kind == TrackType && GetByLink(db, link, cs, driver).error.None?
  {
    assert forall j :: 0 <= j < |Coll(db, ArtistsCollection)| ==> Coll(db, ArtistsCollection)[j] in Coll(db, ArtistsCollection);
    assert forall j :: 0 <= j < |Coll(db, AlbumsCollection)| ==> Coll(db, AlbumsCollection)[j] in Coll(db, AlbumsCollection);
    var f := FindOne(Coll(db, TracksCollection), LinkKey, Str(link));
    assert f.Some?;
    assert f.value in Coll(db, TracksCollection);
  }
}

=== FILE: normalize.dfy ===
/** The name normaliser: for each pattern in a fixed order, cut out its leftmost
    match, then trim spaces. Each regular expression is an oracle that reports
    its leftmost match as a span of the string it is given. */
module Normalize {
  import opened Wrappers
  import opened Text

  /** A match `[start, end)`, as `FindStringIndex` reports it. */
  datatype Span = Span(start: nat, end: nat)

  type Matcher = string -> Option<Span>

  predicate ValidMatch(s: string, m: Option<Span>) {
    m.Some? ==> m.value.start <= m.value.end <= |s|
  }

  /** A matcher only reports spans that lie inside the string it was given. */
  ghost predicate ValidMatcher(f: Matcher) {
    forall s :: ValidMatch(s, f(s))
  }

  ghost predicate ValidMatchers(fs: seq<Matcher>) {
    forall i :: 0 <= i < |fs| ==> ValidMatcher(fs[i])
  }

  /** `name[0:start] + name[end:]` when there is a match. */
  function Splice(s: string, m: Option<Span>): (r: string)
    requires ValidMatch(s, m)
    ensures |r| <= |s|
    ensures m.None? ==> r == s
    ensures m.Some? ==> |r| == |s| - (m.value.end - m.value.start)
                        && r[..m.value.start] == s[..m.value.start]
                        && r[m.value.start..] == s[m.value.end..]
  {
    if m.None? then s else s[..m.value.start] + s[m.value.end..]
  }

  /** Reference fold: each pattern sees the output of the previous one. */
  function SpliceAll(fs: seq<Matcher>, s: string): string
    requires ValidMatchers(fs)
    decreases |fs|
  {
    if |fs| == 0 then s else SpliceAll(fs[1..], Splice(s, fs[0](s)))
  }

  function Normalized(fs: seq<Matcher>, s: string): string
    requires ValidMatchers(fs)
  {
    TrimSpaces(SpliceAll(fs, s))
  }

  lemma {:induction false} SpliceAllShorter(fs: seq<Matcher>, s: string)
    requires ValidMatchers(fs)
    ensures |SpliceAll(fs, s)| <= |s|
    decreases |fs|
  {
    if |fs| > 0 {
      SpliceAllShorter(fs[1..], Splice(s, fs[0](s)));
    }
  }

  lemma {:induction false} SpliceAllNoMatch(fs: seq<Matcher>, s: string)
    requires ValidMatchers(fs)
    requires forall i :: 0 <= i < |fs| ==> fs[i](s).None?
    ensures SpliceAll(fs, s) == s
    decreases |fs|
  {
    if |fs| > 0 {
      SpliceAllNoMatch(fs[1..], s);
    }
  }

  /** The loop of `NormalizeAlbumName` / `NormalizeTrackName` over a pattern list. */
  method RemoveMatches(fs: seq<Matcher>, name: string) returns (r: string)
    requires ValidMatchers(fs)
    ensures r == Normalized(fs, name)
    ensures |r| <= |name|
    ensures |r| > 0 ==> r[0] != ' ' && r[|r| - 1] != ' '
    ensures (forall i :: 0 <= i < |fs| ==> fs[i](name).None?) ==> r == TrimSpaces(name)
  {
    var s := name;
    var i := 0;
    while i < |fs|
      invariant 0 <= i <= |fs|
      invariant ValidMatchers(fs[i..])
      invariant |s| <= |name|
      invariant SpliceAll(fs[i..], s) == SpliceAll(fs, name)
    {
      var m := fs[i](s);
      assert fs[i..][0] == fs[i] && fs[i..][1..] == fs[i + 1..];
      if m.Some? {
        s := s[..m.value.start] + s[m.value.end..];
      }
      i := i + 1;
    }
    assert fs[i..] == [];
    r := TrimSpaces(s);
    SpliceAllShorter(fs, name);
    TrimSpacesSpec(s);
    if forall i :: 0 <= i < |fs| ==> fs[i](name).None? {
      SpliceAllNoMatch(fs, name);
    }
  }

  /** The three compiled patterns of `NewNameNormalizer`. */
  datatype NameNormalizer = NameNormalizer(albumType: Matcher, variation: Matcher, feat: Matcher)

  ghost predicate ValidNormalizer(n: NameNormalizer) {
    ValidMatcher(n.albumType) && ValidMatcher(n.variation) && ValidMatcher(n.feat)
  }

  /** Album names: album-type, then variation, then featured-artist pattern. */
  method NormalizeAlbumName(n: NameNormalizer, name: string) returns (r: string)
    requires ValidNormalizer(n)
    ensures r == Normalized([n.albumType, n.variation, n.feat], name)
    ensures |r| <= |name|
    ensures |r| > 0 ==> r[0] != ' ' && r[|r| - 1] != ' '
    ensures n.albumType(name).None? && n.variation(name).None? && n.feat(name).None? ==> r == TrimSpaces(name)
  {
    var fs := [n.albumType, n.variation, n.feat];
    r := RemoveMatches(fs, name);
  }

  /** Track names: variation, then featured-artist pattern. */
  method NormalizeTrackName(n: NameNormalizer, name: string) returns (r: string)
    requires ValidNormalizer(n)
    ensures r == Normalized([n.variation, n.feat], name)
    ensures |r| <= |name|
    ensures |r| > 0 ==> r[0] != ' ' && r[|r| - 1] != ' '
    ensures n.variation(name).None? && n.feat(name).None? ==> r == TrimSpaces(name)
  {
    var fs := [n.variation, n.feat];
    r := RemoveMatches(fs, name);
  }

  /** `strings.Trim(s, " ")` leaves tabs and newlines in place. */
  lemma TrimKeepsOtherWhitespace()
    ensures TrimSpaces(" \tName\n ") == "\tName\n"
  {
    assert TrimLeftSpaces(" \tName\n ") == TrimLeftSpaces("\tName\n ");
    assert TrimRightSpaces("\tName\n ") == TrimRightSpaces("\tName\n");
  }

  /** Two patterns in a row: the second sees the output of the first. */
  lemma SpliceTwo(f: Matcher, g: Matcher, s: string)
    requires ValidMatcher(f) && ValidMatcher(g)
    ensures SpliceAll([f, g], s) == Splice(Splice(s, f(s)), g(Splice(s, f(s))))
  {
    var s1 := Splice(s, f(s));
    assert [f, g][1..] == [g] && [g][1..] == [];
    assert SpliceAll([f, g], s) == SpliceAll([g], s1);
    assert SpliceAll([g], s1) == SpliceAll([], Splice(s1, g(s1)));
  }

  lemma SpliceThree(f: Matcher, g: Matcher, h: Matcher, s: string)
    requires ValidMatcher(f) && ValidMatcher(g) && ValidMatcher(h)
    ensures SpliceAll([f, g, h], s) == SpliceAll([g, h], Splice(s, f(s)))
  {
    assert [f, g, h][1..] == [g, h];
  }

  /** "My Track Name " trims to "My Track Name". */
  lemma TrimExample()
    ensures TrimSpaces("My Track Name ") == "My Track Name"
    ensures TrimSpaces("My Track Name") == "My Track Name"
  {
    TrimSpacesNoop("My Track Name");
    assert TrimRightSpaces("My Track Name ") == TrimRightSpaces("My Track Name");
  }

  /** A name decorated only at its end: the variation span is cut, nothing else
      matches. Covers "[Mixed]", "(Mixed)" and "- Mixed" of the track test table. */
  lemma TrackNameSuffixExample(n: NameNormalizer, decorated: string)
    requires ValidNormalizer(n)
    requires decorated in {"My Track Name [Mixed]", "My Track Name (Mixed)", "My Track Name - Mixed"}
    requires n.variation(decorated) == Some(Span(13, 21))
    requires n.feat("My Track Name") == None
    ensures Normalized([n.variation, n.feat], decorated) == "My Track Name"
  {
    SpliceTwo(n.variation, n.feat, decorated);
    assert decorated[..13] + decorated[21..] == "My Track Name";
    TrimExample();
  }

  /** A featured artist and a trailing variation: the variation is cut first, then
      the "(feat. ...)" group, and the space left between them is trimmed. */
  lemma TrackNameFeatExample(n: NameNormalizer, decorated: string)
    requires ValidNormalizer(n)
    requires decorated in {"My Track Name (feat. some dude) [Mixed]", "My Track Name (feat. some dude) (Mixed)",
                           "My Track Name (feat. some dude) - Mixed"}
    requires n.variation(decorated) == Some(Span(31, 39))
    requires n.feat("My Track Name (feat. some dude)") == Some(Span(14, 31))
    ensures Normalized([n.variation, n.feat], decorated) == "My Track Name"
  {
    SpliceTwo(n.variation, n.feat, decorated);
    var featured := "My Track Name (feat. some dude)";
    assert decorated[..31] + decorated[39..] == featured;
    assert featured[..14] + featured[31..] == "My Track Name ";
    TrimExample();
  }

  /** Album names whose album-type suffix is cut first, leaving a track-style name. */
  lemma AlbumNameSuffixExample(n: NameNormalizer, decorated: string, cut: nat)
    requires ValidNormalizer(n)
    requires (decorated, cut) in {("My Track Name [Mixed] L.P.", 21), ("My Track Name (Mixed) - Single", 21),
                                  ("My Track Name - Mixed LP", 21)}
    requires n.albumType(decorated) == Some(Span(cut, |decorated|))
    requires n.variation(decorated[..cut]) == Some(Span(13, 21))
    requires n.feat("My Track Name") == None
    ensures Normalized([n.albumType, n.variation, n.feat], decorated) == "My Track Name"
  {
    SpliceThree(n.albumType, n.variation, n.feat, decorated);
    assert Splice(decorated, n.albumType(decorated)) == decorated[..cut];
    if decorated == "My Track Name [Mixed] L.P." {
      assert decorated[..cut] == "My Track Name [Mixed]";
    } else if decorated == "My Track Name (Mixed) - Single" {
      assert decorated[..cut] == "My Track Name (Mixed)";
    } else {
      assert decorated[..cut] == "My Track Name - Mixed";
    }
    TrackNameSuffixExample(n, decorated[..cut]);
  }

  /** Album names with a featured artist, with or without a " - Single" suffix. */
  lemma AlbumNameFeatExample(n: NameNormalizer, decorated: string, cut: nat)
    requires ValidNormalizer(n)
    requires (decorated, cut) in {("My Track Name (feat. some dude) [Mixed] - Single", 39),
                                  ("My Track Name (feat. some dude) (Mixed)", 39),
                                  ("My Track Name (feat. some dude) - Mixed - Single", 39)}
    requires cut == |decorated| ==> n.albumType(decorated) == None
    requires cut < |decorated| ==> n.albumType(decorated) == Some(Span(cut, |decorated|))
    requires n.variation(decorated[..cut]) == Some(Span(31, 39))
    requires n.feat("My Track Name (feat. some dude)") == Some(Span(14, 31))
    ensures Normalized([n.albumType, n.variation, n.feat], decorated) == "My Track Name"
  {
    SpliceThree(n.albumType, n.variation, n.feat, decorated);
    assert Splice(decorated, n.albumType(decorated)) == decorated[..cut];
    if decorated == "My Track Name (feat. some dude) [Mixed] - Single" {
      assert decorated[..cut] == "My Track Name (feat. some dude) [Mixed]";
    } else if decorated == "My Track Name (feat. some dude) (Mixed)" {
      assert decorated[..cut] == decorated;
    } else {
      assert decorated[..cut] == "My Track Name (feat. some dude) - Mixed";
    }
    TrackNameFeatExample(n, decorated[..cut]);
  }
}

=== FILE: provider.dfy ===
/** The default service provider: which services get a factory, and the lookups
    over the configuration and the factories. Constructing a service is a
    parameter; the configuration is reduced to its `Enabled()` flag and its
    identity. */
module Provider {
  import opened Wrappers
  import opened Catalog

  /** A service configuration; `settings` stands for the rest of it. */
  datatype ServiceConfig = ServiceConfig(enabled: bool, settings: string)

  /** The three keys with a factory. */
  const KnownKeys: set<string> := {AppleMusicKey, DeezerKey, SpotifyKey}

  /** The provider: the configuration map and the keys that have a factory. */
  datatype DefaultProvider = DefaultProvider(cfg: map<string, ServiceConfig>, factories: set<string>)

  /** The service constructors the factories call. Only Spotify's can fail. */
  datatype Constructors<S> = Constructors(
    appleMusic: ServiceConfig -> S,
    deezer: S,
    spotify: ServiceConfig -> Result<S>)

  /** `NewDefaultProvider`, as its loop over the configuration runs in the map's
      iteration order `order`: a factory for every enabled known key. */
  method NewDefaultProvider(cfg: map<string, ServiceConfig>, order: seq<string>) returns (p: DefaultProvider)
    requires forall k :: k in cfg <==> k in order
    ensures p.cfg == cfg
    ensures forall k :: k in p.factories <==> k in cfg && cfg[k].enabled && k in KnownKeys
  {
    var factories: set<string> := {};
    var i := 0;
    while i < |order|
      invariant 0 <= i <= |order|
      invariant forall k :: k in factories <==> exists j :: 0 <= j < i && order[j] == k && cfg[k].enabled && k in KnownKeys
    {
      var key := order[i];
      if cfg[key].enabled {
        if key == AppleMusicKey || key == DeezerKey || key == SpotifyKey {
          factories := factories + {key};
        }
      }
      i := i + 1;
    }
    p := DefaultProvider(cfg, factories);
  }

  /** What `NewDefaultProvider` builds: factories only for enabled known keys. */
  ghost predicate Valid(p: DefaultProvider) {
    forall k :: k in p.factories <==> k in p.cfg && p.cfg[k].enabled && k in KnownKeys
  }

  /** The factory registered under `key`, applied to a configuration. Keys other
      than Apple Music's and Deezer's get Spotify's, the only other factory. */
  function Factory<S>(key: string, cfg: ServiceConfig, make: Constructors<S>): (r: Result<S>)
    ensures key in {AppleMusicKey, DeezerKey} ==> r.Ok?
    ensures key !in {AppleMusicKey, DeezerKey} ==> (r.Ok? <==> make.spotify(cfg).Ok?)
    ensures r.Err? ==> r.error == "failed to initialize spotify streaming service: " + make.spotify(cfg).error
  {
    if key == AppleMusicKey then Ok(make.appleMusic(cfg))
    else if key == DeezerKey then Ok(make.deezer)
    else
      match make.spotify(cfg)
      case Err(e) => Err("failed to initialize spotify streaming service: " + e)
      case Ok(s) => Ok(s)
  }

  function GetConfig(p: DefaultProvider, key: string): (r: Result<ServiceConfig>)
    ensures r.Ok? <==> key in p.cfg
    ensures r.Ok? ==> r.value == p.cfg[key]
    ensures r.Err? ==> r.error == "couldn't find service config with key " + key
  {
    if key in p.cfg then Ok(p.cfg[key]) else Err("couldn't find service config with key " + key)
  }

  function ListConfigs(p: DefaultProvider): map<string, ServiceConfig> {
    p.cfg
  }

  /** `GetService`: the configuration must exist and be enabled, and the key must
      have a factory. */
  function GetService<S>(p: DefaultProvider, key: string, make: Constructors<S>): (r: Result<S>)
    ensures key !in p.cfg ==> r == Err("couldn't find service config with key " + key)
    ensures key in p.cfg && !p.cfg[key].enabled ==> r == Err("service " + key + " is disabled")
    ensures key in p.cfg && p.cfg[key].enabled && key !in p.factories ==>
              r == Err("couldn't find service with key " + key)
    ensures key in p.cfg && p.cfg[key].enabled && key in p.factories ==> r == Factory(key, p.cfg[key], make)
  {
    match GetConfig(p, key)
    case Err(e) => Err(e)
    case Ok(cfg) =>
      if !cfg.enabled then Err("service " + key + " is disabled")
      else if key !in p.factories then Err("couldn't find service with key " + key)
      else Factory(key, cfg, make)
  }

  /** On a provider built by `NewDefaultProvider`, the service of a key is found
      exactly when the key is configured, enabled and known, and Apple Music and
      Deezer then never fail. */
  lemma GetServiceFound<S>(p: DefaultProvider, key: string, make: Constructors<S>)
    requires Valid(p)
    ensures GetService(p, key, make).Ok? ==> key in p.cfg && p.cfg[key].enabled && key in KnownKeys
    ensures key in p.cfg && p.cfg[key].enabled && key in {AppleMusicKey, DeezerKey} ==> GetService(p, key, make).Ok?
    ensures key in p.cfg && p.cfg[key].enabled && key !in KnownKeys ==>
              GetService(p, key, make) == Err("couldn't find service with key " + key)
  {
  }

  /** The provider hands back the configuration it was built from. */
  lemma ListConfigsUnchanged(cfg: map<string, ServiceConfig>, factories: set<string>)
    ensures ListConfigs(DefaultProvider(cfg, factories)) == cfg
    ensures forall k :: k in cfg ==> GetConfig(DefaultProvider(cfg, factories), k) == Ok(cfg[k])
  {
  }

  /** `ListServices`, as its loop over the factories runs in the map's iteration
      order `order`: each factory's service under its key, or the first error. */
  method ListServices<S>(p: DefaultProvider, make: Constructors<S>, order: seq<string>)
    returns (r: Result<map<string, S>>)
    requires Valid(p)
    requires forall k :: k in p.factories <==> k in order
    ensures r.Ok? <==> forall i :: 0 <= i < |order| ==> GetService(p, order[i], make).Ok?
    ensures r.Ok? ==> r.value.Keys == p.factories
    ensures r.Ok? ==> forall k :: k in r.value ==> GetService(p, k, make) == Ok(r.value[k])
    ensures r.Err? ==> exists i :: && 0 <= i < |order| && GetService(p, order[i], make) == Err(r.error)
                                   && forall j :: 0 <= j < i ==> GetService(p, order[j], make).Ok?
  {
    var svcs: map<string, S> := map[];
    var i := 0;
    while i < |order|
      invariant 0 <= i <= |order|
      invariant forall k :: k in svcs <==> exists j :: 0 <= j < i && order[j] == k
      invariant forall k :: k in svcs ==> GetService(p, k, make) == Ok(svcs[k])
    {
      var key := order[i];
      assert key in p.factories;
      match GetConfig(p, key) {
        case Err(e) =>
          return Err(e);
        case Ok(cfg) =>
          if !cfg.enabled {
            return Err("service " + key + " is disabled");
          }
          var svc := Factory(key, cfg, make);
          assert GetService(p, key, make) == svc;
          if svc.Err? {
            return Err(svc.error);
          }
          svcs := svcs[key := svc.value];
      }
      i := i + 1;
    }
    r := Ok(svcs);
  }

  /** A factory key always has an enabled configuration, so the error branches of
      `ListServices` for a missing or disabled configuration cannot be taken. */
  lemma FactoryKeysConfigured(p: DefaultProvider, key: string)
    requires Valid(p) && key in p.factories
    ensures GetConfig(p, key).Ok? && GetConfig(p, key).value.enabled
  {
  }
}

=== FILE: response_writer.dfy ===
/** The response writer the request-logging and metrics middleware wrap around
    the handler's, to learn the status code of the response, and the two
    decisions they take from it: the log level of the request and whether it
    counts as a server error. */
module ResponseWriter {
  import opened Wrappers

  /** What a handler does with its `http.ResponseWriter`. */
  datatype Call = WriteHeader(code: int) | Write(body: string)

  const StatusOK: int := 200

  /** The underlying writer of net/http: the status goes out with the first
      `WriteHeader`, or as 200 with the first `Write`; a later `WriteHeader` is
      superfluous and ignored. `status` is `None` while nothing has been sent. */
  datatype Wire = Wire(status: Option<int>, body: string)

  const Unsent: Wire := Wire(None, "")

  function WireStep(w: Wire, c: Call): (w1: Wire)
    ensures w.status.Some? ==> w1.status == w.status
    ensures w.status.None? && c.WriteHeader? ==> w1.status == Some(c.code)
    ensures w.status.None? && c.Write? ==> w1.status == Some(StatusOK)
    ensures c.Write? ==> w1.body == w.body + c.body
    ensures c.WriteHeader? ==> w1.body == w.body
  {
    match c
    case WriteHeader(code) => Wire(if w.status.Some? then w.status else Some(code), w.body)
    case Write(body) => Wire(if w.status.Some? then w.status else Some(StatusOK), w.body + body)
  }

  function Serve(w: Wire, calls: seq<Call>): Wire
    decreases |calls|
  {
    if |calls| == 0 then w else Serve(WireStep(w, calls[0]), calls[1..])
  }

  /** The status the client receives for a handler's calls: the code of the
      first call if it is a `WriteHeader`, and 200 otherwise (net/http answers
      200 for a handler that writes nothing). */
  function SentStatus(calls: seq<Call>): int {
    if |calls| > 0 && calls[0].WriteHeader? then calls[0].code else StatusOK
  }

  /** The code of the last `WriteHeader` among the calls, or 0 when there is none. */
  function LastHeader(calls: seq<Call>): int {
    if |calls| == 0 then 0
    else if calls[|calls| - 1].WriteHeader? then calls[|calls| - 1].code
    else LastHeader(calls[..|calls| - 1])
  }

  /** The status that ends up on the wire is the one `SentStatus` names. */
  lemma {:induction false} ServeSendsFirst(calls: seq<Call>)
    ensures Serve(Unsent, calls).status == if |calls| == 0 then None else Some(SentStatus(calls))
  {
    if |calls| > 0 {
      SentStaysSent(WireStep(Unsent, calls[0]), calls[1..]);
    }
  }

  lemma {:induction false} SentStaysSent(w: Wire, calls: seq<Call>)
    requires w.status.Some?
    ensures Serve(w, calls).status == w.status
    decreases |calls|
  {
    if |calls| > 0 {
      SentStaysSent(WireStep(w, calls[0]), calls[1..]);
    }
  }

  // ---- the decorator as written -------------------------------------------------

  /** `responseWriterDecorator`: the wrapped writer and the captured `StatusCode`. */
  datatype Decorator = Decorator(inner: Wire, statusCode: int)

  /** The middleware's `responseWriterDecorator{ResponseWriter: w, StatusCode: 0}`. */
  const Fresh: Decorator := Decorator(Unsent, 0)

  /** `WriteHeader` forwards the code and then records it; `Write` is the wrapped
      writer's, promoted, and records nothing. */
  function Step(d: Decorator, c: Call): (d1: Decorator)
    ensures d1.inner == WireStep(d.inner, c)
    ensures c.WriteHeader? ==> d1.statusCode == c.code
    ensures c.Write? ==> d1.statusCode == d.statusCode
  {
    match c
    case WriteHeader(code) => Decorator(WireStep(d.inner, c), code)
    case Write(_) => Decorator(WireStep(d.inner, c), d.statusCode)
  }

  /** A handler's calls made on the decorator, in order. */
  function Decorate(d: Decorator, calls: seq<Call>): Decorator
    decreases |calls|
  {
    if |calls| == 0 then d else Decorate(Step(d, calls[0]), calls[1..])
  }

  lemma {:induction false} DecorateAppend(d: Decorator, calls: seq<Call>, c: Call)
    ensures Decorate(d, calls + [c]) == Step(Decorate(d, calls), c)
    decreases |calls|
  {
    if |calls| == 0 {
      assert [] + [c] == [c];
      assert [c][1..] == [];
    } else {
      assert (calls + [c])[1..] == calls[1..] + [c];
      DecorateAppend(Step(d, calls[0]), calls[1..], c);
    }
  }

  /** The decorator is transparent: the client receives exactly what it would
      without it. */
  lemma {:induction false} DecorateForwards(d: Decorator, calls: seq<Call>)
    ensures Decorate(d, calls).inner == Serve(d.inner, calls)
    decreases |calls|
  {
    if |calls| > 0 {
      DecorateForwards(Step(d, calls[0]), calls[1..]);
    }
  }

  /** What the middleware reads back is the last `WriteHeader`, or 0. */
  lemma {:induction false} DecorateCapturesLast(calls: seq<Call>)
    ensures Decorate(Fresh, calls).statusCode == LastHeader(calls)
    decreases |calls|
  {
    if |calls| > 0 {
      var init := calls[..|calls| - 1];
      assert calls == init + [calls[|calls| - 1]];
      DecorateAppend(Fresh, init, calls[|calls| - 1]);
      DecorateCapturesLast(init);
    }
  }

  /** `isServerErrorCode`: a status of the 5xx class. */
  function IsServerErrorCode(code: int): (b: bool)
    ensures b <==> code >= 0 && code / 100 == 5
  {
    code >= 500 && code <= 599
  }

  datatype Level = DebugLevel | ErrorLevel

  /** `RequestLogging`: the level of the request's log line. */
  function RequestLevel(calls: seq<Call>): (l: Level)
    ensures l == ErrorLevel <==> 500 <= LastHeader(calls) <= 599
  {
    DecorateCapturesLast(calls);
    if IsServerErrorCode(Decorate(Fresh, calls).statusCode) then ErrorLevel else DebugLevel
  }

  /** `Metrics`: whether the request is counted as a server error. */
  function CountsServerError(calls: seq<Call>): (b: bool)
    ensures b <==> 500 <= LastHeader(calls) <= 599
  {
    DecorateCapturesLast(calls);
    IsServerErrorCode(Decorate(Fresh, calls).statusCode)
  }

  /** A handler that answers 500 and then calls `WriteHeader(200)` by mistake
      sends a 500, which is logged at debug level and not counted; one that only
      writes a body is logged with status 0. */
  lemma CapturedStatusIsNotSent()
    ensures var calls := [WriteHeader(500), WriteHeader(200)];
            && Serve(Unsent, calls).status == Some(500)
            && Decorate(Fresh, calls).statusCode == 200
            && RequestLevel(calls) == DebugLevel && !CountsServerError(calls)
    ensures Serve(Unsent, [Write("ok")]).status == Some(StatusOK) && Decorate(Fresh, [Write("ok")]).statusCode == 0
  {
    var calls := [WriteHeader(500), WriteHeader(200)];
    ServeSendsFirst(calls);
    ServeSendsFirst([Write("ok")]);
    assert calls[1..] == [WriteHeader(200)];
    assert calls[1..][1..] == [];
    assert [Write("ok")][1..] == [];
    DecorateCapturesLast(calls);
    assert calls[..1] == [WriteHeader(500)];
  }

  // ---- the decorator corrected ----------------------------------------------------

  /** The decorator records the status the wrapped writer actually sends: only
      the first `WriteHeader`, or 200 at the first `Write`. */
  function FixedStep(d: Decorator, c: Call): (d1: Decorator)
    ensures d1.inner == WireStep(d.inner, c)
    ensures d.statusCode != 0 ==> d1.statusCode == d.statusCode
  {
    var recorded :=
      if d.statusCode != 0 then d.statusCode
      else match c
        case WriteHeader(code) => code
        case Write(_) => StatusOK;
    Decorator(WireStep(d.inner, c), recorded)
  }

  function FixedDecorate(d: Decorator, calls: seq<Call>): Decorator
    decreases |calls|
  {
    if |calls| == 0 then d else FixedDecorate(FixedStep(d, calls[0]), calls[1..])
  }

  /** The status the corrected decorator reports, 200 when the handler wrote
      nothing, as net/http then answers. */
  function Captured(d: Decorator): int {
    if d.statusCode == 0 then StatusOK else d.statusCode
  }

  lemma {:induction false} FixedKeepsRecorded(d: Decorator, calls: seq<Call>)
    requires d.statusCode != 0
    ensures FixedDecorate(d, calls).statusCode == d.statusCode
    decreases |calls|
  {
    if |calls| > 0 {
      FixedKeepsRecorded(FixedStep(d, calls[0]), calls[1..]);
    }
  }

  lemma {:induction false} FixedForwards(d: Decorator, calls: seq<Call>)
    ensures FixedDecorate(d, calls).inner == Serve(d.inner, calls)
    decreases |calls|
  {
    if |calls| > 0 {
      FixedForwards(FixedStep(d, calls[0]), calls[1..]);
    }
  }

  /** The corrected decorator stays transparent and reports what the client
      receives, for every sequence of calls whose first status is not 0. */
  lemma FixedCapturesSent(calls: seq<Call>)
    requires |calls| > 0 && calls[0].WriteHeader? ==> calls[0].code != 0
    ensures FixedDecorate(Fresh, calls).inner == Serve(Unsent, calls)
    ensures Captured(FixedDecorate(Fresh, calls)) == SentStatus(calls)
  {
    FixedForwards(Fresh, calls);
    if |calls| > 0 {
      FixedKeepsRecorded(FixedStep(Fresh, calls[0]), calls[1..]);
    }
  }

  /** The corrected `RequestLogging` and `Metrics` decisions. */
  function FixedServerError(calls: seq<Call>): (b: bool)
    requires |calls| > 0 && calls[0].WriteHeader? ==> calls[0].code != 0
    ensures b <==> 500 <= SentStatus(calls) <= 599
  {
    FixedCapturesSent(calls);
    IsServerErrorCode(Captured(FixedDecorate(Fresh, calls)))
  }

  /** The 500 of the example is logged as an error and counted. */
  lemma FixedSeesServerError()
    ensures FixedServerError([WriteHeader(500), WriteHeader(200)])
  {
  }
}

=== FILE: search_loop.dfy ===
/** The "one query per artist name" loop shared by the album and track searches of
    the Spotify and Deezer adapters: the first failing query aborts the search, a
    query without hits is skipped, and every query with hits overwrites the result,
    so the last artist name with hits decides. */
module SearchLoop {
  import opened Wrappers
  import opened Catalog

  /** A reply with at least one result. */
  predicate Hit<H>(reply: Result<seq<H>>) {
    reply.Ok? && |reply.value| > 0
  }

  method LastHit<K, H>(keys: seq<K>, search: K -> Result<seq<H>>) returns (r: Search<H>)
    ensures !r.FoundFailed?
    ensures r.Failed? <==> exists i :: 0 <= i < |keys| && search(keys[i]).Err?
    ensures r.Failed? ==> exists i :: && 0 <= i < |keys| && search(keys[i]).Err?
                                      && r.error == search(keys[i]).error
                                      && forall j :: 0 <= j < i ==> search(keys[j]).Ok?
    ensures r.NotFound? <==> forall i :: 0 <= i < |keys| ==> search(keys[i]).Ok? && !Hit(search(keys[i]))
    ensures r.Found? ==> exists i :: && 0 <= i < |keys| && Hit(search(keys[i]))
                                     && r.value == search(keys[i]).value[0]
                                     && forall j :: i < j < |keys| ==> !Hit(search(keys[j]))
  {
    var found: Option<H> := None;
    ghost var last := -1;
    var i := 0;
    while i < |keys|
      invariant 0 <= i <= |keys| && -1 <= last < i
      invariant forall j :: 0 <= j < i ==> search(keys[j]).Ok?
      invariant found.Some? <==> last >= 0
      invariant last >= 0 ==> Hit(search(keys[last])) && found.value == search(keys[last]).value[0]
      invariant forall j :: last < j < i ==> !Hit(search(keys[j]))
    {
      var reply := search(keys[i]);
      if reply.Err? {
        return Failed(reply.error);
      }
      if |reply.value| > 0 {
        found := Some(reply.value[0]);
        last := i;
      }
      i := i + 1;
    }
    r := if found.Some? then Found(found.value) else NotFound;
  }
}

=== FILE: service_dispatch.dfy ===
/** The type switch that sends a catalogue entity to the matching search of a
    streaming service, in its two copies, and the legacy helpers around it. */
module ServiceDispatch {
  import opened Wrappers
  import opened Catalog

  /** The dynamic type behind a `model.Thing`: one of the three searchable entity
      pointers, or anything else, named as `%T` prints it. */
  datatype Thing = ArtistThing(artist: Artist) | AlbumThing(album: Album) | TrackThing(track: Track)
                 | OtherThing(typeName: string)

  /** The three searches of a service, as seen through the interface. */
  datatype Service = Service(
    searchArtist: Artist -> Search<Artist>,
    searchAlbum: Album -> Search<Album>,
    searchSong: Track -> Search<Track>)

  /** Returning a `(*T, bool, error)` triple as `(model.Thing, bool, error)`: a nil
      `*T` becomes a non-nil interface holding a nil pointer of kind `kind`. */
  function AsThing<T>(r: Search<T>, kind: Type, wrap: T -> Value): (t: ThingResult)
    ensures t.found <==> r.Found? || r.FoundFailed?
    ensures t.error.Some? <==> r.Failed? || r.FoundFailed?
    ensures r.Found? ==> t.value == wrap(r.value)
    ensures !r.Found? ==> t.value == NilPointer(kind)
    ensures (r.Failed? || r.FoundFailed?) ==> t.error == Some(r.error)
  {
    match r
    case Found(v) => ThingResult(wrap(v), true, None)
    case NotFound => ThingResult(NilPointer(kind), false, None)
    case Failed(e) => ThingResult(NilPointer(kind), false, Some(e))
    case FoundFailed(e) => ThingResult(NilPointer(kind), true, Some(e))
  }

  /** `SearchThing` of `pkg/streamingservice`: each entity goes, unchanged, to its own
      search; anything else is an error without a call. */
  function SearchThing(ss: Service, thing: Thing): (r: ThingResult)
    ensures thing.ArtistThing? ==> r == AsThing(ss.searchArtist(thing.artist), ArtistType, (a: Artist) => ArtistValue(a))
    ensures thing.AlbumThing? ==> r == AsThing(ss.searchAlbum(thing.album), AlbumType, (a: Album) => AlbumValue(a))
    ensures thing.TrackThing? ==> r == AsThing(ss.searchSong(thing.track), TrackType, (t: Track) => TrackValue(t))
    ensures thing.OtherThing? ==> r == ThingResult(NilValue, false, Some("unknown type " + thing.typeName))
  {
    match thing
    case ArtistThing(a) => AsThing(ss.searchArtist(a), ArtistType, (x: Artist) => ArtistValue(x))
    case AlbumThing(a) => AsThing(ss.searchAlbum(a), AlbumType, (x: Album) => AlbumValue(x))
    case TrackThing(t) => AsThing(ss.searchSong(t), TrackType, (x: Track) => TrackValue(x))
    case OtherThing(name) => ThingResult(NilValue, false, Some("unknown type " + name))
  }

  /** The result of `SearchThing` is a nil interface only for an unsupported type,
      and a found result carries an entity of the same kind as the query. */
  lemma SearchThingKeepsKind(ss: Service, thing: Thing)
    ensures var r := SearchThing(ss, thing);
      && (r.value == NilValue <==> thing.OtherThing?)
      && (r.found && r.error.None? ==> (thing.ArtistThing? <==> r.value.ArtistValue?))
      && (r.found && r.error.None? ==> (thing.AlbumThing? <==> r.value.AlbumValue?))
      && (r.found && r.error.None? ==> (thing.TrackThing? <==> r.value.TrackValue?))
  {
  }

  /** Two services that agree on the searched entity give the same result, whatever
      they would do with the other kinds. */
  lemma SearchThingOnlyAsksOne(ss1: Service, ss2: Service, thing: Thing)
    requires thing.ArtistThing? ==> ss1.searchArtist(thing.artist) == ss2.searchArtist(thing.artist)
    requires thing.AlbumThing? ==> ss1.searchAlbum(thing.album) == ss2.searchAlbum(thing.album)
    requires thing.TrackThing? ==> ss1.searchSong(thing.track) == ss2.searchSong(thing.track)
    ensures SearchThing(ss1, thing) == SearchThing(ss2, thing)
  {
  }

  // ---- the legacy package `streamingService` --------------------------------

  /** `Region`, a string type. */
  datatype Region = Region(text: string)

  /** `RegionToString`: `fmt.Sprintf("%s", r)`. */
  function RegionToString(r: Region): string {
    r.text
  }

  datatype LegacyThing =
    | LegacyArtist(name: string, artworkUrl: string, region: Region, url: string)
    | LegacyAlbum(name: string, artistName: string, artworkUrl: string, region: Region, url: string)
    | LegacySong(name: string, artistName: string, albumName: string, region: Region, url: string)
    | LegacyOther(typeName: string)

  /** A legacy thing as returned through the interface: a nil interface, a nil
      pointer of the named kind, or an entity. */
  datatype LegacyValue = LegacyNil | LegacyNilPointer(kind: string) | LegacyEntity(thing: LegacyThing)

  /** The legacy searches; each answers `(*T, error)`, with a nil `*T` as `None`. */
  datatype LegacyService = LegacyService(
    searchArtist: LegacyThing -> Result<Option<LegacyThing>>,
    searchAlbum: LegacyThing -> Result<Option<LegacyThing>>,
    searchSong: LegacyThing -> Result<Option<LegacyThing>>)

  function AsLegacy(r: Result<Option<LegacyThing>>, kind: string): (v: (LegacyValue, Option<string>))
    ensures r.Err? ==> v == (LegacyNilPointer(kind), Some(r.error))
    ensures r.Ok? && r.value.None? ==> v == (LegacyNilPointer(kind), None)
    ensures r.Ok? && r.value.Some? ==> v == (LegacyEntity(r.value.value), None)
  {
    match r
    case Err(e) => (LegacyNilPointer(kind), Some(e))
    case Ok(None) => (LegacyNilPointer(kind), None)
    case Ok(Some(t)) => (LegacyEntity(t), None)
  }

  /** `SearchThing` of the legacy package: the same switch over Artist, Album and
      Song, with `(Thing, error)` results. */
  function LegacySearchThing(ss: LegacyService, thing: LegacyThing): (r: (LegacyValue, Option<string>))
    ensures thing.LegacyArtist? ==> r == AsLegacy(ss.searchArtist(thing), "artist")
    ensures thing.LegacyAlbum? ==> r == AsLegacy(ss.searchAlbum(thing), "album")
    ensures thing.LegacySong? ==> r == AsLegacy(ss.searchSong(thing), "song")
    ensures thing.LegacyOther? ==> r == (LegacyNil, Some("unknown type " + thing.typeName))
  {
    match thing
    case LegacyArtist(_, _, _, _) => AsLegacy(ss.searchArtist(thing), "artist")
    case LegacyAlbum(_, _, _, _, _) => AsLegacy(ss.searchAlbum(thing), "album")
    case LegacySong(_, _, _, _, _) => AsLegacy(ss.searchSong(thing), "song")
    case LegacyOther(name) => (LegacyNil, Some("unknown type " + name))
  }

  /** Only an unsupported type gives a nil interface, and the legacy switch asks
      exactly the search of the entity's kind. */
  lemma LegacySearchThingShape(ss: LegacyService, thing: LegacyThing)
    ensures (LegacySearchThing(ss, thing).0 == LegacyNil) <==> thing.LegacyOther?
    ensures LegacySearchThing(ss, thing).1.None? ==> !thing.LegacyOther?
  {
  }

  /** `ForEachStreamingService`: calls `fn` on the services in order and stops at the
      first error. `visited` lists the services `fn` was called on. */
  method ForEachStreamingService<S>(services: seq<S>, fn: S -> Option<string>)
    returns (err: Option<string>, visited: seq<S>)
    ensures err.None? <==> forall i :: 0 <= i < |services| ==> fn(services[i]).None?
    ensures err.None? ==> visited == services
    ensures err.Some? ==> && 0 < |visited| <= |services| && visited == services[..|visited|]
                          && err == fn(visited[|visited| - 1])
                          && forall i :: 0 <= i < |visited| - 1 ==> fn(visited[i]).None?
  {
    visited := [];
    var i := 0;
    while i < |services|
      invariant 0 <= i <= |services|
      invariant visited == services[..i]
      invariant forall j :: 0 <= j < i ==> fn(services[j]).None?
    {
      var e := fn(services[i]);
      visited := visited + [services[i]];
      if e.Some? {
        return e, visited;
      }
      i := i + 1;
    }
    assert services[..i] == services;
    return None, visited;
  }
}

=== FILE: spotify_adapter.dfy ===
/** The Spotify adapter in its three copies: the current one (with playlists and a
    found flag), the middle one (nil means not found, no playlists) and the legacy
    one (https-only links, the source named "Spotify", a panicking token parse).
    Remote calls are functions passed in; a search reply without results stands
    for both a nil and an empty result page. */
module SpotifyAdapter {
  import opened Wrappers
  import opened Text
  import opened Catalog
  import opened SpotifyLink
  import opened SearchLoop

  /** The source key the current and middle copies stamp on their results. */
  const Key: string := "spotify"

  /** `Name()` of the legacy copy, which it uses as the source of its results. */
  const LegacyName: string := "Spotify"

  datatype Image = Image(url: string)
  datatype SimpleArtist = SimpleArtist(name: string)
  datatype FullArtist = FullArtist(name: string, images: seq<Image>, externalUrls: map<string, string>)
  datatype SimpleAlbum = SimpleAlbum(name: string, artists: seq<SimpleArtist>, images: seq<Image>,
                                     externalUrls: map<string, string>)
  datatype FullTrack = FullTrack(externalIds: map<string, string>, name: string, artists: seq<SimpleArtist>,
                                 album: SimpleAlbum, externalUrls: map<string, string>)
  datatype FullPlaylist = FullPlaylist(id: string, name: string, images: seq<Image>,
                                       externalUrls: map<string, string>)

  /** `imageURL`: the first image's URL, or "" when there is none. */
  function ImageUrl(images: seq<Image>): (r: string)
    ensures |images| > 0 ==> r == images[0].url
    ensures |images| == 0 ==> r == ""
  {
    if |images| > 0 then images[0].url else ""
  }

  /** The artists' names, one per artist, in order. */
  function NamesOf(artists: seq<SimpleArtist>): (r: seq<string>)
    ensures |r| == |artists|
    ensures forall i :: 0 <= i < |artists| ==> r[i] == artists[i].name
  {
    seq(|artists|, i requires 0 <= i < |artists| => artists[i].name)
  }

  /** `artistName`: the loop that appends each artist's name. */
  method ArtistName(artists: seq<SimpleArtist>) returns (names: seq<string>)
    ensures |names| == |artists|
    ensures forall i :: 0 <= i < |artists| ==> names[i] == artists[i].name
    ensures names == NamesOf(artists)
  {
    names := [];
    for i := 0 to |artists|
      invariant |names| == i
      invariant forall j :: 0 <= j < i ==> names[j] == artists[j].name
    {
      names := names + [artists[i].name];
    }
  }

  function ToArtist(a: FullArtist, source: string): Artist {
    Artist(a.name, ImageUrl(a.images), source, DefaultMarket, Lookup(a.externalUrls, "spotify"))
  }

  function ToAlbum(a: SimpleAlbum, source: string): Album {
    Album(a.name, NamesOf(a.artists), ImageUrl(a.images), source, DefaultMarket, Lookup(a.externalUrls, "spotify"))
  }

  function ToTrack(t: FullTrack, source: string): Track {
    Track(Lookup(t.externalIds, "isrc"), t.name, NamesOf(t.artists), t.album.name, ImageUrl(t.album.images),
          source, DefaultMarket, Lookup(t.externalUrls, "spotify"))
  }

  function ToPlaylist(p: FullPlaylist, source: string): Playlist {
    Playlist(p.id, p.name, ImageUrl(p.images), source, Lookup(p.externalUrls, "spotify"))
  }

  // ---- token response ------------------------------------------------------

  /** A decoded JSON value, as far as the token parse looks at it. */
  datatype Json = JString(s: string) | JOther

  predicate HasErrorText(resp: map<string, Json>) {
    "error" in resp && resp["error"].JString? && |resp["error"].s| > 0
  }

  predicate HasToken(resp: map<string, Json>) {
    "access_token" in resp && resp["access_token"].JString?
  }

  /** `GetAccessToken` of the current and middle copies, after decoding. */
  function AccessToken(resp: map<string, Json>): (r: Result<string>)
    ensures r.Ok? <==> !HasErrorText(resp) && HasToken(resp)
    ensures r.Ok? ==> r.value == resp["access_token"].s
    ensures HasErrorText(resp) ==> r == Err("failed to get access token: " + resp["error"].s)
  {
    if HasErrorText(resp) then Err("failed to get access token: " + resp["error"].s)
    else if HasToken(resp) then Ok(resp["access_token"].s)
    else Err("could not find access token in response")
  }

  /** The legacy copy asserts the token's type unchecked and never reads "error". */
  function AccessTokenLegacy(resp: map<string, Json>): (r: Exec<string>)
    ensures r.Done? <==> HasToken(resp)
    ensures r.Done? ==> r.value == resp["access_token"].s
  {
    if HasToken(resp) then Done(resp["access_token"].s)
    else Panic("interface conversion: interface {} is nil, not string")
  }

  /** Where the current copy succeeds the legacy one yields the same token; the
      legacy one also accepts responses that carry an error text. */
  lemma AccessTokenCopies(resp: map<string, Json>)
    ensures AccessToken(resp).Ok? ==> AccessTokenLegacy(resp) == Done(AccessToken(resp).value)
    ensures AccessTokenLegacy(resp).Panic? ==> AccessToken(resp).Err?
    ensures HasErrorText(resp) && HasToken(resp) ==> AccessToken(resp).Err? && AccessTokenLegacy(resp).Done?
  {
  }

  // ---- searches ------------------------------------------------------------

  function ArtistQuery(name: string): string {
    "artist:\"" + name + "\""
  }

  function AlbumQuery(artist: string, album: string): string {
    "artist:\"" + artist + "\" album:\"" + album + "\""
  }

  function IsrcQuery(isrc: string): string {
    "isrc:\"" + isrc + "\""
  }

  /** The query of one iteration of the track search: by ISRC when there is one,
      otherwise by artist, album and track name. */
  function TrackQuery(isrc: string, artist: string, album: string, name: string): (q: string)
    ensures |isrc| > 0 ==> q == IsrcQuery(isrc)
    ensures |isrc| == 0 ==> q == "artist:\"" + artist + "\" album:\"" + album + "\" track:\"" + name + "\""
  {
    if |isrc| > 0 then IsrcQuery(isrc)
    else "artist:\"" + artist + "\" album:\"" + album + "\" track:\"" + name + "\""
  }

  /** With an ISRC the query does not depend on the artist, so every iteration of
      the track search asks the same question. */
  lemma TrackQueryIgnoresArtist(isrc: string, a: string, b: string, album: string, name: string)
    requires |isrc| > 0
    ensures TrackQuery(isrc, a, album, name) == TrackQuery(isrc, b, album, name)
  {
  }

  /** A search request: the query text and the market it is restricted to (none for
      the bare ISRC lookup). */
  type Searcher<T> = (string, Option<string>) -> Result<seq<T>>

  /** `SearchArtist`: the first result of the artist query, in the artist's market. */
  function SearchArtist(artist: Artist, source: string, search: Searcher<FullArtist>): (r: Search<Artist>)
    ensures search(ArtistQuery(artist.name), Some(artist.market)).Err? <==> r.Failed?
    ensures r.Failed? ==> r.error == search(ArtistQuery(artist.name), Some(artist.market)).error
    ensures r.NotFound? <==> search(ArtistQuery(artist.name), Some(artist.market)) == Ok([])
    ensures r.Found? ==> r.value == ToArtist(search(ArtistQuery(artist.name), Some(artist.market)).value[0], source)
  {
    match search(ArtistQuery(artist.name), Some(artist.market))
    case Err(e) => Failed(e)
    case Ok(hits) => if |hits| == 0 then NotFound else Found(ToArtist(hits[0], source))
  }

  /** `SearchAlbum`: one query per artist name, the last name with hits wins. */
  method SearchAlbum(album: Album, source: string, search: Searcher<SimpleAlbum>) returns (r: Search<Album>)
    ensures |album.artistNames| == 0 ==> r.NotFound?
    ensures r.Failed? <==> exists i :: 0 <= i < |album.artistNames|
                              && search(AlbumQuery(album.artistNames[i], album.name), Some(album.market)).Err?
    ensures r.Failed? ==> exists i :: (
      && 0 <= i < |album.artistNames|
      && search(AlbumQuery(album.artistNames[i], album.name), Some(album.market)).Err?
      && r.error == search(AlbumQuery(album.artistNames[i], album.name), Some(album.market)).error
      && forall j :: 0 <= j < i ==> search(AlbumQuery(album.artistNames[j], album.name), Some(album.market)).Ok?)
    ensures r.Found? ==> exists i :: (
      && 0 <= i < |album.artistNames|
      && Hit(search(AlbumQuery(album.artistNames[i], album.name), Some(album.market)))
      && r.value == ToAlbum(search(AlbumQuery(album.artistNames[i], album.name), Some(album.market)).value[0], source)
      && forall j :: i < j < |album.artistNames| ==>
           !Hit(search(AlbumQuery(album.artistNames[j], album.name), Some(album.market))))
    ensures r.NotFound? <==> forall i :: 0 <= i < |album.artistNames| ==>
      var reply := search(AlbumQuery(album.artistNames[i], album.name), Some(album.market));
      reply.Ok? && !Hit(reply)
  {
    var perName := (name: string) => search(AlbumQuery(name, album.name), Some(album.market));
    var hit := LastHit(album.artistNames, perName);
    r := MapSearch(hit, (a: SimpleAlbum) => ToAlbum(a, source));
  }

  /** `SearchTrack` / `SearchSong`: one query per artist name, by ISRC when the track
      has one; an empty artist list searches nothing, even with an ISRC. */
  method SearchTrack(track: Track, source: string, search: Searcher<FullTrack>) returns (r: Search<Track>)
    ensures |track.artistNames| == 0 ==> r.NotFound?
    ensures r.Failed? <==> exists i :: (
      && 0 <= i < |track.artistNames|
      && search(TrackQuery(track.isrc, track.artistNames[i], track.albumName, track.name), Some(track.market)).Err?)
    ensures r.Failed? ==> exists i :: (
      && 0 <= i < |track.artistNames|
      && search(TrackQuery(track.isrc, track.artistNames[i], track.albumName, track.name), Some(track.market)).Err?
      && r.error == search(TrackQuery(track.isrc, track.artistNames[i], track.albumName, track.name),
                           Some(track.market)).error
      && forall j :: 0 <= j < i ==>
           search(TrackQuery(track.isrc, track.artistNames[j], track.albumName, track.name), Some(track.market)).Ok?)
    ensures r.Found? ==> exists i :: (
      && 0 <= i < |track.artistNames|
      && Hit(search(TrackQuery(track.isrc, track.artistNames[i], track.albumName, track.name), Some(track.market)))
      && r.value == ToTrack(search(TrackQuery(track.isrc, track.artistNames[i], track.albumName, track.name),
                                   Some(track.market)).value[0], source)
      && forall j :: i < j < |track.artistNames| ==>
           !Hit(search(TrackQuery(track.isrc, track.artistNames[j], track.albumName, track.name), Some(track.market))))
    ensures r.NotFound? <==> forall i :: 0 <= i < |track.artistNames| ==>
      var reply := search(TrackQuery(track.isrc, track.artistNames[i], track.albumName, track.name), Some(track.market));
      reply.Ok? && !Hit(reply)
    ensures |track.isrc| > 0 && |track.artistNames| > 0 ==>
      var reply := search(IsrcQuery(track.isrc), Some(track.market));
      && (r.Failed? <==> reply.Err?)
      && (r.Failed? ==> r.error == reply.error)
      && (r.Found? <==> Hit(reply))
      && (r.Found? ==> r.value == ToTrack(reply.value[0], source))
  {
    var perName := (name: string) =>
      search(TrackQuery(track.isrc, name, track.albumName, track.name), Some(track.market));
    var hit := LastHit(track.artistNames, perName);
    r := MapSearch(hit, (t: FullTrack) => ToTrack(t, source));
    if |track.isrc| > 0 {
      forall i | 0 <= i < |track.artistNames|
        ensures perName(track.artistNames[i]) == search(IsrcQuery(track.isrc), Some(track.market))
      {
        assert TrackQuery(track.isrc, track.artistNames[i], track.albumName, track.name) == IsrcQuery(track.isrc);
      }
      if |track.artistNames| > 0 {
        var reply := search(IsrcQuery(track.isrc), Some(track.market));
        assert perName(track.artistNames[0]) == reply;
        if reply.Err? {
          assert hit.Failed?;
        } else if Hit(reply) {
          assert !hit.NotFound?;
          assert hit.Found?;
        } else {
          assert hit.NotFound?;
        }
      }
    }
  }

  /** `GetTrackByIsrc` of the current copy: the first result of the ISRC query,
      without a market. */
  function GetTrackByIsrc(isrc: string, search: Searcher<FullTrack>): (r: Search<Track>)
    ensures r.Failed? <==> search(IsrcQuery(isrc), None).Err?
    ensures r.Failed? ==> r.error == search(IsrcQuery(isrc), None).error
    ensures r.Found? <==> Hit(search(IsrcQuery(isrc), None))
    ensures r.Found? ==> r.value == ToTrack(search(IsrcQuery(isrc), None).value[0], Key)
    ensures r.Found? ==> r.value.source == Key && r.value.market == DefaultMarket
  {
    match search(IsrcQuery(isrc), None)
    case Err(e) => Failed(e)
    case Ok(hits) => if |hits| == 0 then NotFound else Found(ToTrack(hits[0], Key))
  }

  // ---- playlists -----------------------------------------------------------

  /** One page of playlist tracks and the playlist's total. */
  datatype TrackPage = TrackPage(tracks: seq<FullTrack>, total: int)

  /** How paging ends: every track, a failed request, or the request bound reached
      (the source has no bound and loops while the total is never reached). */
  datatype Paging = Complete(tracks: seq<FullTrack>) | PageFailed(error: string) | OutOfFuel

  /** The tracks of the pages at the given offsets, concatenated in request order
      (a failed request contributes nothing). */
  function Gathered(fetch: nat -> Result<TrackPage>, offsets: seq<nat>): seq<FullTrack>
    decreases |offsets|
  {
    if |offsets| == 0 then []
    else
      var last := fetch(offsets[|offsets| - 1]);
      Gathered(fetch, offsets[..|offsets| - 1]) + (if last.Ok? then last.value.tracks else [])
  }

  /** Requests that each continued the loop: every one succeeded, was made at the
      number of tracks collected before it, and left the count short of the total. */
  predicate Continued(fetch: nat -> Result<TrackPage>, offsets: seq<nat>)
    decreases |offsets|
  {
    |offsets| > 0 ==>
      var init := offsets[..|offsets| - 1];
      var o := offsets[|offsets| - 1];
      && Continued(fetch, init)
      && o == |Gathered(fetch, init)|
      && fetch(o).Ok?
      && |Gathered(fetch, offsets)| != fetch(o).value.total
  }

  /** The paging loop of `GetPlaylistTracksById`: each request's offset is the
      number of tracks collected before it, and the loop stops once the collected
      count equals the total the last page reported. */
  method PlaylistTracks(fetch: nat -> Result<TrackPage>, fuel: nat)
    returns (r: Paging, offsets: seq<nat>)
    ensures |offsets| <= fuel
    ensures r.OutOfFuel? ==> |offsets| == fuel && Continued(fetch, offsets)
    ensures !r.OutOfFuel? ==>
      && |offsets| > 0
      && var init := offsets[..|offsets| - 1];
         var o := offsets[|offsets| - 1];
         && Continued(fetch, init)
         && o == |Gathered(fetch, init)|
         && (r.PageFailed? <==> fetch(o).Err?)
         && (r.PageFailed? ==> r.error == fetch(o).error)
         && (r.Complete? ==> r.tracks == Gathered(fetch, offsets) && |r.tracks| == fetch(o).value.total)
  {
    var collected: seq<FullTrack> := [];
    offsets := [];
    var offset := 0;
    while |offsets| < fuel
      invariant |offsets| <= fuel
      invariant Continued(fetch, offsets)
      invariant collected == Gathered(fetch, offsets)
      invariant offset == |collected|
      decreases fuel - |offsets|
    {
      var page := fetch(offset);
      var before := offsets;
      offsets := offsets + [offset];
      assert offsets[..|offsets| - 1] == before;
      if page.Err? {
        return PageFailed(page.error), offsets;
      }
      collected := collected + page.value.tracks;
      if |collected| == page.value.total {
        return Complete(collected), offsets;
      }
      offset := |collected|;
    }
    r := OutOfFuel;
  }

  /** `GetPlaylistTracksById`: every collected track converted, in order; `None`
      when the request bound ran out. */
  method GetPlaylistTracks(fetch: nat -> Result<TrackPage>, fuel: nat)
    returns (r: Option<Result<seq<Track>>>, offsets: seq<nat>)
    ensures r.None? ==> Continued(fetch, offsets) && |offsets| == fuel
    ensures r.Some? ==> |offsets| > 0 && Continued(fetch, offsets[..|offsets| - 1])
    ensures r.Some? && r.value.Err? ==> fetch(offsets[|offsets| - 1]) == Err(r.value.error)
    ensures r.Some? && r.value.Ok? ==>
      && |r.value.value| == |Gathered(fetch, offsets)|
      && fetch(offsets[|offsets| - 1]).Ok?
      && |r.value.value| == fetch(offsets[|offsets| - 1]).value.total
      && forall i :: 0 <= i < |r.value.value| ==> r.value.value[i] == ToTrack(Gathered(fetch, offsets)[i], Key)
  {
    var paging;
    paging, offsets := PlaylistTracks(fetch, fuel);
    match paging
    case PageFailed(e) =>
      r := Some(Err(e));
    case OutOfFuel =>
      r := None;
    case Complete(tracks) =>
      r := Some(Ok(seq(|tracks|, i requires 0 <= i < |tracks| => ToTrack(tracks[i], Key))));
  }

  // ---- links ---------------------------------------------------------------

  /** `findStringSubmatchMap`: the named captures of the leftmost match. With no
      match the capture slice is nil and indexing it panics. */
  function SubmatchMap(link: string, mode: SchemeMode): (r: Exec<map<string, string>>)
    ensures r.Panic? <==> FindMatch(link, mode).None?
    ensures r.Done? ==> r.value.Keys == {"type", "id"}
                        && r.value["type"] == FindMatch(link, mode).value.kind
                        && r.value["id"] == FindMatch(link, mode).value.id
  {
    match FindMatch(link, mode)
    case None => Panic("index out of range")
    case Some(m) => Done(map["type" := m.kind, "id" := m.id])
  }

  /** `LinkBelongsToService`: `MatchString`, a match anywhere in the link. */
  function LinkBelongsToService(link: string, mode: SchemeMode): (b: bool)
    ensures b <==> exists p :: 0 <= p <= |link| && MatchAt(link, p, mode).Some?
  {
    FindMatch(link, mode).Some?
  }

  /** `CleanLink`: the leftmost match, or the link unchanged. */
  function CleanLink(link: string, mode: SchemeMode): (r: string)
    ensures FindMatch(link, mode).None? ==> r == link
    ensures FindMatch(link, mode).Some? ==>
      var m := FindMatch(link, mode).value;
      r == link[m.start..m.end] && r == ShareLink(m.scheme, m.kind, m.id)
  {
    match FindMatch(link, mode)
    case None => link
    case Some(m) => link[m.start..m.end]
  }

  /** A cleaned link is matched whole, with the captures of the original. */
  lemma CleanLinkMatch(link: string, mode: SchemeMode)
    requires LinkBelongsToService(link, mode)
    ensures var m := FindMatch(link, mode).value;
      FindMatch(CleanLink(link, mode), mode)
        == Some(LinkMatch(0, |CleanLink(link, mode)|, m.scheme, m.kind, m.id))
  {
    var m := FindMatch(link, mode).value;
    ShareLinkRoundTrip(mode, m.scheme, m.kind, m.id, "");
    assert ShareLink(m.scheme, m.kind, m.id) + "" == ShareLink(m.scheme, m.kind, m.id);
  }

  /** Cleaning twice is cleaning once. */
  lemma CleanLinkIdempotent(link: string, mode: SchemeMode)
    ensures CleanLink(CleanLink(link, mode), mode) == CleanLink(link, mode)
  {
    if LinkBelongsToService(link, mode) {
      CleanLinkMatch(link, mode);
      var c := CleanLink(link, mode);
      assert c[0..|c|] == c;
    }
  }

  /** Cleaning keeps the link claimed and keeps its `type` and `id` captures. */
  lemma CleanLinkKeepsCaptures(link: string, mode: SchemeMode)
    ensures LinkBelongsToService(CleanLink(link, mode), mode) == LinkBelongsToService(link, mode)
    ensures SubmatchMap(CleanLink(link, mode), mode) == SubmatchMap(link, mode)
  {
    if LinkBelongsToService(link, mode) {
      CleanLinkMatch(link, mode);
    }
  }

  /** A legacy match always starts with the literal "https://open.spotify.com/". */
  lemma LegacyNeedsHttps(link: string)
    requires LinkBelongsToService(link, HttpsOnly)
    ensures var m := FindMatch(link, HttpsOnly).value;
      link[m.start..m.end][..|"https://" + Host|] == "https://" + Host
  {
    var m := FindMatch(link, HttpsOnly).value;
    assert m.scheme == "https://";
  }

  /** A scheme-less share link with a query, "open.spotify.com/track/4cOd?si=1",
      is claimed by the current copy, with its captures. */
  lemma SchemelessLinkClaimed()
    ensures FindMatch(ShareLink("", "track", "4cOd") + "?si=1", OptionalScheme)
         == Some(LinkMatch(0, 27, "", "track", "4cOd"))
  {
    var kind := "track";
    var id := "4cOd";
    assert AllLetters(kind) by {
      assert forall i :: 0 <= i < |kind| ==> 'a' <= kind[i] <= 'z';
    }
    assert AllAlnum(id) by {
      forall i | 0 <= i < |id|
        ensures IsAlnum(id[i])
      {
      }
    }
    ShareLinkRoundTrip(OptionalScheme, "", kind, id, "?si=1");
  }

  // ---- dispatch on a link --------------------------------------------------

  /** The single-entity lookups `GetArtist`, `GetAlbum`, `GetTrack`, `GetPlaylist`. */
  datatype Api = Api(artist: string -> Result<FullArtist>, album: string -> Result<SimpleAlbum>,
                     track: string -> Result<FullTrack>, playlist: string -> Result<FullPlaylist>)

  /** The `switch typ` of the current `GetFromLink`. An artist lookup error comes
      back with the value `false` rather than nil; the other errors with nil. */
  function Dispatch(typ: string, id: string, api: Api): (r: LinkResult)
    ensures typ == "artist" ==> r == (match api.artist(id)
              case Err(e) => LinkResult(UnknownType, FalseValue, Some(e))
              case Ok(a) => LinkResult(ArtistType, ArtistValue(ToArtist(a, Key)), None))
    ensures typ == "album" ==> r == (match api.album(id)
              case Err(e) => LinkResult(UnknownType, NilValue, Some(e))
              case Ok(a) => LinkResult(AlbumType, AlbumValue(ToAlbum(a, Key)), None))
    ensures typ == "track" ==> r == (match api.track(id)
              case Err(e) => LinkResult(UnknownType, NilValue, Some(e))
              case Ok(t) => LinkResult(TrackType, TrackValue(ToTrack(t, Key)), None))
    ensures typ == "playlist" ==> r == (match api.playlist(id)
              case Err(e) => LinkResult(UnknownType, NilValue, Some(e))
              case Ok(p) => LinkResult(PlaylistType, PlaylistValue(ToPlaylist(p, Key)), None))
    ensures typ !in {"artist", "album", "track", "playlist"} ==>
              r == LinkResult(UnknownType, NilValue, Some("unknown type " + typ))
  {
    if typ == "artist" then
      match api.artist(id)
      case Err(e) => LinkResult(UnknownType, FalseValue, Some(e))
      case Ok(a) => LinkResult(ArtistType, ArtistValue(ToArtist(a, Key)), None)
    else if typ == "album" then
      match api.album(id)
      case Err(e) => LinkResult(UnknownType, NilValue, Some(e))
      case Ok(a) => LinkResult(AlbumType, AlbumValue(ToAlbum(a, Key)), None)
    else if typ == "track" then
      match api.track(id)
      case Err(e) => LinkResult(UnknownType, NilValue, Some(e))
      case Ok(t) => LinkResult(TrackType, TrackValue(ToTrack(t, Key)), None)
    else if typ == "playlist" then
      match api.playlist(id)
      case Err(e) => LinkResult(UnknownType, NilValue, Some(e))
      case Ok(p) => LinkResult(PlaylistType, PlaylistValue(ToPlaylist(p, Key)), None)
    else LinkResult(UnknownType, NilValue, Some("unknown type " + typ))
  }

  /** `GetFromLink` of the current copy: the captures of the leftmost match go to
      the dispatch; a link without a match panics. */
  function GetFromLink(link: string, api: Api): (r: Exec<LinkResult>)
    ensures r.Panic? <==> !LinkBelongsToService(link, OptionalScheme)
    ensures r.Done? ==> r.value == Dispatch(FindMatch(link, OptionalScheme).value.kind,
                                            FindMatch(link, OptionalScheme).value.id, api)
  {
    match SubmatchMap(link, OptionalScheme)
    case Panic(reason) => Panic(reason)
    case Done(matches) => Done(Dispatch(Lookup(matches, "type"), Lookup(matches, "id"), api))
  }

  /** The type tag of a successful lookup always names the variant of the value. */
  predicate TagMatchesValue(r: LinkResult) {
    && (r.kind == ArtistType <==> r.value.ArtistValue?)
    && (r.kind == AlbumType <==> r.value.AlbumValue?)
    && (r.kind == TrackType <==> r.value.TrackValue?)
    && (r.kind == PlaylistType <==> r.value.PlaylistValue?)
  }

  /** Every result is either an error with UnknownType and no entity, or a tag that
      names the entity's variant. */
  lemma DispatchShape(typ: string, id: string, api: Api)
    ensures var r := Dispatch(typ, id, api);
      && (r.error.Some? <==> r.kind == UnknownType)
      && (r.error.Some? ==> r.value in {NilValue, FalseValue})
      && (r.error.None? ==> TagMatchesValue(r))
      && (r.value == FalseValue ==> typ == "artist")
  {
  }

  /** A cleaned link gives the same result as the link it came from. */
  lemma GetFromLinkClean(link: string, api: Api)
    ensures GetFromLink(CleanLink(link, OptionalScheme), api) == GetFromLink(link, api)
  {
    CleanLinkKeepsCaptures(link, OptionalScheme);
  }

  /** The `switch typ` of the middle and legacy `SearchFromLink`: artist, album and
      track, nothing else — not even playlists. */
  function DispatchOlder(typ: string, id: string, source: string, api: Api): (r: Result<Value>)
    ensures r.Ok? ==> typ in {"artist", "album", "track"}
    ensures typ !in {"artist", "album", "track"} ==> r == Err("unknown type " + typ)
    ensures typ == "artist" ==> (r.Ok? <==> api.artist(id).Ok?)
    ensures typ == "album" ==> (r.Ok? <==> api.album(id).Ok?)
    ensures typ == "track" ==> (r.Ok? <==> api.track(id).Ok?)
  {
    if typ == "artist" then
      match api.artist(id)
      case Err(e) => Err(e)
      case Ok(a) => Ok(ArtistValue(ToArtist(a, source)))
    else if typ == "album" then
      match api.album(id)
      case Err(e) => Err(e)
      case Ok(a) => Ok(AlbumValue(ToAlbum(a, source)))
    else if typ == "track" then
      match api.track(id)
      case Err(e) => Err(e)
      case Ok(t) => Ok(TrackValue(ToTrack(t, source)))
    else Err("unknown type " + typ)
  }

  /** `SearchFromLink` of the middle (optional scheme) and legacy (https only) copies. */
  function SearchFromLink(link: string, mode: SchemeMode, source: string, api: Api): (r: Exec<Result<Value>>)
    ensures r.Panic? <==> !LinkBelongsToService(link, mode)
    ensures r.Done? ==> r.value == DispatchOlder(FindMatch(link, mode).value.kind,
                                                 FindMatch(link, mode).value.id, source, api)
  {
    match SubmatchMap(link, mode)
    case Panic(reason) => Panic(reason)
    case Done(matches) => Done(DispatchOlder(Lookup(matches, "type"), Lookup(matches, "id"), source, api))
  }

  /** The older dispatch agrees with the current one on artists, albums and tracks,
      and reports playlists as an unknown type. */
  lemma DispatchOlderAgrees(typ: string, id: string, api: Api)
    ensures var cur := Dispatch(typ, id, api);
            var older := DispatchOlder(typ, id, Key, api);
      && (cur.error.None? && cur.kind != PlaylistType ==> older == Ok(cur.value))
      && (cur.error.Some? && typ != "playlist" ==> older == Err(cur.error.value))
      && (typ == "playlist" ==> older == Err("unknown type playlist"))
  {
  }

  /** On the same link, the middle copy returns what the current one returns, except
      for playlists. */
  lemma MiddleAgreesWithCurrent(link: string, api: Api)
    requires LinkBelongsToService(link, OptionalScheme)
    ensures var cur := GetFromLink(link, api).value;
            var mid := SearchFromLink(link, OptionalScheme, Key, api).value;
      cur.error.None? && cur.kind != PlaylistType ==> mid == Ok(cur.value)
  {
    var m := FindMatch(link, OptionalScheme).value;
    DispatchOlderAgrees(m.kind, m.id, api);
  }

  /** The legacy copy claims a link only if the current one does. */
  lemma LegacyClaimsFewer(link: string)
    ensures LinkBelongsToService(link, HttpsOnly) ==> LinkBelongsToService(link, OptionalScheme)
  {
    if LinkBelongsToService(link, HttpsOnly) {
      var m := FindMatch(link, HttpsOnly).value;
      assert MatchAt(link, m.start, HttpsOnly).Some?;
      LegacyMatchAlsoOptional(link, m.start);
    }
  }

  /** Wherever the https-only pattern matches, the optional-scheme pattern does too. */
  lemma LegacyMatchAlsoOptional(s: string, p: nat)
    requires p <= |s|
    requires MatchAt(s, p, HttpsOnly).Some?
    ensures MatchAt(s, p, OptionalScheme).Some?
  {
  }
}

=== FILE: spotify_link.dfy ===
/** The Spotify share-link pattern, written out as a recogniser with RE2's
    leftmost-first semantics:

      optional or https-only scheme, "open.spotify.com/", a run of letters (the
      `type` group), "/", a run of letters and digits (the `id` group).

    Both runs are greedy; the letter run has to end just before the "/", so the
    greedy choice is the only one that can succeed. */
module SpotifyLink {
  import opened Wrappers
  import opened Text

  /** The current and middle adapters accept `(https?:\/\/)?`; the legacy one
      requires the literal prefix "https://". */
  datatype SchemeMode = OptionalScheme | HttpsOnly

  const Host: string := "open.spotify.com/"

  predicate ValidScheme(mode: SchemeMode, scheme: string) {
    match mode
    case OptionalScheme => scheme == "" || scheme == "http://" || scheme == "https://"
    case HttpsOnly => scheme == "https://"
  }

  /** The text of a share link with the given parts. */
  function ShareLink(scheme: string, kind: string, id: string): string {
    scheme + Host + kind + "/" + id
  }

  /** A match of the pattern: its span and the scheme, `type` and `id` captures. */
  datatype LinkMatch = LinkMatch(start: nat, end: nat, scheme: string, kind: string, id: string)

  /** What a match means: the span spells a share link with well-formed parts, and
      the id run is maximal. */
  predicate WellFormedMatch(s: string, mode: SchemeMode, m: LinkMatch) {
    && m.start <= m.end <= |s|
    && s[m.start..m.end] == ShareLink(m.scheme, m.kind, m.id)
    && ValidScheme(mode, m.scheme)
    && |m.kind| > 0 && AllLetters(m.kind)
    && |m.id| > 0 && AllAlnum(m.id)
    && (m.end == |s| || !IsAlnum(s[m.end]))
  }

  /** Everything after the scheme, starting at `q`: the host, the type, "/", the id. */
  function MatchRest(s: string, p: nat, q: nat): (r: Option<LinkMatch>)
    requires p <= q <= |s|
    ensures r.Some? ==> r.value.start == p && r.value.scheme == s[p..q] && r.value.end <= |s|
  {
    if !StartsWith(s[q..], Host) then None
    else
      var t := q + |Host|;
      var l := LetterRun(s, t);
      if l == 0 || t + l >= |s| || s[t + l] != '/' then None
      else
        var u := t + l + 1;
        var a := AlnumRun(s, u);
        if a == 0 then None
        else Some(LinkMatch(p, u + a, s[p..q], s[t..t + l], s[u..u + a]))
  }

  /** A match of the rest is the letter run after the host, "/", and the id run. */
  lemma MatchRestShape(s: string, p: nat, q: nat) returns (t: nat, l: nat, u: nat, a: nat)
    requires p <= q <= |s|
    requires MatchRest(s, p, q).Some?
    ensures t == q + |Host| && l == LetterRun(s, t) > 0 && u == t + l + 1 && a == AlnumRun(s, u) > 0
    ensures u + a <= |s| && s[q..t] == Host && s[t + l] == '/'
    ensures MatchRest(s, p, q).value == LinkMatch(p, u + a, s[p..q], s[t..t + l], s[u..u + a])
  {
    t := q + |Host|;
    l := LetterRun(s, t);
    u := t + l + 1;
    a := AlnumRun(s, u);
    var r := MatchRest(s, p, q);
    assert StartsWith(s[q..], Host);
    assert s[q..t] == Host by {
      assert s[q..][..|Host|] == s[q..t];
    }
    assert l > 0 && a > 0;
    assert r.value.end == u + a;
    assert r.value.kind == s[t..t + l] && r.value.id == s[u..u + a];
  }

  /** The captures of a match of the rest are a letter run and a maximal id run. */
  lemma MatchRestCaptures(s: string, p: nat, q: nat)
    requires p <= q <= |s|
    ensures var r := MatchRest(s, p, q);
      r.Some? ==> && |r.value.kind| > 0 && AllLetters(r.value.kind)
                  && |r.value.id| > 0 && AllAlnum(r.value.id)
                  && (r.value.end == |s| || !IsAlnum(s[r.value.end]))
  {
    if MatchRest(s, p, q).Some? {
      var t, l, u, a := MatchRestShape(s, p, q);
      var kind := s[t..t + l];
      var id := s[u..u + a];
      LetterRunSound(s, t);
      AlnumRunSound(s, u);
      forall i | 0 <= i < l
        ensures IsLetter(kind[i])
      {
        assert kind[i] == s[t + i];
      }
      forall i | 0 <= i < a
        ensures IsAlnum(id[i])
      {
        assert id[i] == s[u + i];
      }
    }
  }

  /** The span of a match of the rest spells the share link of its captures. */
  lemma MatchRestSpells(s: string, p: nat, q: nat)
    requires p <= q <= |s|
    ensures var r := MatchRest(s, p, q);
      r.Some? ==> s[r.value.start..r.value.end] == ShareLink(r.value.scheme, r.value.kind, r.value.id)
  {
    if MatchRest(s, p, q).Some? {
      var t, l, u, a := MatchRestShape(s, p, q);
      SpellOutMatch(s, MatchRest(s, p, q).value, q);
    }
  }

  /** A match whose captures lie in the string where a match puts them spells
      the share link of its captures. */
  lemma SpellOutMatch(s: string, m: LinkMatch, q: nat)
    requires m.start <= q && q + |Host| + |m.kind| + 1 + |m.id| == m.end <= |s|
    requires m.scheme == s[m.start..q] && s[q..q + |Host|] == Host
    requires m.kind == s[q + |Host|..q + |Host| + |m.kind|] && s[q + |Host| + |m.kind|] == '/'
    requires m.id == s[q + |Host| + |m.kind| + 1..m.end]
    ensures s[m.start..m.end] == ShareLink(m.scheme, m.kind, m.id)
  {
    SpellOut(s, m.start, q, |m.kind|, |m.id|);
  }

  /** Cutting a span at the scheme, host, type and "/" boundaries. */
  lemma SpellOut(s: string, p: nat, q: nat, l: nat, a: nat)
    requires p <= q && q + |Host| + l + 1 + a <= |s|
    requires s[q..q + |Host|] == Host && s[q + |Host| + l] == '/'
    ensures s[p..q + |Host| + l + 1 + a]
         == ShareLink(s[p..q], s[q + |Host|..q + |Host| + l], s[q + |Host| + l + 1..q + |Host| + l + 1 + a])
  {
    var t := q + |Host|;
    var u := t + l + 1;
    var e := u + a;
    SliceConcat(s, p, u, e);
    SliceConcat(s, p, t + l, u);
    SliceConcat(s, p, t, t + l);
    SliceConcat(s, p, q, t);
    assert s[t + l..u] == "/";
  }

  lemma MatchRestSound(s: string, p: nat, q: nat)
    requires p <= q <= |s|
    ensures var r := MatchRest(s, p, q);
      r.Some? ==> && s[r.value.start..r.value.end] == ShareLink(r.value.scheme, r.value.kind, r.value.id)
                  && |r.value.kind| > 0 && AllLetters(r.value.kind)
                  && |r.value.id| > 0 && AllAlnum(r.value.id)
                  && (r.value.end == |s| || !IsAlnum(s[r.value.end]))
  {
    MatchRestCaptures(s, p, q);
    MatchRestSpells(s, p, q);
  }

  lemma MatchRestSoundAt(s: string, p: nat)
    requires p <= |s|
    ensures forall q :: p <= q <= |s| && q - p in {0, 7, 8} ==> var r := MatchRest(s, p, q);
      r.Some? ==> && s[r.value.start..r.value.end] == ShareLink(r.value.scheme, r.value.kind, r.value.id)
                  && |r.value.kind| > 0 && AllLetters(r.value.kind)
                  && |r.value.id| > 0 && AllAlnum(r.value.id)
                  && (r.value.end == |s| || !IsAlnum(s[r.value.end]))
  {
    forall q | p <= q <= |s| && q - p in {0, 7, 8} {
      MatchRestSound(s, p, q);
    }
  }

  /** A match starting exactly at `p`. The optional scheme group is greedy, so the
      scheme is taken when the rest matches after it. */
  function MatchAt(s: string, p: nat, mode: SchemeMode): (r: Option<LinkMatch>)
    requires p <= |s|
    ensures r.Some? ==> r.value.start == p && WellFormedMatch(s, mode, r.value)
  {
    MatchRestSoundAt(s, p);
    var https := StartsWith(s[p..], "https://");
    var http := StartsWith(s[p..], "http://");
    match mode
    case HttpsOnly =>
      if https then MatchRest(s, p, p + 8) else None
    case OptionalScheme =>
      if https && MatchRest(s, p, p + 8).Some? then MatchRest(s, p, p + 8)
      else if http && MatchRest(s, p, p + 7).Some? then MatchRest(s, p, p + 7)
      else MatchRest(s, p, p)
  }

  /** Leftmost match at or after `from`. */
  function FindFrom(s: string, from: nat, mode: SchemeMode): (r: Option<LinkMatch>)
    requires from <= |s| + 1
    ensures r.Some? ==> from <= r.value.start <= |s| && MatchAt(s, r.value.start, mode) == r
    ensures r.Some? ==> forall p :: from <= p < r.value.start ==> MatchAt(s, p, mode).None?
    ensures r.None? ==> forall p :: from <= p <= |s| ==> MatchAt(s, p, mode).None?
    decreases |s| + 1 - from
  {
    if from > |s| then None
    else if MatchAt(s, from, mode).Some? then MatchAt(s, from, mode)
    else FindFrom(s, from + 1, mode)
  }

  /** `FindStringIndex` / `FindStringSubmatch`: the leftmost match of the pattern. */
  function FindMatch(s: string, mode: SchemeMode): (r: Option<LinkMatch>)
    ensures r.Some? ==> WellFormedMatch(s, mode, r.value)
    ensures r.Some? ==> MatchAt(s, r.value.start, mode) == r
    ensures r.Some? ==> forall p :: 0 <= p < r.value.start ==> MatchAt(s, p, mode).None?
    ensures r.None? ==> forall p :: 0 <= p <= |s| ==> MatchAt(s, p, mode).None?
  {
    FindFrom(s, 0, mode)
  }

  lemma MatchRestUnfold(s: string, q: nat, l: nat, a: nat)
    requires q + |Host| + l + 1 <= |s|
    requires StartsWith(s[q..], Host)
    requires LetterRun(s, q + |Host|) == l > 0
    requires s[q + |Host| + l] == '/'
    requires AlnumRun(s, q + |Host| + l + 1) == a > 0
    ensures MatchRest(s, 0, q) == Some(LinkMatch(0, q + |Host| + l + 1 + a, s[0..q],
                                                 s[q + |Host|..q + |Host| + l],
                                                 s[q + |Host| + l + 1..q + |Host| + l + 1 + a]))
  {
  }

  /** A maximal run written out in the string is what `LetterRun` measures. */
  lemma LetterRunOf(s: string, t: nat, kind: string)
    requires AllLetters(kind) && t + |kind| <= |s| && s[t..t + |kind|] == kind
    requires t + |kind| == |s| || !IsLetter(s[t + |kind|])
    ensures LetterRun(s, t) == |kind|
  {
    assert forall k :: t <= k < t + |kind| ==> s[k] == kind[k - t];
    LetterRunExact(s, t, |kind|);
  }

  lemma AlnumRunOf(s: string, u: nat, id: string)
    requires AllAlnum(id) && u + |id| <= |s| && s[u..u + |id|] == id
    requires u + |id| == |s| || !IsAlnum(s[u + |id|])
    ensures AlnumRun(s, u) == |id|
  {
    assert forall k :: u <= k < u + |id| ==> s[k] == id[k - u];
    AlnumRunExact(s, u, |id|);
  }

  /** The part after the scheme is recognised with exactly its captures. */
  lemma MatchRestExact(s: string, q: nat, kind: string, id: string)
    requires |kind| > 0 && AllLetters(kind)
    requires |id| > 0 && AllAlnum(id)
    requires q + |Host| + |kind| + 1 + |id| <= |s|
    requires s[q..q + |Host|] == Host
    requires s[q + |Host|..q + |Host| + |kind|] == kind
    requires s[q + |Host| + |kind|] == '/'
    requires s[q + |Host| + |kind| + 1..q + |Host| + |kind| + 1 + |id|] == id
    requires q + |Host| + |kind| + 1 + |id| == |s| || !IsAlnum(s[q + |Host| + |kind| + 1 + |id|])
    ensures MatchRest(s, 0, q) == Some(LinkMatch(0, q + |Host| + |kind| + 1 + |id|, s[..q], kind, id))
  {
    var t := q + |Host|;
    assert StartsWith(s[q..], Host) by {
      assert s[q..][..|Host|] == s[q..t];
    }
    LetterRunOf(s, t, kind);
    AlnumRunOf(s, t + |kind| + 1, id);
    MatchRestUnfold(s, q, |kind|, |id|);
    assert s[0..q] == s[..q];
  }

  /** The rest of a share link, after its scheme, is recognised with its captures. */
  lemma LinkRest(scheme: string, kind: string, id: string, suffix: string)
    requires |kind| > 0 && AllLetters(kind)
    requires |id| > 0 && AllAlnum(id)
    requires |suffix| == 0 || !IsAlnum(suffix[0])
    ensures var link := ShareLink(scheme, kind, id);
      MatchRest(link + suffix, 0, |scheme|) == Some(LinkMatch(0, |link|, scheme, kind, id))
  {
    var link := ShareLink(scheme, kind, id);
    var s := link + suffix;
    var q := |scheme|;
    var t := q + |Host|;
    var u := t + |kind| + 1;
    var e := u + |id|;
    assert s[..q] == scheme;
    assert s[q..t] == Host;
    assert s[t..t + |kind|] == kind;
    assert s[t + |kind|] == '/';
    assert s[u..e] == id;
    assert |link| == e;
    if e < |s| {
      assert s[e] == suffix[0];
    }
    MatchRestExact(s, q, kind, id);
  }

  /** How `MatchAt` at the start of a string picks its scheme. */
  lemma MatchAtStartCases(s: string, mode: SchemeMode)
    ensures StartsWith(s, "https://") && MatchRest(s, 0, 8).Some?
            ==> MatchAt(s, 0, mode) == MatchRest(s, 0, 8)
    ensures (mode.OptionalScheme? && !StartsWith(s, "https://") && StartsWith(s, "http://")
             && MatchRest(s, 0, 7).Some?)
            ==> MatchAt(s, 0, mode) == MatchRest(s, 0, 7)
    ensures (mode.OptionalScheme? && !StartsWith(s, "https://") && !StartsWith(s, "http://"))
            ==> MatchAt(s, 0, mode) == MatchRest(s, 0, 0)
  {
    assert s[0..] == s;
  }

  /** With a valid scheme in front of the host, `MatchAt` takes exactly that scheme. */
  lemma SchemeChoice(s: string, mode: SchemeMode, scheme: string)
    requires ValidScheme(mode, scheme)
    requires |scheme| < |s| && s[..|scheme|] == scheme && s[|scheme|] == 'o'
    requires MatchRest(s, 0, |scheme|).Some?
    ensures MatchAt(s, 0, mode) == MatchRest(s, 0, |scheme|)
  {
    MatchAtStartCases(s, mode);
    if scheme == "" {
      assert s[0] == 'o';
      assert !StartsWith(s, "https://") && !StartsWith(s, "http://");
    } else if scheme == "http://" {
      assert s[4] == scheme[4] == ':';
      assert !StartsWith(s, "https://") && StartsWith(s, "http://");
    } else {
      assert StartsWith(s, "https://");
    }
  }

  /** A share link is matched at its very start. */
  lemma LinkMatchAtStart(mode: SchemeMode, scheme: string, kind: string, id: string, suffix: string)
    requires ValidScheme(mode, scheme)
    requires |kind| > 0 && AllLetters(kind)
    requires |id| > 0 && AllAlnum(id)
    requires |suffix| == 0 || !IsAlnum(suffix[0])
    ensures var link := ShareLink(scheme, kind, id);
      MatchAt(link + suffix, 0, mode) == Some(LinkMatch(0, |link|, scheme, kind, id))
  {
    var s := ShareLink(scheme, kind, id) + suffix;
    LinkRest(scheme, kind, id, suffix);
    assert s[..|scheme|] == scheme && s[|scheme|] == Host[0];
    SchemeChoice(s, mode, scheme);
  }

  /** Reading a share link back: a link built from a valid scheme, a type and an id,
      followed by anything that does not continue the id (such as "?si=..."), is
      matched at its start with exactly those captures. */
  lemma ShareLinkRoundTrip(mode: SchemeMode, scheme: string, kind: string, id: string, suffix: string)
    requires ValidScheme(mode, scheme)
    requires |kind| > 0 && AllLetters(kind)
    requires |id| > 0 && AllAlnum(id)
    requires |suffix| == 0 || !IsAlnum(suffix[0])
    ensures var link := ShareLink(scheme, kind, id);
      FindMatch(link + suffix, mode) == Some(LinkMatch(0, |link|, scheme, kind, id))
  {
    LinkMatchAtStart(mode, scheme, kind, id, suffix);
  }
}

=== FILE: text.dfy ===
/** String operations of Go's standard library that the adapters rely on:
    `strings.ReplaceAll`, `strings.Trim(s, " ")`, `strings.Join`, `fmt.Sprintf("%d")`
    and `strconv.Atoi` — written out so that their effect on the model is explicit.
 */
module Text {
  import opened Wrappers

  predicate StartsWith(s: string, p: string) {
    |p| <= |s| && s[..|p|] == p
  }

  predicate EndsWith(s: string, p: string) {
    |p| <= |s| && s[|s| - |p|..] == p
  }

  predicate OccursAt(s: string, p: string, i: nat) {
    i + |p| <= |s| && s[i..i + |p|] == p
  }

  ghost predicate Contains(s: string, p: string) {
    exists i: nat :: OccursAt(s, p, i)
  }

  /** No character of `a` occurs in `b`. */
  predicate NoCommonChar(a: string, b: string) {
    forall i, j :: 0 <= i < |a| && 0 <= j < |b| ==> a[i] != b[j]
  }

  predicate IsDigit(c: char) { '0' <= c <= '9' }
  predicate IsLetter(c: char) { 'A' <= c <= 'Z' || 'a' <= c <= 'z' }
  predicate IsAlnum(c: char) { IsLetter(c) || IsDigit(c) }

  /** RE2's `\s`: tab, newline, form feed, carriage return and space. */
  predicate IsSpaceClass(c: char) {
    c == '\t' || c == '\n' || c as int == 12 || c == '\r' || c == ' '
  }

  // ---------------------------------------------------------------------------
  // strings.ReplaceAll: leftmost, non-overlapping replacement of a non-empty pattern.

  function ReplaceAll(s: string, pat: string, rep: string): string
    requires |pat| > 0
    decreases |s|
  {
    if |s| < |pat| then s
    else if s[..|pat|] == pat then rep + ReplaceAll(s[|pat|..], pat, rep)
    else [s[0]] + ReplaceAll(s[1..], pat, rep)
  }

  lemma ContainsShift(s: string, p: string, k: nat, i: nat)
    requires k <= |s|
    requires OccursAt(s[k..], p, i)
    ensures OccursAt(s, p, k + i)
  {
    assert s[k..][i..i + |p|] == s[k + i..k + i + |p|];
  }

  /** A string without the pattern is left unchanged. */
  lemma {:induction false} ReplaceAllAbsent(s: string, pat: string, rep: string)
    requires |pat| > 0
    requires !Contains(s, pat)
    ensures ReplaceAll(s, pat, rep) == s
    decreases |s|
  {
    if |s| < |pat| {
    } else {
      assert !OccursAt(s, pat, 0);
      assert s[..|pat|] != pat;
      if Contains(s[1..], pat) {
        var i: nat :| OccursAt(s[1..], pat, i);
        ContainsShift(s, pat, 1, i);
        assert false;
      }
      ReplaceAllAbsent(s[1..], pat, rep);
      assert [s[0]] + s[1..] == s;
    }
  }

  /** If the replaced string starts with `u`, and the replacement shares no character
      with `u`, then the original already started with `u` and not with the pattern. */
  lemma {:induction false} ReplaceAllStartsWith(t: string, pat: string, rep: string, u: string)
    requires |pat| > 0 && |rep| > 0 && |u| > 0
    requires NoCommonChar(rep, u)
    ensures StartsWith(ReplaceAll(t, pat, rep), u) ==> StartsWith(t, u) && !StartsWith(t, pat)
    decreases |t|
  {
    var r := ReplaceAll(t, pat, rep);
    if |t| < |pat| {
    } else if t[..|pat|] == pat {
      assert r[0] == rep[0] && rep[0] != u[0];
    } else {
      var rest := ReplaceAll(t[1..], pat, rep);
      assert r == [t[0]] + rest;
      if StartsWith(r, u) && |u| > 1 {
        assert rest[..|u| - 1] == r[1..|u|] == u[1..];
        ReplaceAllStartsWith(t[1..], pat, rep, u[1..]);
        assert t[..|u|] == [t[0]] + t[1..][..|u| - 1];
      }
    }
  }

  /** An occurrence of `u` in `rep + rest` lies wholly inside `rest` when `rep`
      shares no character with `u`. */
  lemma OccursAfterPrefix(rep: string, rest: string, u: string, i: nat)
    requires |u| > 0
    requires NoCommonChar(rep, u)
    ensures OccursAt(rep + rest, u, i) ==> i >= |rep| && OccursAt(rest, u, i - |rep|)
  {
    var r := rep + rest;
    if i < |rep| {
      if i + |u| <= |r| {
        assert r[i..i + |u|][0] == rep[i] && rep[i] != u[0];
      }
    } else if i + |u| <= |r| {
      assert rest[i - |rep|..i - |rep| + |u|] == r[i..i + |u|];
    }
  }

  /** Replacing with text that shares no character with `u` never creates an
      occurrence of `u`, and removes every occurrence of the pattern itself. */
  lemma {:induction false} ReplaceAllContains(t: string, pat: string, rep: string, u: string)
    requires |pat| > 0 && |rep| > 0 && |u| > 0
    requires NoCommonChar(rep, u)
    ensures Contains(ReplaceAll(t, pat, rep), u) ==> Contains(t, u) && u != pat
    decreases |t|
  {
    var r := ReplaceAll(t, pat, rep);
    if !Contains(r, u) {
      return;
    }
    var i: nat :| OccursAt(r, u, i);
    if |t| < |pat| {
      assert r == t;
    } else if t[..|pat|] == pat {
      var rest := ReplaceAll(t[|pat|..], pat, rep);
      assert r == rep + rest;
      OccursAfterPrefix(rep, rest, u, i);
      ReplaceAllContains(t[|pat|..], pat, rep, u);
      var j: nat :| OccursAt(t[|pat|..], u, j);
      ContainsShift(t, u, |pat|, j);
    } else {
      var rest := ReplaceAll(t[1..], pat, rep);
      assert r == [t[0]] + rest;
      if i == 0 {
        ReplaceAllStartsWith(t, pat, rep, u);
        assert OccursAt(t, u, 0);
      } else {
        assert rest[i - 1..i - 1 + |u|] == r[i..i + |u|];
        assert OccursAt(rest, u, i - 1);
        ReplaceAllContains(t[1..], pat, rep, u);
        var j: nat :| OccursAt(t[1..], u, j);
        ContainsShift(t, u, 1, j);
      }
    }
  }

  // ---------------------------------------------------------------------------
  // Runs of character classes, as greedy regular-expression classes match them.

  predicate AllLetters(s: string) {
    forall i :: 0 <= i < |s| ==> IsLetter(s[i])
  }

  predicate AllAlnum(s: string) {
    forall i :: 0 <= i < |s| ==> IsAlnum(s[i])
  }

  /** Length of the run of letters starting at `i`. */
  function LetterRun(s: string, i: nat): (n: nat)
    requires i <= |s|
    ensures i + n <= |s|
    decreases |s| - i
  {
    if i < |s| && IsLetter(s[i]) then 1 + LetterRun(s, i + 1) else 0
  }

  /** The run is made of the class and cannot be extended. */
  lemma {:induction false} LetterRunSound(s: string, i: nat)
    requires i <= |s|
    ensures forall k :: i <= k < i + LetterRun(s, i) ==> IsLetter(s[k])
    ensures i + LetterRun(s, i) == |s| || !IsLetter(s[i + LetterRun(s, i)])
    decreases |s| - i
  {
    if i < |s| && IsLetter(s[i]) {
      LetterRunSound(s, i + 1);
    }
  }

  /** Length of the run of letters and digits starting at `i`. */
  function AlnumRun(s: string, i: nat): (n: nat)
    requires i <= |s|
    ensures i + n <= |s|
    decreases |s| - i
  {
    if i < |s| && IsAlnum(s[i]) then 1 + AlnumRun(s, i + 1) else 0
  }

  /** The run is made of the class and cannot be extended. */
  lemma {:induction false} AlnumRunSound(s: string, i: nat)
    requires i <= |s|
    ensures forall k :: i <= k < i + AlnumRun(s, i) ==> IsAlnum(s[k])
    ensures i + AlnumRun(s, i) == |s| || !IsAlnum(s[i + AlnumRun(s, i)])
    decreases |s| - i
  {
    if i < |s| && IsAlnum(s[i]) {
      AlnumRunSound(s, i + 1);
    }
  }

  /** Length of the run of decimal digits starting at `i`. */
  function DigitRun(s: string, i: nat): (n: nat)
    requires i <= |s|
    ensures i + n <= |s|
    decreases |s| - i
  {
    if i < |s| && IsDigit(s[i]) then 1 + DigitRun(s, i + 1) else 0
  }

  /** The run is made of the class and cannot be extended. */
  lemma {:induction false} DigitRunSound(s: string, i: nat)
    requires i <= |s|
    ensures forall k :: i <= k < i + DigitRun(s, i) ==> IsDigit(s[k])
    ensures i + DigitRun(s, i) == |s| || !IsDigit(s[i + DigitRun(s, i)])
    decreases |s| - i
  {
    if i < |s| && IsDigit(s[i]) {
      DigitRunSound(s, i + 1);
    }
  }

  lemma {:induction false} LetterRunExact(s: string, i: nat, n: nat)
    requires i + n <= |s|
    requires forall k :: i <= k < i + n ==> IsLetter(s[k])
    requires i + n == |s| || !IsLetter(s[i + n])
    ensures LetterRun(s, i) == n
    decreases n
  {
    if n > 0 {
      LetterRunExact(s, i + 1, n - 1);
    }
  }

  lemma {:induction false} AlnumRunExact(s: string, i: nat, n: nat)
    requires i + n <= |s|
    requires forall k :: i <= k < i + n ==> IsAlnum(s[k])
    requires i + n == |s| || !IsAlnum(s[i + n])
    ensures AlnumRun(s, i) == n
    decreases n
  {
    if n > 0 {
      AlnumRunExact(s, i + 1, n - 1);
    }
  }

  lemma {:induction false} DigitRunExact(s: string, i: nat, n: nat)
    requires i + n <= |s|
    requires forall k :: i <= k < i + n ==> IsDigit(s[k])
    requires i + n == |s| || !IsDigit(s[i + n])
    ensures DigitRun(s, i) == n
    decreases n
  {
    if n > 0 {
      DigitRunExact(s, i + 1, n - 1);
    }
  }

  /** A slice taken from inside a run of a class lies wholly in that class. */
  lemma LettersSlice(s: string, i: nat, n: nat)
    requires i + n <= |s|
    requires forall k :: i <= k < i + n ==> IsLetter(s[k])
    ensures AllLetters(s[i..i + n])
  {
    var run := s[i..i + n];
    forall j | 0 <= j < n
      ensures IsLetter(run[j])
    {
      assert run[j] == s[i + j];
    }
  }

  lemma AlnumSlice(s: string, i: nat, n: nat)
    requires i + n <= |s|
    requires forall k :: i <= k < i + n ==> IsAlnum(s[k])
    ensures AllAlnum(s[i..i + n])
  {
    var run := s[i..i + n];
    forall j | 0 <= j < n
      ensures IsAlnum(run[j])
    {
      assert run[j] == s[i + j];
    }
  }

  lemma DigitsSlice(s: string, i: nat, n: nat)
    requires i + n <= |s|
    requires forall k :: i <= k < i + n ==> IsDigit(s[k])
    ensures AllDigits(s[i..i + n])
  {
    var run := s[i..i + n];
    forall j | 0 <= j < n
      ensures IsDigit(run[j])
    {
      assert run[j] == s[i + j];
    }
  }

  lemma SliceConcat(s: string, i: nat, j: nat, k: nat)
    requires i <= j <= k <= |s|
    ensures s[i..k] == s[i..j] + s[j..k]
  {
  }

  // ---------------------------------------------------------------------------
  // fmt.Sprintf("%d", n) and strconv.Atoi.

  function DigitChar(d: nat): (c: char)
    requires d < 10
    ensures IsDigit(c)
  {
    "0123456789"[d]
  }

  function DigitValue(c: char): nat
    requires IsDigit(c)
  {
    (c as int - '0' as int) as nat
  }

  function NatToDecimal(n: nat): (s: string)
    decreases n
  {
    if n < 10 then [DigitChar(n)] else NatToDecimal(n / 10) + [DigitChar(n % 10)]
  }

  predicate AllDigits(s: string) {
    forall i :: 0 <= i < |s| ==> IsDigit(s[i])
  }

  lemma {:induction false} NatToDecimalDigits(n: nat)
    ensures |NatToDecimal(n)| > 0 && AllDigits(NatToDecimal(n))
    decreases n
  {
    if n >= 10 {
      NatToDecimalDigits(n / 10);
    }
  }

  /** `fmt.Sprintf("%d", n)` for Go's signed integers. */
  function IntToDecimal(n: int): (s: string)
    ensures |s| > 0
    ensures forall i :: 0 <= i < |s| ==> IsDigit(s[i]) || s[i] == '-'
  {
    NatToDecimalDigits(if n < 0 then -n else n);
    if n < 0 then "-" + NatToDecimal(-n) else NatToDecimal(n)
  }

  /** Value of a digit string, most significant digit first. */
  function DigitsValue(s: string): nat
    requires AllDigits(s)
    decreases |s|
  {
    if |s| == 0 then 0 else DigitsValue(s[..|s| - 1]) * 10 + DigitValue(s[|s| - 1])
  }

  /** Reading back the decimal text of `n` yields `n`. */
  lemma {:induction false} DecimalRoundTrip(n: nat)
    ensures AllDigits(NatToDecimal(n)) && DigitsValue(NatToDecimal(n)) == n
    decreases n
  {
    NatToDecimalDigits(n);
    if n >= 10 {
      var s := NatToDecimal(n);
      DecimalRoundTrip(n / 10);
      assert s[..|s| - 1] == NatToDecimal(n / 10);
    }
  }

  /** Largest value of Go's 64-bit `int`. */
  const MaxInt64: int := 0x7fff_ffff_ffff_ffff

  /** `strconv.Atoi`: an optional sign followed by at least one decimal digit,
      in the range of a 64-bit `int`. */
  function Atoi(s: string): (r: Result<int>)
    ensures r.Ok? ==> -MaxInt64 - 1 <= r.value <= MaxInt64
    ensures AllDigits(s) && |s| > 0 && DigitsValue(s) <= MaxInt64 ==> r == Ok(DigitsValue(s))
    ensures AllDigits(s) && DigitsValue(s) > MaxInt64 ==> r.Err?
  {
    var neg := |s| > 0 && s[0] == '-';
    var body := if |s| > 0 && (s[0] == '-' || s[0] == '+') then s[1..] else s;
    if |body| == 0 || !AllDigits(body) then Err("strconv.Atoi: parsing \"" + s + "\": invalid syntax")
    else
      var v: int := if neg then 0 - DigitsValue(body) else DigitsValue(body);
      if v < -MaxInt64 - 1 || v > MaxInt64 then Err("strconv.Atoi: parsing \"" + s + "\": value out of range")
      else Ok(v)
  }

  // ---------------------------------------------------------------------------
  // strings.Trim(s, " ") and strings.Join.

  function TrimLeftSpaces(s: string): string
    decreases |s|
  {
    if |s| > 0 && s[0] == ' ' then TrimLeftSpaces(s[1..]) else s
  }

  function TrimRightSpaces(s: string): string
    decreases |s|
  {
    if |s| > 0 && s[|s| - 1] == ' ' then TrimRightSpaces(s[..|s| - 1]) else s
  }

  predicate AllSpaces(s: string) {
    forall i :: 0 <= i < |s| ==> s[i] == ' '
  }

  /** `strings.Trim(s, " ")`: drops leading and trailing ' ' only. */
  function TrimSpaces(s: string): string {
    TrimRightSpaces(TrimLeftSpaces(s))
  }

  lemma {:induction false} TrimLeftSpacesSpec(s: string)
    ensures var r := TrimLeftSpaces(s);
      |r| <= |s| && r == s[|s| - |r|..] && AllSpaces(s[..|s| - |r|]) && (|r| > 0 ==> r[0] != ' ')
    decreases |s|
  {
    if |s| > 0 && s[0] == ' ' {
      TrimLeftSpacesSpec(s[1..]);
      var r := TrimLeftSpaces(s);
      assert s[1..][..|s| - 1 - |r|] == s[1..|s| - |r|];
    }
  }

  lemma {:induction false} TrimRightSpacesSpec(s: string)
    ensures var r := TrimRightSpaces(s);
      |r| <= |s| && r == s[..|r|] && AllSpaces(s[|r|..]) && (|r| > 0 ==> r[|r| - 1] != ' ')
    decreases |s|
  {
    if |s| > 0 && s[|s| - 1] == ' ' {
      TrimRightSpacesSpec(s[..|s| - 1]);
      var r := TrimRightSpaces(s);
      assert s[..|s| - 1][|r|..] == s[|r|..|s| - 1];
    }
  }

  /** Trimming keeps a contiguous middle part of the string, drops only spaces around
      it, and leaves no space at either end. */
  lemma TrimSpacesSpec(s: string)
    ensures var r := TrimSpaces(s);
      && |r| <= |s|
      && (exists i :: 0 <= i <= |s| - |r| && r == s[i..i + |r|] && AllSpaces(s[..i]) && AllSpaces(s[i + |r|..]))
      && (|r| > 0 ==> r[0] != ' ' && r[|r| - 1] != ' ')
  {
    var l := TrimLeftSpaces(s);
    TrimLeftSpacesSpec(s);
    TrimRightSpacesSpec(l);
    var r := TrimRightSpaces(l);
    var i := |s| - |l|;
    assert r == s[i..i + |r|];
    assert s[i + |r|..] == l[|r|..];
    if |r| > 0 {
      assert r[0] == l[0];
      TrimLeftSpacesSpec(s);
    }
  }

  /** A string with no space at either end is its own trim. */
  lemma TrimSpacesNoop(s: string)
    requires |s| == 0 || (s[0] != ' ' && s[|s| - 1] != ' ')
    ensures TrimSpaces(s) == s
  {
  }

  /** `strings.Join(parts, sep)`. */
  function Join(parts: seq<string>, sep: string): string
    decreases |parts|
  {
    if |parts| == 0 then ""
    else if |parts| == 1 then parts[0]
    else parts[0] + sep + Join(parts[1..], sep)
  }
}

=== FILE: thing_decoding.dfy ===
/** `model.Thing` as stored: a document tagged with its `thingtype`, decoded into
    the artist, album or track it describes. */
module ThingDecoding {
  import opened Wrappers
  import opened Catalog
  import opened Documents
  import opened ServiceDispatch

  const ThingTypeKey: string := "thingtype"

  /** `model.ArtistThing`, `model.AlbumThing`, `model.TrackThing`. */
  const ArtistThingType: string := "artist"
  const AlbumThingType: string := "album"
  const TrackThingType: string := "track"

  /** `bson.Unmarshal` of a document into each entity type. */
  datatype Decoders = Decoders(
    artist: Doc -> Result<Artist>,
    album: Doc -> Result<Album>,
    track: Doc -> Result<Track>)

  /** `Type()` of a thing. */
  function ThingType(t: Thing): string {
    match t
    case ArtistThing(_) => ArtistThingType
    case AlbumThing(_) => AlbumThingType
    case TrackThing(_) => TrackThingType
    case OtherThing(name) => name
  }

  /** The document's tag, when it is a string; `.(string)` panics otherwise. */
  function Tag(d: Doc): Option<string> {
    if ThingTypeKey in d && d[ThingTypeKey].Str? then Some(d[ThingTypeKey].s) else None
  }

  /** `UnmarshalThing`: the tag chooses the entity type to decode into; an unknown
      tag is an error, a missing or non-string one a panic. */
  function UnmarshalThing(d: Doc, dec: Decoders): (e: Exec<Result<Thing>>)
    ensures e.Panic? <==> Tag(d).None?
    ensures e.Done? && e.value.Ok? ==> !e.value.value.OtherThing? && Tag(d) == Some(ThingType(e.value.value))
    ensures e.Done? && Tag(d).value !in {ArtistThingType, AlbumThingType, TrackThingType} ==>
              e.value == Err("unknown thing type: " + Tag(d).value)
  {
    match Tag(d)
    case None => Panic("interface conversion: interface {} is not string")
    case Some(tag) =>
      if tag == ArtistThingType then
        match dec.artist(d)
        case Err(err) => Done(Err(err))
        case Ok(a) => Done(Ok(ArtistThing(a)))
      else if tag == AlbumThingType then
        match dec.album(d)
        case Err(err) => Done(Err(err))
        case Ok(a) => Done(Ok(AlbumThing(a)))
      else if tag == TrackThingType then
        match dec.track(d)
        case Err(err) => Done(Err(err))
        case Ok(t) => Done(Ok(TrackThing(t)))
      else Done(Err("unknown thing type: " + tag))
  }

  /** Each known tag decodes with its own decoder, whatever the other two do. */
  lemma UnmarshalThingUsesTag(d: Doc, dec: Decoders)
    requires Tag(d).Some?
    ensures Tag(d) == Some(ArtistThingType) ==> UnmarshalThing(d, dec) == Done(MapOk(dec.artist(d), (a: Artist) => ArtistThing(a)))
    ensures Tag(d) == Some(AlbumThingType) ==> UnmarshalThing(d, dec) == Done(MapOk(dec.album(d), (a: Album) => AlbumThing(a)))
    ensures Tag(d) == Some(TrackThingType) ==> UnmarshalThing(d, dec) == Done(MapOk(dec.track(d), (t: Track) => TrackThing(t)))
  {
  }

  function MapOk<T, U>(r: Result<T>, f: T -> U): (m: Result<U>)
    ensures m.Ok? <==> r.Ok?
    ensures r.Ok? ==> m.value == f(r.value)
    ensures r.Err? ==> m.error == r.error
  {
    match r
    case Ok(v) => Ok(f(v))
    case Err(e) => Err(e)
  }

  /** A decoded thing is one a streaming service can search for: the search never
      answers with a nil interface. */
  lemma DecodedThingIsSearchable(d: Doc, dec: Decoders, ss: Service)
    requires UnmarshalThing(d, dec).Done? && UnmarshalThing(d, dec).value.Ok?
    ensures SearchThing(ss, UnmarshalThing(d, dec).value.value).value != NilValue
  {
    SearchThingKeepsKind(ss, UnmarshalThing(d, dec).value.value);
  }

  /** The document decodes without error or panic. */
  predicate Decodes(d: Doc, dec: Decoders) {
    UnmarshalThing(d, dec).Done? && UnmarshalThing(d, dec).value.Ok?
  }

  /** `UnmarshalThingsFromCursor`: the documents decoded in cursor order; the
      first error is returned alone, dropping what was decoded, and a panic ends
      everything. */
  method UnmarshalThingsFromCursor(docs: seq<Doc>, dec: Decoders) returns (r: Exec<Result<seq<Thing>>>)
    ensures (r.Done? && r.value.Ok?) <==> forall i :: 0 <= i < |docs| ==> Decodes(docs[i], dec)
    ensures r.Done? && r.value.Ok? ==>
              |r.value.value| == |docs| && forall i :: 0 <= i < |docs| ==> UnmarshalThing(docs[i], dec) == Done(Ok(r.value.value[i]))
    ensures !(r.Done? && r.value.Ok?) ==>
              exists i :: && 0 <= i < |docs| && (forall j :: 0 <= j < i ==> Decodes(docs[j], dec))
                          && !Decodes(docs[i], dec)
                          && (r.Panic? <==> UnmarshalThing(docs[i], dec).Panic?)
                          && (r.Done? ==> r.value.error == UnmarshalThing(docs[i], dec).value.error)
  {
    var things: seq<Thing> := [];
    var i := 0;
    while i < |docs|
      invariant 0 <= i <= |docs| && |things| == i
      invariant forall j :: 0 <= j < i ==> Decodes(docs[j], dec) && UnmarshalThing(docs[j], dec) == Done(Ok(things[j]))
    {
      var thing := UnmarshalThing(docs[i], dec);
      if thing.Panic? {
        return Panic(thing.reason);
      }
      if thing.value.Err? {
        return Done(Err(thing.value.error));
      }
      things := things + [thing.value.value];
      i := i + 1;
    }
    return Done(Ok(things));
  }
}

=== FILE: thing_model.dfy ===
/** The frontend's catalogue item (an artist, album or track as the API returns it)
    and the two helpers every page uses: choosing the item to preview and joining
    artist names for display. */
module ThingModel {
  import opened Wrappers
  import opened Text

  /** The fields the pages read. A field the JSON omits is `None` (JavaScript's
      `undefined`); `ThingType` is only present when the API sends it. */
  datatype Thing = Thing(
    thingType: Option<string>,
    name: string,
    link: string,
    artworkLink: Option<string>,
    source: string)

  /** `t.ArtworkLink && t.ArtworkLink.length > 0`: present and non-empty. */
  predicate HasArtwork(t: Thing) {
    t.artworkLink.Some? && |t.artworkLink.value| > 0
  }

  /** Index of the first item with artwork, if there is one. */
  function FirstWithArtwork(things: seq<Thing>): (r: Option<nat>)
    ensures r.Some? ==> r.value < |things| && HasArtwork(things[r.value])
    ensures r.Some? ==> forall j :: 0 <= j < r.value ==> !HasArtwork(things[j])
    ensures r.None? ==> forall j :: 0 <= j < |things| ==> !HasArtwork(things[j])
    decreases |things|
  {
    if |things| == 0 then None
    else if HasArtwork(things[0]) then Some(0)
    else
      match FirstWithArtwork(things[1..])
      case None => None
      case Some(i) => Some(i + 1)
  }

  /** `findBestThing`: `Array.prototype.find` with the artwork test. The non-null
      assertion `!` is a type-level cast only, so `None` (undefined) is a real result. */
  function FindBestThing(things: seq<Thing>): (r: Option<Thing>)
    ensures r.None? <==> forall j :: 0 <= j < |things| ==> !HasArtwork(things[j])
    ensures r.Some? ==> exists i :: 0 <= i < |things| && things[i] == r.value && HasArtwork(r.value)
                          && forall j :: 0 <= j < i ==> !HasArtwork(things[j])
  {
    match FirstWithArtwork(things)
    case None => None
    case Some(i) => Some(things[i])
  }

  /** Reference reading of the artist-name format: nothing for no names, the name
      itself for one, otherwise ", " between names and " and " before the last. */
  function ArtistList(names: seq<string>): string {
    if |names| == 0 then ""
    else if |names| == 1 then names[0]
    else Join(names[..|names| - 1], ", ") + " and " + names[|names| - 1]
  }

  lemma {:induction false} JoinSnoc(parts: seq<string>, x: string, sep: string)
    requires |parts| > 0
    ensures Join(parts + [x], sep) == Join(parts, sep) + sep + x
    decreases |parts|
  {
    if |parts| > 1 {
      assert (parts + [x])[1..] == parts[1..] + [x];
      JoinSnoc(parts[1..], x, sep);
    } else {
      assert (parts + [x])[1..] == [x];
    }
  }

  /** `formatArtistNames`, loop as written: the separator before name `i` is " and "
      when `i` is the last index and ", " when `0 < i`. */
  method FormatArtistNames(names: seq<string>) returns (formatted: string)
    ensures formatted == ArtistList(names)
    ensures |names| == 0 ==> formatted == ""
    ensures |names| == 1 ==> formatted == names[0]
  {
    if |names| == 1 {
      return names[0];
    }
    formatted := "";
    var i := 0;
    while i < |names|
      invariant 0 <= i <= |names|
      invariant i < |names| ==> formatted == Join(names[..i], ", ")
      invariant i == |names| ==> formatted == ArtistList(names)
    {
      if i == |names| - 1 {
        formatted := formatted + " and ";
      } else if i > 0 {
        formatted := formatted + ", ";
      }
      formatted := formatted + names[i];
      if 0 < i < |names| - 1 {
        assert names[..i + 1] == names[..i] + [names[i]];
        JoinSnoc(names[..i], names[i], ", ");
      } else if i == 0 && i < |names| - 1 {
        assert names[..1] == [names[0]];
      }
      i := i + 1;
    }
  }

  /** The two worked examples of the format. */
  lemma ArtistListExamples()
    ensures ArtistList(["A", "B"]) == "A and B"
    ensures ArtistList(["A", "B", "C"]) == "A, B and C"
  {
    assert ["A", "B"][..1] == ["A"];
    assert ["A", "B", "C"][..2] == ["A", "B"];
    assert ["A", "B"][1..] == ["B"];
  }
}

=== FILE: wrappers.dfy ===
/** Failure-carrying datatypes shared by every module of the model.
    - Option<T>: a Go nil pointer / a TypeScript `undefined`.
    - Result<T>: a Go `(value, error)` pair, with the error reduced to its message.
    - Exec<T>: a computation that may stop abruptly — a Go panic or an uncaught
      JavaScript TypeError — rather than return a value.
 */
module Wrappers {

  datatype Option<+T> = None | Some(value: T) {
    function GetOr(default: T): T {
      match this
      case Some(v) => v
      case None => default
    }
  }

  datatype Result<+T> = Ok(value: T) | Err(error: string) {
    predicate IsFailure() {
      Err?
    }
  }

  datatype Exec<+T> = Done(value: T) | Panic(reason: string)
}
